=== FILE: README.md ===
# Mimic hub console — a Dafny model

The mimic hub console is a React front end over a FastAPI/SQLAlchemy
back end. It records robot-learning tasks, their variants, the items a
variant needs, subdatasets of recorded episodes and the configuration
images stored in a cloud bucket. This project models the parts of it
that hold logic:

- **Back-end CRUD layer** (`crud/task.py`, `crud/subdataset.py`,
  `crud/item.py`). Each table is an in-memory map from primary key to
  record, with the next key of the auto-increment sequence. The model
  covers create, get, filtered and paginated listing, partial update
  and delete, including the ORM delete cascades. The item update
  schema lets `name` be sent as `null`, but the column is `NOT NULL`,
  so such an update fails at commit; the model returns a not-null
  error and leaves the table unchanged.
- **HTTP endpoints** (`tasks.py`, `subdatasets.py`, `raw_episodes.py`).
  The model covers their 404 guards, the 500 FastAPI answers when a
  stored row with a null required field fails the route's response
  model (after the commit, on the update routes), the rule that a nested episode
  route only reaches episodes of the subdataset in its path, and the
  subdataset filter dispatch of the flat episode list.
- **Image upload** (`upload.py`, `gcs_service.py`). The model covers
  validation, the object-name scheme `{task}_{variant}_{start|end}{ext}`,
  the `gs://` URI and the choice of content type.
- **Front-end page logic**, written as pure functions over the page
  state:
  - the two item-list editors (the merging `ItemSelector` and the
    variant edit page's appending one) and the delete-then-repost item
    sync;
  - form validation and the comma-separated media parsing;
  - the partial update for the default variant;
  - classification of images by `_{variant}_start` / `_{variant}_end`,
    with the download and preview pairing;
  - the episode statistics of the subdataset page;
  - the expand toggles, the name search, the task edit page's local
    lists and the link form's state machine.

JavaScript details are modelled explicitly: truthiness (an id of 0
counts as unset), `trim`'s whitespace set versus Python's `strip`,
ASCII lower-casing, `find` returning the first match, and `Number('')`
being 0. Database scan order is not fixed by SQL, so every list query
takes the scan order as a parameter.

Files: `wrappers`, `seqs`, `text` (helpers); `store`, `task_crud`,
`subdataset_crud`, `item_crud`, `http`, `task_api`, `subdataset_api`,
`raw_episode_api` (back end); `storage`, `upload` (bucket naming and
upload endpoints); `item_model`, `item_selector`, `item_links`,
`form_input`, `config_images`, `variant_edit`, `variant_create`,
`task_create`, `items_page`, `episode_stats`, `expand_toggle`,
`task_edit`, `link_variant` (front end).

## Model

| member | source | states |
|---|---|---|
| Store.EmptyTable | backend/app/models/task.py:6-10 | an empty table is valid: no rows, and the sequence has not been used |
| Store.Get | backend/app/crud/task.py:22-23 | a row iff the key is present, and then the stored record |
| Store.Replace | backend/app/crud/task.py:47-52 | the same keys and sequence; only the given key holds the new record |
| Store.RemoveWhere | backend/app/models/task.py:17 | exactly the rows failing the predicate remain, unchanged |
| Store.Insert | backend/app/crud/task.py:10-20 | the record is stored under a fresh positive key that was unused; other rows are unchanged |
| Store.Remove | backend/app/crud/task.py:54-61 | false and no change iff the key is absent; otherwise exactly that key is gone and the rest is unchanged |
| Store.Query | backend/app/crud/task.py:32-37 | every returned row matches the filter and lies on the scan path; every matching row on the scan path is returned |
| Store.Page | backend/app/crud/task.py:39 | `offset(skip).limit(limit)`: length `min(limit, max(0, n - skip))`, and element i is input element `skip + i` |
| Store.List | backend/app/crud/task.py:25-39 | exactly the page of the filtered scan: the first `skip` matches are passed over and the next ones fill the page up to `limit` or until the matches run out; each row is stored and matches |
| Store.QueryNoMatch | backend/app/crud/task.py:25-39 | a filter no stored row satisfies gives an empty result in any scan order |
| Store.PageSplit | backend/app/crud/task.py:39 | two consecutive pages of sizes a and b equal the first page of size a + b |
| Store.QueryExact | backend/app/crud/subdataset.py:36-43 | when the scan visits each key once, the query returns every matching row exactly once |
| Store.Over | backend/app/crud/task.py:46-48 | an unset field keeps its value; a set field (even to null) takes the new value |
| TaskCrud.NewTask | backend/app/crud/task.py:11-16 | the new row copies name, description, status and external flag from the body |
| TaskCrud.NewVariant | backend/app/crud/task.py:65-74 | the new row takes the task id from the argument and every other field from the body |
| TaskCrud.CreateTask | backend/app/crud/task.py:10-20 | stores name, description, status and external flag as given, under a fresh id; variants untouched |
| TaskCrud.DefaultTaskCreate | backend/app/schemas/task.py:27-34 | a body with only a name has status "created", no description and is not external |
| TaskCrud.GetTask | backend/app/crud/task.py:22-23 | the task under the id, or none iff the id is absent |
| TaskCrud.GetTasks | backend/app/crud/task.py:25-39 | the page after `skip` of the tasks matching the status and external filters when given, at most `limit` |
| TaskCrud.ApplyTaskUpdate | backend/app/crud/task.py:46-48 | exactly the set fields change |
| TaskCrud.UpdateTask | backend/app/crud/task.py:41-52 | none and no change iff the id is absent; otherwise only that task changes, and only its set fields |
| TaskCrud.DeleteTask | backend/app/crud/task.py:54-61 | false iff absent; after true the task and all of its variants are gone and nothing else changes |
| TaskCrud.CreateVariant | backend/app/crud/task.py:64-78 | the variant is stored with the task id from the argument and the body's fields |
| TaskCrud.GetVariant | backend/app/crud/task.py:80-81 | the variant under the id, or none iff absent |
| TaskCrud.GetVariants | backend/app/crud/task.py:83-93 | the page after `skip` of the variants with the given task id, at most `limit` |
| TaskCrud.ApplyVariantUpdate | backend/app/crud/task.py:104-106 | exactly the set fields change; the owning task never does |
| TaskCrud.UpdateVariant | backend/app/crud/task.py:95-110 | none and no change iff absent; otherwise only that variant's set fields change |
| TaskCrud.DeleteVariant | backend/app/crud/task.py:112-119 | false iff absent; after true that variant is gone and tasks are unchanged |
| TaskCrud.CreateThenGetTask | backend/app/crud/task.py:10-23 | reading a just-created task returns exactly the created record |
| TaskCrud.EmptyUpdateNoChange | backend/app/crud/task.py:46-48 | an update with no field set leaves the database unchanged |
| TaskCrud.UpdateTaskIdempotent | backend/app/crud/task.py:41-52 | applying the same update twice equals applying it once |
| TaskCrud.DeleteTaskGone | backend/app/crud/task.py:54-61 | after a successful delete the task can no longer be read |
| TaskCrud.DeleteTaskKeepsOtherVariants | backend/app/models/task.py:17 | the cascade removes only the deleted task's variants |
| TaskCrud.CreatedVariantListed | backend/app/crud/task.py:83-93 | a created variant is listed for its task when the page is large enough |
| SubdatasetCrud.NewSubdataset | backend/app/crud/subdataset.py:14-20 | the new row copies name, description, notes, embodiment and teleop mode from the body |
| SubdatasetCrud.CreateSubdataset | backend/app/crud/subdataset.py:13-24 | stores the body's fields under a fresh id; episodes untouched |
| SubdatasetCrud.GetSubdataset | backend/app/crud/subdataset.py:26-27 | the subdataset under the id, or none iff absent |
| SubdatasetCrud.GetSubdatasets | backend/app/crud/subdataset.py:29-43 | the page after `skip` of the rows matching the embodiment and teleop-mode filters when given, at most `limit` |
| SubdatasetCrud.ApplySubdatasetUpdate | backend/app/crud/subdataset.py:54-56 | exactly the set fields change |
| SubdatasetCrud.UpdateSubdataset | backend/app/crud/subdataset.py:45-60 | none and no change iff absent; otherwise only that row's set fields change |
| SubdatasetCrud.DeleteSubdataset | backend/app/crud/subdataset.py:62-69 | false iff absent; after true the subdataset and its episodes are gone, other episodes stay |
| SubdatasetCrud.CreateEpisode | backend/app/crud/subdataset.py:72-89 | the episode is stored with the subdataset id from the argument |
| SubdatasetCrud.GetEpisode | backend/app/crud/subdataset.py:91-92 | the episode under the id, or none iff absent |
| SubdatasetCrud.GetEpisodes | backend/app/crud/subdataset.py:94-106 | the page after `skip` of that subdataset's episodes, with the label when one is given, at most `limit` |
| SubdatasetCrud.GetAllEpisodes | backend/app/crud/subdataset.py:108-122 | the page after `skip` of the episodes of any subdataset, filtered by label only, at most `limit` |
| SubdatasetCrud.ApplyEpisodeUpdate | backend/app/crud/subdataset.py:133-135 | exactly the set fields change and the owner stays |
| SubdatasetCrud.UpdateEpisode | backend/app/crud/subdataset.py:124-139 | none and no change iff absent; otherwise only that episode's set fields change |
| SubdatasetCrud.DeleteEpisode | backend/app/crud/subdataset.py:141-148 | false iff absent; after true only that episode is gone |
| SubdatasetCrud.UpdateKeepsOwner | backend/app/crud/subdataset.py:124-139 | no update moves an episode to another subdataset |
| SubdatasetCrud.OwnerQueryNarrows | backend/app/crud/subdataset.py:94-122 | the per-subdataset listing is the all-episodes listing restricted to that subdataset |
| ItemCrud.CreateItem | backend/app/crud/item.py:8-18 | stores name, url, images and notes as given under a fresh id |
| ItemCrud.GetItem | backend/app/crud/item.py:20-21 | the item under the id, or none iff absent |
| ItemCrud.GetItems | backend/app/crud/item.py:23-28 | the page after `skip` of all stored items, at most `limit` |
| ItemCrud.ApplyItemUpdate | backend/app/crud/item.py:35-37 | exactly the set fields change; a name explicitly set to null leaves no valid row, since the name column is not nullable (`models/item.py:9`) |
| ItemCrud.UpdateItem | backend/app/crud/item.py:30-41 | a missing-item error and no change iff absent; a not-null error and no change iff the update sets the name to null; otherwise only that item's set fields change |
| ItemCrud.UpdateItemIdempotent | backend/app/crud/item.py:30-41 | applying the same update twice leaves the table as applying it once |
| ItemCrud.DeleteItem | backend/app/crud/item.py:43-50 | false iff absent; after true the item is gone |
| ItemCrud.CreateGetDelete | backend/app/crud/item.py:8-50 | a created item reads back unchanged, and deleting it restores the previous rows |
| TaskApi.CreateTaskEndpoint | backend/app/api/v1/endpoints/tasks.py:33-35 | the response row is the stored task |
| TaskApi.ReadTask | backend/app/api/v1/endpoints/tasks.py:54-59 | 404 "Task not found" iff absent; 500 iff present but the stored name, status, external flag or a variant's name is null (response model `Task`); otherwise the stored task |
| TaskApi.UpdateTaskEndpoint | backend/app/api/v1/endpoints/tasks.py:61-70 | 404 and no change iff absent; otherwise the update is stored, variants untouched, and the answer is 500 iff the updated task fails the response model, else the updated task |
| TaskApi.DeleteTaskEndpoint | backend/app/api/v1/endpoints/tasks.py:72-77 | 404 and no change iff absent, else the success message and the task gone |
| TaskApi.CreateVariantEndpoint | backend/app/api/v1/endpoints/tasks.py:80-89 | 404 and no change unless the task exists; the new variant belongs to it |
| TaskApi.ListVariantsEndpoint | backend/app/api/v1/endpoints/tasks.py:91-101 | 404 iff the task is missing; 500 iff a variant on the page has a null name; otherwise exactly the page after `skip` of that task's variants |
| TaskApi.ReadVariant | backend/app/api/v1/endpoints/tasks.py:103-108 | 404 "Task variant not found" iff absent; 500 iff its stored name is null; otherwise the stored variant |
| TaskApi.UpdateVariantEndpoint | backend/app/api/v1/endpoints/tasks.py:110-119 | 404 and no change iff absent; otherwise only that variant changes, and the answer is 500 iff its updated name is null |
| TaskApi.DeleteVariantEndpoint | backend/app/api/v1/endpoints/tasks.py:121-126 | 404 and no change iff absent, else the variant is gone |
| TaskApi.EndpointsKeepOwners | backend/app/api/v1/endpoints/tasks.py:80-126 | when every variant's task exists, it still does after any task or variant endpoint |
| TaskApi.CreatedTaskReads | backend/app/api/v1/endpoints/tasks.py:33-35 | when every variant's task exists, a task created through the endpoint reads back as created, never as a 500 |
| TaskApi.CreatedTaskHasNoVariants | backend/app/crud/task.py:10-20 | when every variant's task exists, listing a freshly created task's variants answers an empty page |
| TaskApi.NulledNameStoredThen500 | backend/app/api/v1/endpoints/tasks.py:54-70 | a `PUT` nulling the name is stored yet answers 500, and the task's `GET` answers 500 from then on |
| SubdatasetApi.ReadSubdataset | backend/app/api/v1/endpoints/subdatasets.py:47-59 | 404 "Subdataset not found" iff absent; 500 iff its stored name is null (response model `Subdataset`); otherwise the stored row |
| SubdatasetApi.UpdateSubdatasetEndpoint | backend/app/api/v1/endpoints/subdatasets.py:61-79 | 404 and no change iff absent; otherwise only set fields change, and the answer is 500 iff the updated name is null |
| SubdatasetApi.NulledNameStoredThen500 | backend/app/api/v1/endpoints/subdatasets.py:47-79 | a `PUT` nulling the name is stored yet answers 500, and the subdataset's `GET` answers 500 from then on |
| SubdatasetApi.DeleteSubdatasetEndpoint | backend/app/api/v1/endpoints/subdatasets.py:81-93 | 404 and no change iff absent, else true and the subdataset gone |
| SubdatasetApi.CreateEpisodeEndpoint | backend/app/api/v1/endpoints/subdatasets.py:96-114 | 404 unless the subdataset exists; the episode is owned by the path subdataset |
| SubdatasetApi.ListEpisodesEndpoint | backend/app/api/v1/endpoints/subdatasets.py:116-138 | 404 unless the subdataset exists; otherwise exactly the page after `skip` of its episodes with the label when given, at most `limit` |
| SubdatasetApi.OwnedEpisode | backend/app/api/v1/endpoints/subdatasets.py:150-155 | succeeds iff the subdataset exists and the episode exists and belongs to it |
| SubdatasetApi.ReadEpisodeEndpoint | backend/app/api/v1/endpoints/subdatasets.py:140-156 | the episode only when it belongs to the path subdataset |
| SubdatasetApi.UpdateEpisodeEndpoint | backend/app/api/v1/endpoints/subdatasets.py:158-180 | no change unless the ownership guard passes |
| SubdatasetApi.DeleteEpisodeEndpoint | backend/app/api/v1/endpoints/subdatasets.py:182-198 | no change unless the ownership guard passes; then only that episode is gone |
| SubdatasetApi.ForeignEpisodeUntouchable | backend/app/api/v1/endpoints/subdatasets.py:150-197 | an episode of another subdataset cannot be read, changed or deleted through this subdataset's routes |
| SubdatasetApi.EndpointsKeepOwners | backend/app/models/subdataset.py:17 | with the cascade, no endpoint leaves an episode without its subdataset |
| RawEpisodeApi.CreateEndpoint | backend/app/api/v1/endpoints/raw_episodes.py:11-29 | 404 unless the subdataset exists; otherwise the episode is stored for it |
| RawEpisodeApi.ListEndpoint | backend/app/api/v1/endpoints/raw_episodes.py:31-66 | with a subdataset id, 404 or the page after `skip` of that subdataset's episodes; without one, the page after `skip` of the label-filtered episodes of every subdataset |
| RawEpisodeApi.ReadEndpoint | backend/app/api/v1/endpoints/raw_episodes.py:68-80 | 404 "Raw episode not found" iff absent |
| RawEpisodeApi.UpdateEndpoint | backend/app/api/v1/endpoints/raw_episodes.py:82-100 | 404 and no change iff absent |
| RawEpisodeApi.DeleteEndpoint | backend/app/api/v1/endpoints/raw_episodes.py:102-114 | 404 and no change iff absent, else true and the episode gone |
| RawEpisodeApi.FlatReadWeakerThanNested | backend/app/api/v1/endpoints/raw_episodes.py:68-80 | the flat read succeeds whenever the nested one does; the converse fails exactly for foreign episodes |
| RawEpisodeApi.CreateRoutesAgree | backend/app/api/v1/endpoints/raw_episodes.py:11-29 | both create routes store the same record |
| Storage.GenerateFilename | backend/app/core/gcs_service.py:69-82 | the name starts with the decimal task id, and its length is the sum of its parts plus two separators |
| Storage.GsUri | backend/app/core/gcs_service.py:67 | the URI is `gs://`, the bucket, `/` and the filename, in that order |
| Storage.LastIndexOf | backend/app/api/v1/endpoints/upload.py:54 | -1 or the index of the last occurrence of the character, with none after it |
| Storage.GeneratedNameCarriesMarker | backend/app/core/gcs_service.py:82 | a start (end) filename contains `_{variant}_start` (`_end`) |
| Storage.GeneratedUriFound | backend/app/core/gcs_service.py:67-82 | the page's first-match lookup finds a generated URI under the kind it was made for |
| Storage.StartEndNamesDiffer | backend/app/core/gcs_service.py:82 | start and end names for the same task, variant and extension differ |
| Storage.FilenameRoundTrip | backend/app/core/gcs_service.py:82 | splitting a generated name at `_` gives back the task id, variant id and type with extension, and the ids parse back |
| Storage.FilenameInjective | backend/app/core/gcs_service.py:82 | different task or variant ids never give the same name |
| Storage.ChooseContentType | backend/app/core/gcs_service.py:55-61 | a non-empty explicit type wins; else a non-empty guess; else none |
| Storage.Extension | backend/app/api/v1/endpoints/upload.py:54 | `splitext`'s extension is non-empty iff the final path component has a `.` with a non-dot character before it, and is then the suffix from the last `.` (a dot followed by neither `/` nor `.`) |
| Storage.ExtensionCondition | backend/app/api/v1/endpoints/upload.py:54 | the last-separator and last-dot test agrees with the component-wise condition for an extension |
| Storage.ExtensionExamples | backend/app/api/v1/endpoints/upload.py:54 | `a.png` gives `.png`; a dot file and a dotted directory give no extension |
| Upload.FileExtension | backend/app/api/v1/endpoints/upload.py:54 | `.jpg` when the filename is missing or empty, else the filename's own extension |
| Upload.StoreOne | backend/app/api/v1/endpoints/upload.py:52-57 | the stored name and URI follow the naming scheme; an allowed type is set on the blob |
| Upload.Validate | backend/app/api/v1/endpoints/upload.py:21-48 | passes iff the stripped name is non-empty, an image is given and every given image has an allowed type; failures are 400s in the source's order |
| Upload.StoreAll | backend/app/api/v1/endpoints/upload.py:50-70 | one URI and object per given image, the start image first, each URI naming its object |
| Upload.StoredTypesAllowed | backend/app/api/v1/endpoints/upload.py:33-65 | images that passed the type check are stored with an allowed content type |
| Upload.UploadTaskImages | backend/app/api/v1/endpoints/upload.py:8-74 | validation errors first, then 500 on a storage failure; on success one URI per given image, start before end, each with its blob |
| Upload.UploadedUrisAreFound | backend/app/api/v1/endpoints/upload.py:52-70 | in the returned list the start URI is found under the start kind, and the end URI under the end kind unless the start URI also carries the end marker |
| Upload.EndMarkerCollision | backend/app/api/v1/endpoints/upload.py:52-70 | with bucket `b_5_end` the end lookup of variant 5 returns the start URI |
| Upload.BothImagesStoredApart | backend/app/api/v1/endpoints/upload.py:52-65 | start and end images with the same extension get different names |
| Upload.GetImagesAsBase64AsWritten | backend/app/api/v1/endpoints/upload.py:76-93 | succeeds iff the request is empty, and then with no images; otherwise 500 |
| Upload.AsWrittenPreviewIsUri | backend/app/api/v1/endpoints/upload.py:82-93 | with that endpoint, a variant's start image is previewed by its bare bucket URI |
| Upload.ResponseImages | frontend/src/components/ConfigurationImages.tsx:27-35 | images reach the page iff the endpoint answered without error |
| Upload.GetImagesAsBase64 | backend/app/api/v1/endpoints/upload.py:82-89 | succeeds iff every download does; then same length and order as the request |
| Upload.DownloadedPreviewShown | frontend/src/components/ConfigurationImages.tsx:27-31 | with the intended endpoint each requested image is previewed with its own download, whatever map an earlier run left |
| ConfigImages.FirstIndexContaining | frontend/src/components/ConfigurationImages.tsx:16-17 | the first index whose URL contains the marker, none iff no URL does |
| ConfigImages.FindImage | frontend/src/components/ConfigurationImages.tsx:16-17 | the first URL containing `_{variant}_start` (`_end`), none iff no URL does |
| ConfigImages.RequestedUris | frontend/src/components/ConfigurationImages.tsx:22 | `[start, end]` with absent or empty entries dropped, start first |
| ConfigImages.FoundImageNonEmpty | frontend/src/components/ConfigurationImages.tsx:16-17 | a found URL is non-empty, so the page treats it as present |
| ConfigImages.NoRequestIffNothingRendered | frontend/src/components/ConfigurationImages.tsx:22-24 | no download request is made exactly when the component renders nothing |
| ConfigImages.ImageMap | frontend/src/components/ConfigurationImages.tsx:28-31 | the map's keys are exactly the requested URIs |
| ConfigImages.ImageMapPairs | frontend/src/components/ConfigurationImages.tsx:29-31 | with distinct URIs, the i-th URI maps to the i-th returned image |
| ConfigImages.PreviewSource | frontend/src/components/ConfigurationImages.tsx:56-58 | the mapped image, or the URI itself when unmapped or empty |
| ConfigImages.LoadedImages | frontend/src/components/ConfigurationImages.tsx:19-41 | no URIs or a failed request keep the earlier map; a successful one replaces it with a map of exactly the requested URIs |
| ConfigImages.FailedDownloadShowsUris | frontend/src/components/ConfigurationImages.tsx:33-35 | a failed download changes no preview; from the initial empty map every preview is the bare URI |
| ItemModel.FindCatalogItem | frontend/src/components/ItemSelector.tsx:45 | the first catalogue entry with the id, none iff absent or not loaded |
| ItemModel.RemoveItemId | frontend/src/components/ItemSelector.tsx:77-80 | no entry with the id remains; every other entry remains; the same filter is the variant edit page's `removeItem` (`TaskVariantEditPage.tsx:363-365`) |
| ItemModel.FirstIndexWithId | frontend/src/components/ItemSelector.tsx:45 | none iff no entry has the id; otherwise the first index holding it |
| ItemModel.RemoveAbsentItemId | frontend/src/components/ItemSelector.tsx:77-80 | removing an id not in the list changes nothing |
| ItemModel.RemoveItemIdAppend | frontend/src/components/ItemSelector.tsx:78 | removal distributes over concatenation |
| ItemModel.RemoveItemIdTotals | frontend/src/components/ItemSelector.tsx:77-80 | the removed id's total becomes 0; every other id's total is unchanged |
| ItemModel.RemoveItemIdKeepsOrder | frontend/src/components/ItemSelector.tsx:78 | survivors keep their relative order |
| ItemModel.RemoveItemIdPreserves | frontend/src/components/ItemSelector.tsx:77-80 | removal keeps ids unique and quantities positive |
| ItemSelector.AddItem | frontend/src/components/ItemSelector.tsx:42-75 | no-op on an unset id, a non-positive quantity or an unknown id; a present id has its quantity raised in place; a new id is appended with the catalogue name |
| ItemSelector.NewEntry | frontend/src/components/ItemSelector.tsx:60-67 | the new entry carries the catalogue item's id, name, url, images and notes with the chosen quantity |
| ItemSelector.MergeQuantity | frontend/src/components/ItemSelector.tsx:52-56 | same length; entries with the id gain the quantity, others are unchanged |
| ItemSelector.MergeTotals | frontend/src/components/ItemSelector.tsx:52-56 | with unique ids, merging raises a present id's total by the quantity and leaves every other total unchanged |
| ItemSelector.SetQuantity | frontend/src/components/ItemSelector.tsx:82-94 | same length; entries with the id take the new quantity, others are unchanged |
| ItemSelector.SetTotals | frontend/src/components/ItemSelector.tsx:82-94 | with unique ids the id's total becomes the new quantity, others unchanged |
| ItemSelector.AddItemPreservesInvariants | frontend/src/components/ItemSelector.tsx:48-69 | unique ids and positive quantities survive an add |
| ItemSelector.AddItemTotals | frontend/src/components/ItemSelector.tsx:49-69 | an accepted add raises the id's total by the quantity and no other total |
| ItemSelector.UpdateQuantity | frontend/src/components/ItemSelector.tsx:82-94 | a quantity of 0 or less removes the id; otherwise only that entry's quantity changes |
| ItemSelector.UpdateQuantityTotals | frontend/src/components/ItemSelector.tsx:82-94 | after an update the id's total is the new quantity (or 0), other totals unchanged |
| ItemSelector.UpdateQuantityPreservesInvariants | frontend/src/components/ItemSelector.tsx:82-94 | unique ids and positive quantities survive an update |
| ItemSelector.AvailableItems | frontend/src/components/ItemSelector.tsx:96-98 | the catalogue entries whose id is not selected, in catalogue order |
| ItemSelector.AvailableItemsDisjointOrdered | frontend/src/components/ItemSelector.tsx:96-98 | the available list is a subsequence of the catalogue and disjoint from the selection |
| ItemSelector.AddedItemNoLongerAvailable | frontend/src/components/ItemSelector.tsx:58-69 | an item just added is not offered again |
| ItemLinks.Apply | frontend/src/pages/TaskVariantEditPage.tsx:242-252 | a post of a linked id and a delete of an unlinked one are refused; otherwise the table gains or loses exactly that link |
| ItemLinks.PostRequests | frontend/src/pages/TaskVariantCreatePage.tsx:75-80 | one post per item, in order, with its id and quantity |
| ItemLinks.SyncRequests | frontend/src/pages/TaskVariantEditPage.tsx:242-252 | every loaded link is deleted, then every local item is posted |
| ItemLinks.DeleteRequests | frontend/src/pages/TaskVariantEditPage.tsx:242-244 | one delete per loaded link, in order |
| ItemLinks.ApplyAllAppend | frontend/src/pages/TaskVariantEditPage.tsx:242-252 | running two request lists in a row stops at the first error, else continues from the first list's table |
| ItemLinks.PostAllSucceedsIff | frontend/src/pages/TaskVariantCreatePage.tsx:75-80 | the post loop succeeds iff the list's ids are unique and none is already linked |
| ItemLinks.PostAllResult | frontend/src/pages/TaskVariantCreatePage.tsx:75-80 | a successful post loop adds exactly the list's links |
| ItemLinks.DeleteAllEmpties | frontend/src/pages/TaskVariantEditPage.tsx:242-244 | deleting every loaded link empties a table holding exactly those links |
| ItemLinks.SyncResult | frontend/src/pages/TaskVariantEditPage.tsx:242-252 | the sync succeeds iff the local ids are unique, and then the links equal the local list |
| ItemLinks.TableOfQuantities | frontend/src/pages/TaskVariantEditPage.tsx:247-251 | the resulting table records each entry's quantity |
| VariantEditPage.AddItem | frontend/src/pages/TaskVariantEditPage.tsx:347-361 | no-op unless an id is selected, the quantity is positive and the id is in the catalogue; otherwise appends one entry and clears the picker |
| VariantEditPage.AddItemTotals | frontend/src/pages/TaskVariantEditPage.tsx:351-356 | an add raises the id's total by the quantity |
| VariantEditPage.AddItemCanDuplicate | frontend/src/pages/TaskVariantEditPage.tsx:351-356 | adding a present id creates a duplicate, and the item sync then fails |
| VariantEditPage.LoadExisting | frontend/src/pages/TaskVariantEditPage.tsx:152-161 | the slot takes the first media URL with its marker, else keeps its value |
| VariantEditPage.SelectFile | frontend/src/pages/TaskVariantEditPage.tsx:261-288 | an `image/` file becomes the new file and clears the delete flag; anything else changes nothing |
| VariantEditPage.RemoveNewImage | frontend/src/pages/TaskVariantEditPage.tsx:290-300 | drops the new file and sets the delete flag |
| VariantEditPage.RemoveExistingImage | frontend/src/pages/TaskVariantEditPage.tsx:302-308 | sets the delete flag, nothing else |
| VariantEditPage.ImagesToDelete | frontend/src/pages/TaskVariantEditPage.tsx:188-194 | flagged non-empty existing URIs, start before end |
| VariantEditPage.FinalMedia | frontend/src/pages/TaskVariantEditPage.tsx:226-230 | kept existing start, kept existing end, then the uploaded URIs |
| VariantEditPage.KeptOrDeleted | frontend/src/pages/TaskVariantEditPage.tsx:188-230 | a non-empty existing URI is kept or deleted, never both |
| VariantEditPage.ReplacedStartImageStillShown | frontend/src/pages/TaskVariantEditPage.tsx:261-288 | after Replace and a new file the old URI is neither deleted nor dropped, and the lookup still finds it |
| VariantEditPage.FinalMediaReplacing | frontend/src/pages/TaskVariantEditPage.tsx:226-230 | the corrected list is the kept start, the kept end, then the uploaded URIs; a URI is kept iff its slot is non-empty and neither flagged nor given a file |
| VariantEditPage.ImagesToDeleteReplacing | frontend/src/pages/TaskVariantEditPage.tsx:188-194 | the corrected deletions are the start then the end URI, each present iff its slot is non-empty and flagged or given a file |
| VariantEditPage.ReplacementShowsNewImage | frontend/src/pages/TaskVariantEditPage.tsx:226-230 | with the correction a replaced start or end URI is not kept, and each existing URI is either kept or deleted |
| VariantEditPage.NewStartImageShown | frontend/src/pages/TaskVariantEditPage.tsx:226-230 | a replacing start upload placed first is what the start lookup finds |
| VariantEditPage.NewEndImageShown | frontend/src/pages/TaskVariantEditPage.tsx:226-230 | a replacing end upload placed last is what the end lookup finds when nothing before it has the end marker |
| VariantEditPage.ExistingPreviewsAsWritten | frontend/src/pages/TaskVariantEditPage.tsx:123-135 | the end preview is read from response position 1 whatever was requested; an empty or missing entry keeps the earlier preview |
| VariantEditPage.LoneEndImageGetsNoPreview | frontend/src/pages/TaskVariantEditPage.tsx:125-135 | a variant with only an end image gets no end preview when the page opens |
| VariantEditPage.ExistingPreviews | frontend/src/pages/TaskVariantEditPage.tsx:123-135 | a preview changes only to a non-empty image of the response for a requested URI |
| VariantEditPage.ExistingPreviewsMatchRequest | frontend/src/pages/TaskVariantEditPage.tsx:125-135 | with one image per requested URI each preview is its own URI's image, an absent image keeps its earlier preview, and from the opening state a preview is set iff its URI is |
| VariantEditPage.Submit | frontend/src/pages/TaskVariantEditPage.tsx:367-382 | "Variant name is required" iff the name is blank; otherwise trimmed texts, the selections and the loaded media |
| VariantEditPage.SubmitStable | frontend/src/pages/TaskVariantEditPage.tsx:367-382 | resubmitting a sent body sends it unchanged |
| VariantCreatePage.GuardedMediaIsParse | frontend/src/pages/TaskVariantCreatePage.tsx:106-108 | the blank guard agrees with the plain parse |
| VariantCreatePage.GuardedMedia | frontend/src/pages/TaskVariantCreatePage.tsx:106-108 | blank input gives no entries, and no entry is ever empty |
| VariantCreatePage.ExistingNamesLower | frontend/src/pages/TaskVariantCreatePage.tsx:100 | the loaded names lower-cased in place, or none while loading |
| VariantCreatePage.LowerEach | frontend/src/pages/TaskVariantCreatePage.tsx:100 | the `map` keeps the length and lower-cases each name at its own position |
| VariantCreatePage.Submit | frontend/src/pages/TaskVariantCreatePage.tsx:88-116 | refused with no task, then with a blank name, then with a case-insensitive duplicate; otherwise trimmed fields and parsed media |
| VariantCreatePage.SubmittedNameIsNew | frontend/src/pages/TaskVariantCreatePage.tsx:99-104 | an accepted name differs, ignoring ASCII case, from every loaded variant name |
| VariantCreatePage.CaseVariantRefused | frontend/src/pages/TaskVariantCreatePage.tsx:100-104 | " Default " is refused once "default" exists |
| VariantCreatePage.CreatedVariantLinks | frontend/src/pages/TaskVariantCreatePage.tsx:75-80 | posting the items to the new variant succeeds iff their ids are unique, and then links exactly them |
| TaskCreatePage.Submit | frontend/src/pages/TaskCreatePage.tsx:80-93 | "Task name is required" iff blank; otherwise trimmed name and description, status and external flag unchanged |
| TaskCreatePage.BuildPatch | frontend/src/pages/TaskCreatePage.tsx:58-65 | a field is present exactly when its input is non-empty; media is parsed |
| TaskCreatePage.PatchEmptyIffNoFollowUp | frontend/src/pages/TaskCreatePage.tsx:51-65 | the patch is empty exactly when no follow-up is wanted |
| TaskCreatePage.BlankMediaSendsEmptyList | frontend/src/pages/TaskCreatePage.tsx:62-65 | whitespace-only media input still sends `media = []` |
| TaskCreatePage.FirstNamed | frontend/src/pages/TaskCreatePage.tsx:55 | the first variant named exactly as given |
| TaskCreatePage.FollowUp | frontend/src/pages/TaskCreatePage.tsx:51-68 | sent only when wanted and a variant is named exactly `default`, with the built patch |
| TaskCreatePage.FollowUpNeedsExactName | frontend/src/pages/TaskCreatePage.tsx:55-57 | a variant named `Default` is not updated |
| ItemsPage.CreateBody | frontend/src/pages/ItemsPage.tsx:62-74 | "Item name is required" iff blank; otherwise trimmed name, blank url and notes dropped |
| ItemsPage.CreateBodyStable | frontend/src/pages/ItemsPage.tsx:62-74 | typing a sent body back sends the same body |
| ItemsPage.AfterCreate | frontend/src/pages/ItemsPage.tsx:45-49 | success hides and clears the form; failure keeps it |
| ItemsPage.ClearedFormRefused | frontend/src/pages/ItemsPage.tsx:45-49 | the cleared form would refuse to submit |
| ItemsPage.DeleteRequest | frontend/src/pages/ItemsPage.tsx:76-80 | a delete is issued iff confirmed |
| FormInput.BlankIffAllSpaces | frontend/src/pages/TaskVariantCreatePage.tsx:94 | `!name.trim()` holds iff every character is whitespace |
| FormInput.ParseMediaEntries | frontend/src/pages/TaskVariantCreatePage.tsx:107 | every parsed entry is non-empty, trimmed and comma-free |
| FormInput.TrimEach | frontend/src/pages/TaskVariantCreatePage.tsx:107 | same length, every piece trimmed in place |
| FormInput.ParseMedia | frontend/src/pages/TaskVariantCreatePage.tsx:107 | split at commas, trim each piece and drop empty ones: no entry is empty |
| FormInput.ParseMediaSingle | frontend/src/pages/TaskVariantCreatePage.tsx:107 | comma-free input parses to nothing when blank, else to its trimmed self |
| FormInput.ParseMediaAppend | frontend/src/pages/TaskVariantCreatePage.tsx:107 | entries keep their comma order |
| FormInput.BlankParsesEmpty | frontend/src/pages/TaskCreatePage.tsx:62-64 | whitespace-only input parses to no entries |
| FormInput.OptionalTrimmed | frontend/src/pages/ItemsPage.tsx:71-72 | the trimmed value, or nothing when it is blank or absent |
| EpisodeStats.RawStats | frontend/src/pages/SubdatasetDetailPage.tsx:104-112 | zeros when not loaded; otherwise total, exact `good` and `bad` counts, with good + bad at most total |
| EpisodeStats.CountLabel | frontend/src/pages/SubdatasetDetailPage.tsx:104-112 | the count never exceeds the number of labels |
| EpisodeStats.CountTwoLabels | frontend/src/pages/SubdatasetDetailPage.tsx:104-112 | two different labels together count at most the number of labels |
| EpisodeStats.CountLabelAppend | frontend/src/pages/SubdatasetDetailPage.tsx:104-112 | counting is additive over concatenation |
| EpisodeStats.RawLabels | frontend/src/pages/SubdatasetDetailPage.tsx:107-110 | the i-th label is the i-th raw episode's label |
| EpisodeStats.JoinedLabel | frontend/src/pages/SubdatasetDetailPage.tsx:119-123 | no label when the raw id is unmatched; otherwise the matched episode's label |
| EpisodeStats.JoinedLabels | frontend/src/pages/SubdatasetDetailPage.tsx:119-123 | one joined label per processed episode, in order |
| EpisodeStats.RawMapUnique | frontend/src/pages/SubdatasetDetailPage.tsx:119 | with distinct ids every raw episode is found under its own id |
| EpisodeStats.DisplayedFirstMatch | frontend/src/pages/SubdatasetDetailPage.tsx:252 | the listed label comes from the first raw episode with the id |
| EpisodeStats.RawMap | frontend/src/pages/SubdatasetDetailPage.tsx:118-119 | keys are the raw ids; each value is a row with that id, and for a repeated id it is the last such row |
| EpisodeStats.ProcessedStats | frontend/src/pages/SubdatasetDetailPage.tsx:115-126 | zeros unless both lists are loaded; otherwise the total and the counts of joined labels |
| EpisodeStats.UnmatchedCountsTotalOnly | frontend/src/pages/SubdatasetDetailPage.tsx:121-123 | a processed episode without a fetched raw episode adds to the total only |
| EpisodeStats.DisplayedLabel | frontend/src/pages/SubdatasetDetailPage.tsx:252 | "N/A" when no raw episode has the id |
| EpisodeStats.DisplayAgreesWithStats | frontend/src/pages/SubdatasetDetailPage.tsx:119-123 | with distinct raw ids the listed label is the counted one |
| EpisodeStats.DuplicateIdsDisagree | frontend/src/pages/SubdatasetDetailPage.tsx:119 | with a duplicate id the list shows the first row, the stats count the last |
| EpisodeStats.FetchedRawTotalBounded | frontend/src/pages/SubdatasetDetailPage.tsx:87 | the raw total never exceeds the 10000 requested |
| ExpandToggle.Click | frontend/src/pages/SubdatasetsPage.tsx:123 | the clicked row flips; no other row is expanded |
| ExpandToggle.ClickTwice | frontend/src/pages/SubdatasetsPage.tsx:123 | two clicks collapse a row unless it started expanded |
| ExpandToggle.FetchFollowsExpansion | frontend/src/pages/SubdatasetsPage.tsx:72-76 | for a positive id the detail query runs iff the row is expanded |
| SubdatasetsPage.Filtered | frontend/src/pages/SubdatasetsPage.tsx:80-82 | none while unloaded; otherwise a subsequence holding exactly the case-insensitive matches |
| SubdatasetsPage.EmptySearchKeepsAll | frontend/src/pages/SubdatasetsPage.tsx:80-82 | an empty search lists everything in order |
| SubdatasetsPage.SearchIgnoresCase | frontend/src/pages/SubdatasetsPage.tsx:81 | a search and its lower-cased form give the same list |
| SubdatasetsPage.PlaceholderIffNoMatch | frontend/src/pages/SubdatasetsPage.tsx:117-118 | the placeholder shows iff unloaded or nothing matches |
| TasksPage.ClickTask | frontend/src/pages/TasksPage.tsx:85 | toggles the task and leaves the variant toggle alone |
| TasksPage.ClickVariant | frontend/src/pages/TasksPage.tsx:112 | toggles the variant and leaves the task toggle alone |
| TasksPage.VariantSurvivesTaskCollapse | frontend/src/pages/TasksPage.tsx:35-36 | collapsing and reopening a task keeps its open variant open |
| TasksPage.OtherTaskKeepsVariantId | frontend/src/pages/TasksPage.tsx:35-36 | clicking any task leaves the open variant unchanged |
| TaskEditPage.Load | frontend/src/pages/TaskEditPage.tsx:76-84 | no change until data arrives; then every field comes from it, a missing description as '' |
| TaskEditPage.RemoveId | frontend/src/pages/TaskEditPage.tsx:101-116 | no entry with the id remains, every other one does, order kept |
| TaskEditPage.RemoveAbsentId | frontend/src/pages/TaskEditPage.tsx:101-116 | removing an unlisted id changes nothing |
| TaskEditPage.RemoveIdIdempotent | frontend/src/pages/TaskEditPage.tsx:101-116 | removing twice is removing once |
| TaskEditPage.RemoveVariant | frontend/src/pages/TaskEditPage.tsx:101-104 | only the variant list changes |
| TaskEditPage.UnlinkSubdataset | frontend/src/pages/TaskEditPage.tsx:107-110 | only the subdataset list changes |
| TaskEditPage.UnlinkTrainingRun | frontend/src/pages/TaskEditPage.tsx:113-116 | only the training-run list changes |
| TaskEditPage.SubmitBody | frontend/src/pages/TaskEditPage.tsx:88-92 | description and status are sent; name and external flag are not |
| TaskEditPage.SaveKeepsVariants | frontend/src/pages/TaskEditPage.tsx:101-132 | saving stores the new description and status, keeps the name and external flag, and deletes no variant, even a removed one; it is reported as a success iff the stored name, external flag and every variant name are non-null, otherwise the page sees a 500 |
| TaskEditPage.RemovalsAreNotSent | frontend/src/pages/TaskEditPage.tsx:88-116 | removing a variant, subdataset or training run locally does not change the saved body |
| LinkVariantPage.SelectTask | frontend/src/pages/SubdatasetLinkTaskVariantPage.tsx:123-126 | choosing a task clears the chosen variant |
| LinkVariantPage.SelectNumber | frontend/src/pages/SubdatasetLinkTaskVariantPage.tsx:68 | `Number` of the select value: the empty option gives 0, which no listed task has |
| LinkVariantPage.SelectVariant | frontend/src/pages/SubdatasetLinkTaskVariantPage.tsx:139 | only the chosen variant changes |
| LinkVariantPage.FirstMatch | frontend/src/pages/SubdatasetLinkTaskVariantPage.tsx:68 | the selected task is the first whose id matches |
| LinkVariantPage.SelectedTask | frontend/src/pages/SubdatasetLinkTaskVariantPage.tsx:68 | a listed task with the selected number, none iff no id matches |
| LinkVariantPage.OfferedVariants | frontend/src/pages/SubdatasetLinkTaskVariantPage.tsx:69 | the selected task's variants, or none |
| LinkVariantPage.NoTaskOffersNothing | frontend/src/pages/SubdatasetLinkTaskVariantPage.tsx:68-69 | with positive ids, no selection offers no variant |
| LinkVariantPage.OptionValueSelectsTask | frontend/src/pages/SubdatasetLinkTaskVariantPage.tsx:68-69 | selecting a task's option offers that task's variants |
| LinkVariantPage.StartLink | frontend/src/pages/SubdatasetLinkTaskVariantPage.tsx:72-74 | in flight with both messages cleared, button disabled |
| LinkVariantPage.FinishLink | frontend/src/pages/SubdatasetLinkTaskVariantPage.tsx:75-85 | not in flight; success message on success, else the detail or "Failed to link" |
| LinkVariantPage.LinkAttempt | frontend/src/pages/SubdatasetLinkTaskVariantPage.tsx:71-86 | the chosen variant's id is sent, and exactly one message remains with the button enabled again |
| LinkVariantPage.NewTaskDisablesLink | frontend/src/pages/SubdatasetLinkTaskVariantPage.tsx:123-126 | choosing a task disables Link |
| LinkVariantPage.ShownLink | frontend/src/pages/SubdatasetLinkTaskVariantPage.tsx:96-103 | the existing link is shown iff the first linked task has a variant |
| Text.Trim | frontend/src/pages/TaskVariantCreatePage.tsx:94 | JavaScript `trim`: empty iff every character is whitespace; otherwise it starts and ends with a non-whitespace character |
| Text.Strip | backend/app/api/v1/endpoints/upload.py:22 | Python `strip`: empty iff every character is whitespace |
| Text.TrimIdempotent | frontend/src/pages/TaskVariantCreatePage.tsx:111 | trimming a trimmed string changes nothing |
| Text.ToLower | frontend/src/pages/SubdatasetsPage.tsx:81 | same length, each character lower-cased in place |
| Text.ToLowerIdempotent | frontend/src/pages/SubdatasetsPage.tsx:81 | lower-casing twice is lower-casing once |
| Text.IntToString | backend/app/core/gcs_service.py:82 | a non-empty decimal rendering without `_` |
| Text.Split | frontend/src/pages/TaskCreatePage.tsx:64 | at least one piece, none containing the separator |
| Text.JoinSplit | frontend/src/pages/TaskCreatePage.tsx:64 | joining the pieces gives back the input |
| Text.ParseIntToString | backend/app/core/gcs_service.py:82 | a decimal id parses back to itself |

## Left out

- File bytes, the bucket client, HTTP transport and timers are not
  modelled. A storage failure is a parameter of `Upload.UploadTaskImages`.
  A download is a function parameter of `Upload.GetImagesAsBase64`.
  The outcome of a link POST is a parameter of `LinkVariantPage.FinishLink`.
- Upload.UploadedUrisAreFound: the end URI is promised to be found only when the start URI does not also contain the end marker. The bucket name and the file extension go into the URI unchecked, so a bucket such as `b_5_end` makes the first-match lookup return the start image (Upload.EndMarkerCollision).
- Upload.UploadTaskImages: when the end upload fails after the start
  upload succeeded, the start object stays in the bucket. The model
  returns only the 500.
- `mimetypes.guess_type` is not modelled. It is a parameter of
  `Storage.ChooseContentType`. Upload always passes an allowed explicit
  type, so the guess never decides there.
- The variant edit page's `DELETE /upload/images` request has no
  matching endpoint in the upload router. Its outcome is not modelled,
  and the model only states which URIs are sent.
- `backend/app/api/v1/api.py` mounts only the tasks, subdatasets and
  raw-episode routers, and as written none of them is served: the tasks
  router imports `TaskDetailSummary` from `app.schemas.task`
  (`endpoints/tasks.py:7-11`), which `schemas/task.py` does not define,
  so importing `api.py` (line 3) and hence `main.py` (line 7) fails and
  the back end does not start. The endpoint modules describe each
  handler as if that import succeeded.
- Several page requests hit routes no router defines, and the page
  functions are modelled as if the routes existed. `GET
  /subdatasets/list` (`SubdatasetsPage.tsx:63`) matches
  `/{subdataset_id}` and answers 422; `/subdatasets/{id}/linked_tasks/`
  (`SubdatasetDetailPage.tsx:77`, `SubdatasetLinkTaskVariantPage.tsx:52`),
  `/subdatasets/{id}/processed_episodes/` (`SubdatasetDetailPage.tsx:97`)
  and `/subdatasets/{id}/link_task_variant/`
  (`SubdatasetLinkTaskVariantPage.tsx:76`) answer 404. As written,
  SubdatasetsPage.Filtered and EpisodeStats.ProcessedStats therefore only
  ever see their unloaded case, and LinkVariantPage.FinishLink only ever
  sees a failure.
- The item-link endpoint `/tasks/variants/{id}/items/` is not part of
  this model's sources. ItemLinks models it as a table keyed by item id.
  A post of a linked id and a delete of an unlinked id are refused,
  matching the composite primary key.
- Store.Page: skip and limit are `nat`. Negative values, which SQL
  rejects, are not modelled.
- Database unique constraints (the not-null item name aside), foreign keys other than the two delete
  cascades, server timestamps and `recorded_at` parsing are not
  modelled. `recorded_at` is kept as optional text.
- Link-table cascades are not modelled: variant–item,
  variant–subdataset and task–subdataset links on delete.
- The follow-up `PUT` of TaskCreatePage.FollowUp looks for a variant named
  `default`, but `create_task` (`crud/task.py:10-20`) creates no variant, so
  as written the variant list of the new task is empty
  (TaskApi.CreatedTaskHasNoVariants) and no follow-up is sent, unless
  something outside these sources adds a variant in between.
- Response-model validation is modelled for the single-task, variant and
  subdataset routes (a null required field answers 500 after any commit).
  The routes left out below would fail the same way on the same rows.
- `get_task_detail_summary` and the read routes not named above are
  left out (`/tasks/{id}/detail`, the task list route, subdataset
  creation and listing routes).
- Text.ToLower: ASCII only. JavaScript's full Unicode case mapping is
  not modelled.
- LinkVariantPage.SelectNumber: only select values are modelled, which
  are `''` or a decimal id. `Number` of arbitrary text (NaN, spaces,
  exponents) is not modelled.
- LinkVariantPage.FinishLink: a `detail` that is not a string is not
  modelled. FastAPI sends a list on 422, and the page would render it.
  Such a detail is treated as absent.
- ItemsPage.CreateBody: a null name is not modelled. The form always
  holds a string.
- The 1-second navigation after a successful link, query invalidation,
  loading flags and drag-and-drop event plumbing are not modelled.
  Drag-and-drop reaches the same `SelectFile` transition.
- Previews read through `FileReader` are not modelled. A slot holds the
  chosen file's name only.

## Findings

| source | as written | input that shows it | evidently intended | confidence | as-written member | corrected member |
|---|---|---|---|---|---|---|
| backend/app/api/v1/endpoints/upload.py:82-89 | calls `gcs_service.get_image_as_base64`, which `GCSService` does not define, so the handler raises and answers 500 | any non-empty URI list, e.g. `["gs://media/7_5_start.jpg"]` | one base64 image per URI, same length and order; the page then previews the images instead of falling back to the bare `gs://` URI | not executed | Upload.GetImagesAsBase64AsWritten, Upload.AsWrittenPreviewIsUri | Upload.GetImagesAsBase64, Upload.DownloadedPreviewShown |
| frontend/src/pages/TaskVariantEditPage.tsx:261-288 | choosing a file after "Replace" clears the delete flag, so `finalMedia` keeps the old URI ahead of the upload and the old object is not deleted | existing `gs://media/7_5_start.jpg`, Replace, choose a PNG: media becomes `[…start.jpg, …start.png]` and the start lookup still finds the JPEG | a replaced image is dropped from the media list and deleted | not executed | VariantEditPage.ReplacedStartImageStillShown | VariantEditPage.FinalMediaReplacing, VariantEditPage.ImagesToDeleteReplacing, VariantEditPage.ReplacementShowsNewImage |
| frontend/src/pages/TaskVariantEditPage.tsx:125-135 | requests only the non-empty URIs but reads the end preview from position 1 | a variant with only an end image: one URI requested, one image returned, no end preview | the end preview sits at position 1 only when a start URI was requested | not executed | VariantEditPage.ExistingPreviewsAsWritten, VariantEditPage.LoneEndImageGetsNoPreview | VariantEditPage.ExistingPreviews, VariantEditPage.ExistingPreviewsMatchRequest |

=== FILE: config_images.dfy ===
/** How the front end recognises a variant's start and end configuration
    images among its media URLs and pairs them with downloaded previews
    (frontend/src/components/ConfigurationImages.tsx). */
module ConfigImages {
  import opened Wrappers
  import opened Text

  /** The two kinds of configuration image. */
  datatype ImageKind = StartKind | EndKind {
    function Name(): string {
      match this
      case StartKind => "start"
      case EndKind => "end"
    }
  }

  /** The marker searched for: `_{variantId}_start` or `_{variantId}_end`. */
  function Marker(variantId: int, kind: ImageKind): string {
    "_" + IntToString(variantId) + "_" + kind.Name()
  }

  /** Index of the first URL containing `marker`. */
  function FirstIndexContaining(urls: seq<string>, marker: string): (r: Option<nat>)
    ensures r.None? <==> forall i | 0 <= i < |urls| :: !Contains(urls[i], marker)
    ensures r.Some? ==> r.value < |urls| && Contains(urls[r.value], marker)
                        && forall j | 0 <= j < r.value :: !Contains(urls[j], marker)
  {
    if |urls| == 0 then None
    else if Contains(urls[0], marker) then Some(0)
    else
      var r := FirstIndexContaining(urls[1..], marker);
      if r.None? then None else Some(r.value + 1)
  }

  /** `mediaUrls.find(url => url.includes(marker))`. */
  function FindImage(urls: seq<string>, variantId: int, kind: ImageKind): (r: Option<string>)
    ensures r.None? <==> forall i | 0 <= i < |urls| :: !Contains(urls[i], Marker(variantId, kind))
    ensures r.Some? ==> exists i | 0 <= i < |urls| :: urls[i] == r.value
                          && Contains(r.value, Marker(variantId, kind))
                          && forall j | 0 <= j < i :: !Contains(urls[j], Marker(variantId, kind))
  {
    var k := FirstIndexContaining(urls, Marker(variantId, kind));
    if k.None? then None else Some(urls[k.value])
  }

  /** An entry carrying the marker, with none before it that does, is what
      the lookup finds. */
  lemma FoundAt(urls: seq<string>, variantId: int, kind: ImageKind, i: int)
    requires 0 <= i < |urls| && Contains(urls[i], Marker(variantId, kind))
    requires forall j | 0 <= j < i :: !Contains(urls[j], Marker(variantId, kind))
    ensures FindImage(urls, variantId, kind) == Some(urls[i])
  {
    assert FirstIndexContaining(urls, Marker(variantId, kind)) == Some(i);
  }

  /** The component renders nothing when neither image is present. */
  predicate RendersNothing(urls: seq<string>, variantId: int) {
    FindImage(urls, variantId, StartKind).None? && FindImage(urls, variantId, EndKind).None?
  }

  /** `[startImage, endImage].filter(Boolean)`: the URIs sent for download. */
  function RequestedUris(start: Option<string>, end: Option<string>): (r: seq<string>)
    ensures |r| <= 2
    ensures forall i | 0 <= i < |r| :: r[i] != ""
    ensures start.Some? && start.value != "" ==> |r| >= 1 && r[0] == start.value
    ensures end.Some? && end.value != "" ==> |r| >= 1 && r[|r| - 1] == end.value
    ensures |r| == (if start.Some? && start.value != "" then 1 else 0)
                 + (if end.Some? && end.value != "" then 1 else 0)
  {
    (if start.Some? && start.value != "" then [start.value] else [])
    + (if end.Some? && end.value != "" then [end.value] else [])
  }

  /** A URL that was found by its marker is never empty. */
  lemma FoundImageNonEmpty(urls: seq<string>, variantId: int, kind: ImageKind)
    requires FindImage(urls, variantId, kind).Some?
    ensures FindImage(urls, variantId, kind).value != ""
  {
    var u := FindImage(urls, variantId, kind).value;
    var i :| 0 <= i <= |u| - |Marker(variantId, kind)| && OccursAt(u, Marker(variantId, kind), i);
  }

  /** No download request is made exactly when the component renders nothing. */
  lemma NoRequestIffNothingRendered(urls: seq<string>, variantId: int)
    ensures RequestedUris(FindImage(urls, variantId, StartKind), FindImage(urls, variantId, EndKind)) == []
        <==> RendersNothing(urls, variantId)
  {
    if FindImage(urls, variantId, StartKind).Some? {
      FoundImageNonEmpty(urls, variantId, StartKind);
    }
    if FindImage(urls, variantId, EndKind).Some? {
      FoundImageNonEmpty(urls, variantId, EndKind);
    }
  }

  /** `imageMap[uri] = images[index]` for each requested URI in order; a missing
      response entry is `undefined` (None), and a repeated URI keeps the last write. */
  function ImageMap(uris: seq<string>, images: seq<string>): (m: map<string, Option<string>>)
    ensures m.Keys == set i | 0 <= i < |uris| :: uris[i]
    decreases |uris|
  {
    if |uris| == 0 then map[]
    else
      var n := |uris| - 1;
      ImageMap(uris[..n], images)[uris[n] := if n < |images| then Some(images[n]) else None]
  }

  /** With distinct URIs and a response at least as long, the i-th URI maps to the i-th image. */
  lemma {:induction false} ImageMapPairs(uris: seq<string>, images: seq<string>, i: nat)
    requires |images| >= |uris|
    requires forall a, b | 0 <= a < b < |uris| :: uris[a] != uris[b]
    requires i < |uris|
    ensures ImageMap(uris, images)[uris[i]] == Some(images[i])
    decreases |uris|
  {
    var n := |uris| - 1;
    if i < n {
      ImageMapPairs(uris[..n], images, i);
    }
  }

  /** `getBase64Image`: the downloaded image, or the URI itself when none (or an empty one) was mapped. */
  function PreviewSource(m: map<string, Option<string>>, uri: string): (r: string)
    ensures uri in m && m[uri].Some? && m[uri].value != "" ==> r == m[uri].value
    ensures !(uri in m && m[uri].Some? && m[uri].value != "") ==> r == uri
  {
    if uri in m && m[uri].Some? && m[uri].value != "" then m[uri].value else uri
  }

  /** The map the component keeps once the download effect for `uris`
      settles, starting from `prev` (`{}` on mount, else the map of an earlier
      run). No URIs means no request; a successful response (`Some`) replaces
      the map; a failed request is only logged and keeps `prev`. */
  function LoadedImages(prev: map<string, Option<string>>, uris: seq<string>, response: Option<seq<string>>)
    : (m: map<string, Option<string>>)
    ensures |uris| == 0 || response.None? ==> m == prev
    ensures |uris| > 0 && response.Some? ==> m.Keys == set i | 0 <= i < |uris| :: uris[i]
  {
    if |uris| > 0 && response.Some? then ImageMap(uris, response.value) else prev
  }

  /** A failed download changes no preview: each image keeps the source it had
      before, which after mount is its bare bucket URI. */
  lemma FailedDownloadShowsUris(prev: map<string, Option<string>>, uris: seq<string>, uri: string)
    ensures PreviewSource(LoadedImages(prev, uris, None), uri) == PreviewSource(prev, uri)
    ensures PreviewSource(LoadedImages(map[], uris, None), uri) == uri
  {
  }
}

=== FILE: episode_stats.dfy ===
/** Episode statistics of the subdataset detail page
    (frontend/src/pages/SubdatasetDetailPage.tsx): counts over the fetched
    raw episodes, and over processed episodes joined to their raw episode. */
module EpisodeStats {
  import opened Wrappers
  import opened Store
  import opened SubdatasetCrud
  import SubdatasetApi

  /** `{ total, good, bad }`. */
  datatype Stats = Stats(total: nat, good: nat, bad: nat)

  /** What either memo returns while its inputs are missing. */
  const ZeroStats := Stats(0, 0, 0)

  /** A processed episode, reduced to its id and the raw episode it came from. */
  datatype ProcessedEpisode = ProcessedEpisode(id: int, rawEpisodeId: int)

  /** How many of the labels are exactly `l` (`label === l`; null never matches). */
  function CountLabel(labels: seq<Option<string>>, l: string): (n: nat)
    ensures n <= |labels|
  {
    if |labels| == 0 then 0
    else (if labels[0] == Some(l) then 1 else 0) + CountLabel(labels[1..], l)
  }

  /** Two different labels together never exceed the number of entries. */
  lemma {:induction false} CountTwoLabels(labels: seq<Option<string>>, a: string, b: string)
    requires a != b
    ensures CountLabel(labels, a) + CountLabel(labels, b) <= |labels|
  {
    if |labels| > 0 {
      CountTwoLabels(labels[1..], a, b);
    }
  }

  /** Counting distributes over concatenation. */
  lemma {:induction false} CountLabelAppend(x: seq<Option<string>>, y: seq<Option<string>>, l: string)
    ensures CountLabel(x + y, l) == CountLabel(x, l) + CountLabel(y, l)
  {
    if |x| > 0 {
      assert (x + y)[1..] == x[1..] + y;
      CountLabelAppend(x[1..], y, l);
    } else {
      assert x + y == y;
    }
  }

  /** The labels of the raw episodes, in list order. */
  function RawLabels(raw: seq<Row<RawEpisode>>): (r: seq<Option<string>>)
    ensures |r| == |raw|
    ensures forall i | 0 <= i < |r| :: r[i] == raw[i].rec.fields.episodeLabel
  {
    if |raw| == 0 then [] else [raw[0].rec.fields.episodeLabel] + RawLabels(raw[1..])
  }

  /** `rawStats`. */
  function RawStats(raw: Option<seq<Row<RawEpisode>>>): (r: Stats)
    ensures raw.None? ==> r == ZeroStats
    ensures raw.Some? ==> r.total == |raw.value|
    ensures raw.Some? ==> r.good == CountLabel(RawLabels(raw.value), "good")
    ensures raw.Some? ==> r.bad == CountLabel(RawLabels(raw.value), "bad")
    ensures r.good + r.bad <= r.total
  {
    if raw.None? then ZeroStats
    else
      var labels := RawLabels(raw.value);
      CountTwoLabels(labels, "good", "bad");
      Stats(|raw.value|, CountLabel(labels, "good"), CountLabel(labels, "bad"))
  }

  /** `rawMap`: id to raw episode, filled in list order so a later duplicate id wins. */
  function RawMap(raw: seq<Row<RawEpisode>>): (m: map<int, RawEpisode>)
    ensures m.Keys == set i | 0 <= i < |raw| :: raw[i].id
    ensures forall id | id in m :: exists i | 0 <= i < |raw| :: raw[i].id == id && raw[i].rec == m[id]
    ensures forall i | 0 <= i < |raw| && (forall j | i < j < |raw| :: raw[j].id != raw[i].id) ::
      m[raw[i].id] == raw[i].rec
  {
    if |raw| == 0 then map[]
    else
      var m := RawMap(raw[..|raw| - 1]);
      RawMapStep(raw, m);
      m[raw[|raw| - 1].id := raw[|raw| - 1].rec]
  }

  /** The step of `RawMap`: what holds of the map of all rows but the last
      still holds once the last row is assigned. */
  lemma RawMapStep(raw: seq<Row<RawEpisode>>, m: map<int, RawEpisode>)
    requires |raw| > 0
    requires var init := raw[..|raw| - 1];
      && m.Keys == (set i | 0 <= i < |init| :: init[i].id)
      && (forall id | id in m :: exists i | 0 <= i < |init| :: init[i].id == id && init[i].rec == m[id])
      && (forall i | 0 <= i < |init| && (forall j | i < j < |init| :: init[j].id != init[i].id) ::
            m[init[i].id] == init[i].rec)
    ensures var r := m[raw[|raw| - 1].id := raw[|raw| - 1].rec];
      && r.Keys == (set i | 0 <= i < |raw| :: raw[i].id)
      && (forall id | id in r :: exists i | 0 <= i < |raw| :: raw[i].id == id && raw[i].rec == r[id])
      && (forall i | 0 <= i < |raw| && (forall j | i < j < |raw| :: raw[j].id != raw[i].id) ::
            r[raw[i].id] == raw[i].rec)
  {
    var init := raw[..|raw| - 1];
    var n := |raw| - 1;
    var last := raw[n];
    var r := m[last.id := last.rec];
    assert forall i | 0 <= i < n :: init[i] == raw[i];
    assert r.Keys == (set i | 0 <= i < |raw| :: raw[i].id) by {
      forall id | id in (set i | 0 <= i < |raw| :: raw[i].id) ensures id in r {
        var i :| 0 <= i < |raw| && raw[i].id == id;
        if i < n { assert init[i].id == id; }
      }
    }
    forall id | id in r
      ensures exists i | 0 <= i < |raw| :: raw[i].id == id && raw[i].rec == r[id]
    {
      if id != last.id {
        var i :| 0 <= i < n && init[i].id == id && init[i].rec == m[id];
        assert raw[i] == init[i];
      }
    }
    forall i | 0 <= i < |raw| && (forall j | i < j < |raw| :: raw[j].id != raw[i].id)
      ensures r[raw[i].id] == raw[i].rec
    {
      if i < n {
        assert raw[i] == init[i];
        assert forall j | i < j < n :: init[j] == raw[j];
      }
    }
  }

  /** The label a processed episode is counted under: that of its raw episode
      in the map, or none when the raw episode was not fetched. */
  function JoinedLabel(m: map<int, RawEpisode>, p: ProcessedEpisode): (l: Option<string>)
    ensures p.rawEpisodeId !in m ==> l.None?
    ensures p.rawEpisodeId in m ==> l == m[p.rawEpisodeId].fields.episodeLabel
  {
    if p.rawEpisodeId in m then m[p.rawEpisodeId].fields.episodeLabel else None
  }

  /** The joined labels of the processed episodes, in list order. */
  function JoinedLabels(m: map<int, RawEpisode>, ps: seq<ProcessedEpisode>): (r: seq<Option<string>>)
    ensures |r| == |ps|
    ensures forall i | 0 <= i < |r| :: r[i] == JoinedLabel(m, ps[i])
  {
    if |ps| == 0 then [] else [JoinedLabel(m, ps[0])] + JoinedLabels(m, ps[1..])
  }

  /** `processedStats`: zero unless both lists are loaded; total counts every
      processed episode, good and bad go by the joined raw label. */
  function ProcessedStats(processed: Option<seq<ProcessedEpisode>>, raw: Option<seq<Row<RawEpisode>>>): (r: Stats)
    ensures processed.None? || raw.None? ==> r == ZeroStats
    ensures processed.Some? && raw.Some? ==>
      && r.total == |processed.value|
      && r.good == CountLabel(JoinedLabels(RawMap(raw.value), processed.value), "good")
      && r.bad == CountLabel(JoinedLabels(RawMap(raw.value), processed.value), "bad")
    ensures r.good + r.bad <= r.total
  {
    if processed.None? || raw.None? then ZeroStats
    else
      var labels := JoinedLabels(RawMap(raw.value), processed.value);
      CountTwoLabels(labels, "good", "bad");
      Stats(|processed.value|, CountLabel(labels, "good"), CountLabel(labels, "bad"))
  }

  /** A processed episode whose raw episode was not fetched adds to the total only. */
  lemma UnmatchedCountsTotalOnly(ps: seq<ProcessedEpisode>, raw: seq<Row<RawEpisode>>, p: ProcessedEpisode)
    requires forall i | 0 <= i < |raw| :: raw[i].id != p.rawEpisodeId
    ensures var before := ProcessedStats(Some(ps), Some(raw));
      var after := ProcessedStats(Some(ps + [p]), Some(raw));
      after == Stats(before.total + 1, before.good, before.bad)
  {
    var m := RawMap(raw);
    assert JoinedLabels(m, ps + [p]) == JoinedLabels(m, ps) + [None];
    CountLabelAppend(JoinedLabels(m, ps), [None], "good");
    CountLabelAppend(JoinedLabels(m, ps), [None], "bad");
  }

  /** The label the episode list shows for a processed episode: the first raw
      episode with that id, `?.label || 'N/A'`. */
  function DisplayedLabel(raw: seq<Row<RawEpisode>>, rawEpisodeId: int): (r: string)
    ensures (forall i | 0 <= i < |raw| :: raw[i].id != rawEpisodeId) ==> r == "N/A"
    ensures |raw| > 0 && raw[0].id == rawEpisodeId ==>
      r == (match raw[0].rec.fields.episodeLabel case Some(l) => if l == "" then "N/A" else l case None => "N/A")
  {
    if |raw| == 0 then "N/A"
    else if raw[0].id == rawEpisodeId then
      match raw[0].rec.fields.episodeLabel
      case Some(l) => if l == "" then "N/A" else l
      case None => "N/A"
    else DisplayedLabel(raw[1..], rawEpisodeId)
  }

  /** Raw episode ids are distinct. */
  predicate UniqueRawIds(raw: seq<Row<RawEpisode>>) {
    forall i, j | 0 <= i < j < |raw| :: raw[i].id != raw[j].id
  }

  /** With distinct raw ids, the map entry of an id is its only row. */
  lemma {:induction false} RawMapUnique(raw: seq<Row<RawEpisode>>, i: nat)
    requires UniqueRawIds(raw)
    requires i < |raw|
    ensures RawMap(raw)[raw[i].id] == raw[i].rec
  {
    var m := RawMap(raw);
    var k :| 0 <= k < |raw| && raw[k].id == raw[i].id && raw[k].rec == m[raw[i].id];
    assert k == i;
  }

  /** The list shows the label of the first raw episode with the id. */
  lemma {:induction false} DisplayedFirstMatch(raw: seq<Row<RawEpisode>>, rawEpisodeId: int, k: nat)
    requires k < |raw| && raw[k].id == rawEpisodeId
    requires forall j | 0 <= j < k :: raw[j].id != rawEpisodeId
    ensures DisplayedLabel(raw, rawEpisodeId) ==
      (match raw[k].rec.fields.episodeLabel case Some(l) => if l == "" then "N/A" else l case None => "N/A")
    decreases k
  {
    if k > 0 {
      DisplayedFirstMatch(raw[1..], rawEpisodeId, k - 1);
    }
  }

  /** With distinct raw ids, the label shown in the list and the label the
      statistics count agree for every processed episode. */
  lemma DisplayAgreesWithStats(raw: seq<Row<RawEpisode>>, rawEpisodeId: int)
    requires UniqueRawIds(raw)
    ensures DisplayedLabel(raw, rawEpisodeId) ==
      (match JoinedLabel(RawMap(raw), ProcessedEpisode(0, rawEpisodeId))
       case Some(l) => if l == "" then "N/A" else l
       case None => "N/A")
  {
    if k :| 0 <= k < |raw| && raw[k].id == rawEpisodeId {
      DisplayedFirstMatch(raw, rawEpisodeId, k);
      RawMapUnique(raw, k);
    }
  }

  /** With a duplicated id the two disagree: the list shows the first row's
      label, the statistics count the last row's. */
  lemma DuplicateIdsDisagree()
    ensures var raw := [Row(1, RawEpisode(9, EpisodeFields(None, None, Some("good"), None, None, None))),
                        Row(1, RawEpisode(9, EpisodeFields(None, None, Some("bad"), None, None, None)))];
      && DisplayedLabel(raw, 1) == "good"
      && ProcessedStats(Some([ProcessedEpisode(5, 1)]), Some(raw)) == Stats(1, 0, 1)
  {
    var raw := [Row(1, RawEpisode(9, EpisodeFields(None, None, Some("good"), None, None, None))),
                Row(1, RawEpisode(9, EpisodeFields(None, None, Some("bad"), None, None, None)))];
    assert raw[..1] == [raw[0]];
    assert RawMap(raw)[1] == raw[1].rec;
    var labels := JoinedLabels(RawMap(raw), [ProcessedEpisode(5, 1)]);
    assert labels == [Some("bad")];
    assert CountLabel(labels, "good") == 0;
  }

  /** The page fetches raw episodes with `limit=10000`, so its raw total never exceeds 10000. */
  lemma FetchedRawTotalBounded(db: SubdatasetDb, order: seq<int>, subdatasetId: int)
    requires SubdatasetApi.ListEpisodesEndpoint(db, order, subdatasetId, 0, 10000, None).Ok?
    ensures RawStats(Some(SubdatasetApi.ListEpisodesEndpoint(db, order, subdatasetId, 0, 10000, None).value)).total <= 10000
  {
  }
}

=== FILE: expand_toggle.dfy ===
/** The single-row expand toggle shared by the list pages: clicking a row
    expands it, clicking the expanded row collapses it, and at most one row
    is expanded (frontend/src/pages/SubdatasetsPage.tsx, TasksPage.tsx). */
module ExpandToggle {
  import opened Wrappers

  /** The expanded row id, `null` when nothing is expanded. */
  type Expanded = Option<int>

  /** Whether the row with `id` shows its details. */
  predicate IsExpanded(e: Expanded, id: int) {
    e == Some(id)
  }

  /** `setExpanded(expanded === id ? null : id)`. */
  function Click(e: Expanded, id: int): (r: Expanded)
    ensures IsExpanded(r, id) <==> !IsExpanded(e, id)
    ensures forall other | other != id :: !IsExpanded(r, other)
  {
    if e == Some(id) then None else Some(id)
  }

  /** `enabled: !!expandedId`: the detail query runs only for a truthy id,
      so an expanded row with id 0 never fetches its details. */
  predicate FetchEnabled(e: Expanded) {
    e.Some? && e.value != 0
  }

  /** Clicking the same row twice leaves nothing expanded, unless that row was
      expanded to begin with, in which case it is expanded again. */
  lemma ClickTwice(e: Expanded, id: int)
    ensures Click(Click(e, id), id) == (if IsExpanded(e, id) then Some(id) else None)
  {
  }

  /** For a database id (always positive) the details are fetched exactly
      when the clicked row ends up expanded. */
  lemma FetchFollowsExpansion(e: Expanded, id: int)
    requires id > 0
    ensures FetchEnabled(Click(e, id)) <==> IsExpanded(Click(e, id), id)
  {
  }
}

/** The subdataset list page: a case-insensitive name search and one expanded row
    (frontend/src/pages/SubdatasetsPage.tsx). */
module SubdatasetsPage {
  import opened Wrappers
  import opened Text
  import opened Seqs
  import opened ExpandToggle

  /** A listed subdataset. */
  datatype SubdatasetSummary = SubdatasetSummary(id: int, name: string)

  /** The name contains the search text, both ASCII lower-cased. */
  predicate Matches(search: string, s: SubdatasetSummary) {
    Contains(ToLower(s.name), ToLower(search))
  }

  /** `subdatasets?.filter(...)`: undefined while the list is not loaded. */
  function Filtered(subdatasets: Option<seq<SubdatasetSummary>>, search: string): (r: Option<seq<SubdatasetSummary>>)
    ensures r.Some? <==> subdatasets.Some?
    ensures r.Some? ==> IsSubsequence(r.value, subdatasets.value)
    ensures r.Some? ==> forall i | 0 <= i < |r.value| :: Matches(search, r.value[i])
    ensures r.Some? ==> forall i | 0 <= i < |subdatasets.value| && Matches(search, subdatasets.value[i]) ::
                          subdatasets.value[i] in r.value
  {
    if subdatasets.None? then None
    else
      FilterIsSubsequence(s => Matches(search, s), subdatasets.value);
      Some(Filter(s => Matches(search, s), subdatasets.value))
  }

  /** `(filtered?.length ?? 0) === 0`: the "No subdatasets found." placeholder. */
  predicate ShowsPlaceholder(filtered: Option<seq<SubdatasetSummary>>) {
    filtered.None? || |filtered.value| == 0
  }

  /** An empty search lists every subdataset, in order. */
  lemma EmptySearchKeepsAll(subdatasets: seq<SubdatasetSummary>)
    ensures Filtered(Some(subdatasets), "") == Some(subdatasets)
  {
    forall i | 0 <= i < |subdatasets|
      ensures Matches("", subdatasets[i])
    {
      ContainsEmpty(ToLower(subdatasets[i].name));
    }
    FilterAll(s => Matches("", s), subdatasets);
  }

  /** Searching for a lower-cased text gives the same result as the text itself. */
  lemma SearchIgnoresCase(subdatasets: Option<seq<SubdatasetSummary>>, search: string)
    ensures Filtered(subdatasets, ToLower(search)) == Filtered(subdatasets, search)
  {
    ToLowerIdempotent(search);
    if subdatasets.Some? {
      FilterAgree(s => Matches(ToLower(search), s), s => Matches(search, s), subdatasets.value);
    }
  }

  /** The placeholder shows exactly when the list is not loaded or no name matches. */
  lemma PlaceholderIffNoMatch(subdatasets: Option<seq<SubdatasetSummary>>, search: string)
    ensures ShowsPlaceholder(Filtered(subdatasets, search))
        <==> subdatasets.None? || forall i | 0 <= i < |subdatasets.value| :: !Matches(search, subdatasets.value[i])
  {
    if subdatasets.Some? && forall i | 0 <= i < |subdatasets.value| :: !Matches(search, subdatasets.value[i]) {
      FilterNone(s => Matches(search, s), subdatasets.value);
    }
  }
}

/** The task list page: one expanded task and, independently, one expanded
    variant (frontend/src/pages/TasksPage.tsx). */
module TasksPage {
  import opened Wrappers
  import opened ExpandToggle

  /** The two toggles. */
  datatype PageState = PageState(task: Expanded, variant: Expanded)

  /** The initial state: nothing expanded. */
  const Initial: PageState := PageState(None, None)

  /** Clicking a task header toggles that task and nothing else. */
  function ClickTask(s: PageState, id: int): (r: PageState)
    ensures r.variant == s.variant
    ensures IsExpanded(r.task, id) <==> !IsExpanded(s.task, id)
  {
    s.(task := Click(s.task, id))
  }

  /** Clicking a variant header toggles that variant and nothing else. */
  function ClickVariant(s: PageState, id: int): (r: PageState)
    ensures r.task == s.task
    ensures IsExpanded(r.variant, id) <==> !IsExpanded(s.variant, id)
  {
    s.(variant := Click(s.variant, id))
  }

  /** Collapsing a task does not reset the variant toggle: when the task is
      expanded again, the variant that was open is open again. */
  lemma VariantSurvivesTaskCollapse(s: PageState, taskId: int, variantId: int)
    requires IsExpanded(s.task, taskId) && IsExpanded(s.variant, variantId)
    ensures var r := ClickTask(ClickTask(s, taskId), taskId);
      IsExpanded(r.task, taskId) && IsExpanded(r.variant, variantId)
  {
  }

  /** Opening a different task leaves the previously expanded variant id in place. */
  lemma OtherTaskKeepsVariantId(s: PageState, taskId: int)
    ensures ClickTask(s, taskId).variant == s.variant
  {
  }
}

=== FILE: form_input.dfy ===
/** Input normalisation shared by the create and edit forms: required names
    are checked after trimming, and comma-separated media lists are split,
    trimmed and stripped of blank entries. */
module FormInput {
  import opened Wrappers
  import opened Seqs
  import opened Text

  /** `!s.trim()`: the field is empty or whitespace only. */
  predicate Blank(s: string) {
    Trim(s) == ""
  }

  /** A field is blank exactly when every character is JavaScript whitespace. */
  lemma BlankIffAllSpaces(s: string)
    ensures Blank(s) <==> forall k | 0 <= k < |s| :: IsJsSpace(s[k])
  {
  }

  /** Trims every piece. */
  function TrimEach(parts: seq<string>): (r: seq<string>)
    ensures |r| == |parts|
    ensures forall i | 0 <= i < |r| :: r[i] == Trim(parts[i])
  {
    if |parts| == 0 then [] else [Trim(parts[0])] + TrimEach(parts[1..])
  }

  /** `s.split(',').map(url => url.trim()).filter(url => url)`. */
  function ParseMedia(s: string): (r: seq<string>)
    ensures forall i | 0 <= i < |r| :: r[i] != ""
  {
    Filter((u: string) => u != "", TrimEach(Split(s, ',')))
  }

  /** Every parsed entry is non-empty, already trimmed and free of commas. */
  lemma ParseMediaEntries(s: string)
    ensures forall i | 0 <= i < |ParseMedia(s)| ::
      var e := ParseMedia(s)[i];
      e != "" && Trim(e) == e && ',' !in e
  {
    var parts := Split(s, ',');
    var trimmed := TrimEach(parts);
    forall i | 0 <= i < |ParseMedia(s)|
      ensures Trim(ParseMedia(s)[i]) == ParseMedia(s)[i] && ',' !in ParseMedia(s)[i]
    {
      var e := ParseMedia(s)[i];
      assert e in trimmed;
      var j :| 0 <= j < |trimmed| && trimmed[j] == e;
      TrimIdempotent(parts[j]);
      assert Contains(parts[j], e);
      SubstringAvoids(parts[j], e, ',');
    }
  }

  /** A substring of a string without `c` does not contain `c`. */
  lemma SubstringAvoids(s: string, sub: string, c: char)
    requires Contains(s, sub)
    requires c !in s
    ensures c !in sub
  {
    var i :| 0 <= i <= |s| - |sub| && OccursAt(s, sub, i);
    forall k | 0 <= k < |sub| ensures sub[k] != c {
      assert sub[k] == s[i + k];
    }
  }

  /** Trimming distributes over concatenation of piece lists. */
  lemma {:induction false} TrimEachAppend(a: seq<string>, b: seq<string>)
    ensures TrimEach(a + b) == TrimEach(a) + TrimEach(b)
    decreases |a|
  {
    if |a| == 0 {
      assert a + b == b;
    } else {
      assert (a + b)[1..] == a[1..] + b;
      TrimEachAppend(a[1..], b);
    }
  }

  /** Parsing `a,b` parses the two sides independently and concatenates, so
      entries keep the order in which they appear between commas. */
  lemma ParseMediaAppend(a: string, b: string)
    requires ',' !in a
    ensures ParseMedia(a + "," + b) == ParseMedia(a) + ParseMedia(b)
  {
    assert a + "," + b == a + [','] + b;
    SplitAppend(a, ',', b);
    TrimEachAppend(Split(a, ','), Split(b, ','));
    FilterAppend((u: string) => u != "", TrimEach(Split(a, ',')), TrimEach(Split(b, ',')));
  }

  /** A comma-free input parses to its trimmed self, or to nothing if blank. */
  lemma ParseMediaSingle(s: string)
    requires ',' !in s
    ensures ParseMedia(s) == if Blank(s) then [] else [Trim(s)]
  {
    SplitNoSeparator(s, ',');
    assert TrimEach([s]) == [Trim(s)];
  }

  /** Every character of a piece of `Split(s, sep)` occurs in `s`. */
  lemma {:induction false} SplitPiecesFromInput(s: string, sep: char)
    ensures forall i, k | 0 <= i < |Split(s, sep)| && 0 <= k < |Split(s, sep)[i]| :: Split(s, sep)[i][k] in s
    decreases |s|
  {
    if |s| > 0 {
      SplitPiecesFromInput(s[1..], sep);
      var rest := Split(s[1..], sep);
      var r := Split(s, sep);
      forall i, k | 0 <= i < |r| && 0 <= k < |r[i]| ensures r[i][k] in s {
        if s[0] == sep {
          assert r[i] == ([""] + rest)[i];
          if i > 0 {
            assert r[i] == rest[i - 1];
            assert r[i][k] in s[1..];
          }
        } else if i == 0 {
          assert r[0] == [s[0]] + rest[0];
          if k > 0 {
            assert r[i][k] == rest[0][k - 1];
            assert rest[0][k - 1] in s[1..];
          }
        } else {
          assert r[i] == rest[i];
          assert r[i][k] in s[1..];
        }
      }
    }
  }

  /** Whitespace-only input parses to the empty list, so the variant create
      page's `media.trim() ? ... : []` guard agrees with the unguarded parse
      of the task create page. */
  lemma BlankParsesEmpty(s: string)
    requires Blank(s)
    ensures ParseMedia(s) == []
  {
    var parts := Split(s, ',');
    SplitPiecesFromInput(s, ',');
    forall i | 0 <= i < |parts| ensures Trim(parts[i]) == "" {
      forall k | 0 <= k < |parts[i]| ensures IsJsSpace(parts[i][k]) {
        assert parts[i][k] in s;
      }
    }
    FilterNone((u: string) => u != "", TrimEach(parts));
  }

  /** `x?.trim() || undefined`: a trimmed optional field, dropped when blank. */
  function OptionalTrimmed(s: Option<string>): (r: Option<string>)
    ensures r.Some? <==> s.Some? && !Blank(s.value)
    ensures r.Some? ==> r.value == Trim(s.value) && r.value != ""
  {
    if s.Some? && !Blank(s.value) then Some(Trim(s.value)) else None
  }
}

=== FILE: http.dfy ===
/** The error responses the endpoints raise (`HTTPException`), and the 500
    FastAPI answers when a returned object fails its `response_model`. */
module Http {
  /** A status code and the `detail` text of the response body. */
  datatype HttpError = HttpError(status: int, detail: string)

  /** 404 with the given detail. */
  function NotFound(detail: string): HttpError
  {
    HttpError(404, detail)
  }

  /** 400 with the given detail. */
  function BadRequest(detail: string): HttpError
  {
    HttpError(400, detail)
  }

  /** The response a handler gets when its return value does not validate
      against the route's response model: the server error page. */
  const InvalidResponse := HttpError(500, "Internal Server Error")
}

=== FILE: item_crud.dfy ===
/** The item catalogue in the database (backend/app/crud/item.py). */
module ItemCrud {
  import opened Wrappers
  import opened Store

  /** A stored item; the name column is NOT NULL. */
  datatype Item = Item(name: string, url: Option<string>, images: Option<seq<string>>, notes: Option<string>)

  /** The update body: only explicitly sent fields are applied. The schema
      makes `name` optional, so a body may set it to null explicitly. */
  datatype ItemUpdate = ItemUpdate(
    name: Patch<Option<string>>, url: Patch<Option<string>>, images: Patch<Option<seq<string>>>, notes: Patch<Option<string>>)

  /** Why `update_item` gives no item: the id is absent, or the commit is
      refused because the body sets the NOT NULL name column to null. */
  datatype UpdateError = ItemMissing | NameNotNull

  /** The body sends `"name": null`. */
  predicate ClearsName(u: ItemUpdate) {
    u.name == Set(None)
  }

  /** `create_item`: stores exactly the body's four fields under a fresh id. */
  function CreateItem(t: Table<Item>, c: Item): (r: (Table<Item>, int))
    ensures r.0.rows == t.rows[r.1 := c]
    ensures Valid(t) ==> Valid(r.0) && r.1 !in t.rows
  {
    Insert(t, c)
  }

  /** `get_item`. */
  function GetItem(t: Table<Item>, id: int): (r: Option<Item>)
    ensures r.Some? <==> id in t.rows
    ensures r.Some? ==> r.value == t.rows[id]
  {
    Get(t, id)
  }

  /** The absent filter of `get_items`: every row matches. */
  function AnyItem(): Item -> bool {
    (i: Item) => true
  }

  /** `get_items`: no filter, then `offset`/`limit`. */
  function GetItems(t: Table<Item>, order: seq<int>, skip: nat, limit: nat): (r: seq<Row<Item>>)
    ensures |r| <= limit
    ensures forall i | 0 <= i < |r| :: r[i].id in t.rows && t.rows[r[i].id] == r[i].rec
    ensures IsPage(r, t.rows, order, AnyItem(), skip, limit)
  {
    List(t, order, AnyItem(), skip, limit)
  }

  /** The item after applying the explicitly set fields of `u`; none when
      the name would become null, which the column refuses. */
  function ApplyItemUpdate(it: Item, u: ItemUpdate): (r: Option<Item>)
    ensures r.None? <==> ClearsName(u)
    ensures r.Some? && u.name.Unset? ==> r.value.name == it.name
    ensures r.Some? && u.name.Set? ==> Some(r.value.name) == u.name.value
    ensures r.Some? && u.url.Unset? ==> r.value.url == it.url
    ensures r.Some? && u.url.Set? ==> r.value.url == u.url.value
    ensures r.Some? && u.images.Unset? ==> r.value.images == it.images
    ensures r.Some? && u.images.Set? ==> r.value.images == u.images.value
    ensures r.Some? && u.notes.Unset? ==> r.value.notes == it.notes
    ensures r.Some? && u.notes.Set? ==> r.value.notes == u.notes.value
  {
    match u.name.Over(Some(it.name))
    case None => None
    case Some(name) => Some(Item(name, u.url.Over(it.url), u.images.Over(it.images), u.notes.Over(it.notes)))
  }

  /** `update_item`: `None` for an absent id; a failed commit (the null name)
      leaves the table as it was and surfaces as an error. */
  function UpdateItem(t: Table<Item>, id: int, u: ItemUpdate): (r: (Table<Item>, Result<Item, UpdateError>))
    ensures r.1 == Err(ItemMissing) <==> id !in t.rows
    ensures r.1 == Err(NameNotNull) <==> id in t.rows && ClearsName(u)
    ensures r.1.Err? ==> r.0 == t
    ensures r.1.Ok? ==>
      && Some(r.1.value) == ApplyItemUpdate(t.rows[id], u)
      && r.0.rows == t.rows[id := r.1.value] && r.0.nextId == t.nextId
  {
    match Get(t, id)
    case None => (t, Err(ItemMissing))
    case Some(it) =>
      match ApplyItemUpdate(it, u)
      case None => (t, Err(NameNotNull))
      case Some(it') => (Replace(t, id, it'), Ok(it'))
  }

  /** An update that leaves the name alone or sets a string never fails on
      an existing item, and a second identical update changes nothing more. */
  lemma UpdateItemIdempotent(t: Table<Item>, id: int, u: ItemUpdate)
    requires id in t.rows && !ClearsName(u)
    ensures UpdateItem(t, id, u).1.Ok?
    ensures var t1 := UpdateItem(t, id, u).0;
      UpdateItem(t1, id, u) == (t1, Ok(t1.rows[id]))
  {
    var it' := ApplyItemUpdate(t.rows[id], u).value;
    assert ApplyItemUpdate(it', u) == Some(it');
    var t1 := UpdateItem(t, id, u).0;
    assert t1.rows[id := it'] == t1.rows;
  }

  /** `delete_item`. */
  function DeleteItem(t: Table<Item>, id: int): (r: (Table<Item>, bool))
    ensures r.1 <==> id in t.rows
    ensures !r.1 ==> r.0 == t
    ensures r.0.rows == t.rows - {id}
    ensures Valid(t) ==> Valid(r.0)
  {
    Remove(t, id)
  }

  /** Creating then reading returns the body; deleting it afterwards restores
      the original rows and a second delete reports false. */
  lemma CreateGetDelete(t: Table<Item>, c: Item)
    requires Valid(t)
    ensures var (t1, id) := CreateItem(t, c);
      && GetItem(t1, id) == Some(c)
      && DeleteItem(t1, id).1
      && DeleteItem(t1, id).0.rows == t.rows
      && !DeleteItem(DeleteItem(t1, id).0, id).1
  {
    var (t1, id) := CreateItem(t, c);
    assert t1.rows - {id} == t.rows;
  }
}

=== FILE: item_links.dfy ===
/** The link rows between one task variant and its items, keyed by item id
    (the composite key `(task_variant_id, item_id)` of
    backend/app/models/task_variant_to_items.py), and the request sequences the
    variant pages send to rewrite them. The link endpoints themselves are not
    part of this model: a post for an id already linked is refused and a delete
    for an id not linked is refused, and the pages' awaited loops stop at the
    first refusal. */
module ItemLinks {
  import opened Wrappers
  import opened ItemModel

  /** One request of the item-link loops. */
  datatype LinkRequest = DeleteLink(itemId: int) | PostLink(itemId: int, quantity: int)

  /** Why a link request was refused. */
  datatype LinkError = AlreadyLinked(itemId: int) | NotLinked(itemId: int)

  /** The links of one variant: item id to quantity. */
  type LinkTable = map<int, int>

  /** Applies one request to the link table. */
  function Apply(t: LinkTable, req: LinkRequest): (r: Result<LinkTable, LinkError>)
    ensures req.PostLink? ==> (r.Ok? <==> req.itemId !in t)
    ensures req.PostLink? && r.Ok? ==> r.value == t[req.itemId := req.quantity]
    ensures req.DeleteLink? ==> (r.Ok? <==> req.itemId in t)
    ensures req.DeleteLink? && r.Ok? ==> r.value.Keys == t.Keys - {req.itemId}
  {
    match req
    case PostLink(id, q) => if id in t then Err(AlreadyLinked(id)) else Ok(t[id := q])
    case DeleteLink(id) => if id in t then Ok(t - {id}) else Err(NotLinked(id))
  }

  /** Applies requests in order, stopping at the first refusal (each request is awaited). */
  function ApplyAll(t: LinkTable, reqs: seq<LinkRequest>): Result<LinkTable, LinkError>
    decreases |reqs|
  {
    if |reqs| == 0 then Ok(t)
    else
      match Apply(t, reqs[0])
      case Err(e) => Err(e)
      case Ok(t') => ApplyAll(t', reqs[1..])
  }

  /** One post per item, in list order, with that item's id and quantity. */
  function PostRequests(items: seq<VariantItem>): (r: seq<LinkRequest>)
    ensures |r| == |items|
    ensures forall i | 0 <= i < |r| :: r[i] == PostLink(items[i].itemId, items[i].quantity)
  {
    if |items| == 0 then [] else [PostLink(items[0].itemId, items[0].quantity)] + PostRequests(items[1..])
  }

  /** One delete per originally loaded item, in list order. */
  function DeleteRequests(items: seq<VariantItem>): (r: seq<LinkRequest>)
    ensures |r| == |items|
    ensures forall i | 0 <= i < |r| :: r[i] == DeleteLink(items[i].itemId)
  {
    if |items| == 0 then [] else [DeleteLink(items[0].itemId)] + DeleteRequests(items[1..])
  }

  /** The item sync of the variant edit page: delete every originally loaded
      link (none when the variant had no item list), then post every local item. */
  function SyncRequests(original: Option<seq<VariantItem>>, local: seq<VariantItem>): (r: seq<LinkRequest>)
    ensures |r| == |original.GetOr([])| + |local|
    ensures forall i | 0 <= i < |original.GetOr([])| :: r[i] == DeleteLink(original.GetOr([])[i].itemId)
    ensures forall i | 0 <= i < |local| ::
      r[|original.GetOr([])| + i] == PostLink(local[i].itemId, local[i].quantity)
  {
    DeleteRequests(original.GetOr([])) + PostRequests(local)
  }

  /** The item ids occurring in a list. */
  function IdSet(items: seq<VariantItem>): set<int> {
    set i | 0 <= i < |items| :: items[i].itemId
  }

  /** The link table a list with unique ids stands for. */
  function TableOf(items: seq<VariantItem>): (t: LinkTable)
    ensures t.Keys == IdSet(items)
  {
    if |items| == 0 then map[]
    else
      var rest := TableOf(items[1..]);
      assert IdSet(items) == {items[0].itemId} + IdSet(items[1..]) by {
        forall x | x in IdSet(items) ensures x in {items[0].itemId} + IdSet(items[1..]) {
          var i :| 0 <= i < |items| && items[i].itemId == x;
          if i > 0 { assert items[1..][i - 1] == items[i]; }
        }
        forall x | x in IdSet(items[1..]) ensures x in IdSet(items) {
          var i :| 0 <= i < |items[1..]| && items[1..][i].itemId == x;
          assert items[i + 1] == items[1..][i];
        }
      }
      rest[items[0].itemId := items[0].quantity]
  }

  /** Running `a` then `b` is running `a + b`. */
  lemma {:induction false} ApplyAllAppend(t: LinkTable, a: seq<LinkRequest>, b: seq<LinkRequest>)
    ensures ApplyAll(t, a + b) == (match ApplyAll(t, a) case Err(e) => Err(e) case Ok(t') => ApplyAll(t', b))
    decreases |a|
  {
    if |a| == 0 {
      assert a + b == b;
    } else {
      assert (a + b)[1..] == a[1..] + b;
      match Apply(t, a[0])
      case Err(e) =>
      case Ok(t') => ApplyAllAppend(t', a[1..], b);
    }
  }

  /** Posting a list succeeds exactly when its ids are unique and none is already linked. */
  lemma {:induction false} PostAllSucceedsIff(t: LinkTable, items: seq<VariantItem>)
    ensures ApplyAll(t, PostRequests(items)).Ok? <==> UniqueIds(items) && t.Keys !! IdSet(items)
    decreases |items|
  {
    if |items| > 0 {
      var h := items[0];
      var tail := items[1..];
      PostStep(t, items);
      IdSetCons(items);
      UniqueCons(items);
      HasItemIdSet(tail, h.itemId);
      if h.itemId in t {
        assert h.itemId in t.Keys * IdSet(items);
      } else {
        var t' := t[h.itemId := h.quantity];
        PostAllSucceedsIff(t', tail);
        assert t'.Keys == t.Keys + {h.itemId};
        DisjointStep(t.Keys, h.itemId, IdSet(tail));
      }
    }
  }

  /** Disjointness from a set with one more element, or of a set with one
      more element, reduces to disjointness from the rest. */
  lemma DisjointStep(keys: set<int>, h: int, rest: set<int>)
    requires h !in keys
    ensures (keys !! ({h} + rest)) == (keys !! rest)
    ensures ((keys + {h}) !! rest) == (h !in rest && keys !! rest)
  {
  }

  /** A successful post loop adds exactly the list's links to the table. */
  lemma {:induction false} PostAllResult(t: LinkTable, items: seq<VariantItem>)
    requires ApplyAll(t, PostRequests(items)).Ok?
    ensures ApplyAll(t, PostRequests(items)).value == t + TableOf(items)
    decreases |items|
  {
    if |items| == 0 {
      assert t + map[] == t;
    } else {
      var h := items[0];
      PostStep(t, items);
      var tail := items[1..];
      var t' := t[h.itemId := h.quantity];
      PostAllResult(t', tail);
      PostAllSucceedsIff(t', tail);
      assert h.itemId !in TableOf(tail);
      assert TableOf(items) == TableOf(tail)[h.itemId := h.quantity];
      AssignThenMerge(t, TableOf(tail), h.itemId, h.quantity);
    }
  }

  /** Assigning a key the later table lacks commutes with merging that table. */
  lemma AssignThenMerge(t: LinkTable, later: LinkTable, k: int, q: int)
    requires k !in later
    ensures t[k := q] + later == t + later[k := q]
  {
    var lhs := t[k := q] + later;
    var rhs := t + later[k := q];
    assert lhs.Keys == rhs.Keys;
    forall x | x in lhs ensures lhs[x] == rhs[x] {
    }
  }

  /** One step of the post loop. */
  lemma PostStep(t: LinkTable, items: seq<VariantItem>)
    requires |items| > 0
    ensures ApplyAll(t, PostRequests(items))
         == if items[0].itemId in t then Err(AlreadyLinked(items[0].itemId))
            else ApplyAll(t[items[0].itemId := items[0].quantity], PostRequests(items[1..]))
  {
    assert PostRequests(items)[1..] == PostRequests(items[1..]);
  }

  /** The id set of a non-empty list. */
  lemma IdSetCons(items: seq<VariantItem>)
    requires |items| > 0
    ensures IdSet(items) == {items[0].itemId} + IdSet(items[1..])
  {
    assert TableOf(items).Keys == IdSet(items);
  }

  /** Unique ids of a non-empty list: a unique tail that does not repeat the head. */
  lemma UniqueCons(items: seq<VariantItem>)
    requires |items| > 0
    ensures UniqueIds(items) <==> UniqueIds(items[1..]) && !HasItem(items[1..], items[0].itemId)
  {
    var tail := items[1..];
    if UniqueIds(items) {
      UniqueTail(items);
    }
    if UniqueIds(tail) && !HasItem(tail, items[0].itemId) {
      forall i, j | 0 <= i < j < |items| ensures items[i].itemId != items[j].itemId {
        assert items[j] == tail[j - 1];
        if i > 0 { assert items[i] == tail[i - 1]; }
      }
    }
  }

  /** An id occurs in a list iff it is in the list's id set. */
  lemma HasItemIdSet(items: seq<VariantItem>, id: int)
    ensures HasItem(items, id) <==> id in IdSet(items)
  {
    if id in IdSet(items) {
      var i :| 0 <= i < |items| && items[i].itemId == id;
    }
  }

  /** Deleting every loaded link of a table that holds exactly those links empties it. */
  lemma {:induction false} DeleteAllEmpties(t: LinkTable, items: seq<VariantItem>)
    requires UniqueIds(items)
    requires t.Keys == IdSet(items)
    ensures ApplyAll(t, DeleteRequests(items)) == Ok(map[])
    decreases |items|
  {
    if |items| == 0 {
      assert t == map[];
    } else {
      var tail := items[1..];
      assert DeleteRequests(items)[1..] == DeleteRequests(tail);
      UniqueTail(items);
      HasItemIdSet(tail, items[0].itemId);
      IdSetCons(items);
      DeleteAllEmpties(t - {items[0].itemId}, tail);
    }
  }

  /** When the server holds exactly the originally loaded links (unique, as
      the composite key guarantees), the sync leaves exactly the local list's
      links iff the local list has unique ids; a local list with a repeated id
      makes the sync fail part-way. */
  lemma SyncResult(t: LinkTable, original: seq<VariantItem>, local: seq<VariantItem>)
    requires UniqueIds(original)
    requires t.Keys == IdSet(original)
    ensures ApplyAll(t, SyncRequests(Some(original), local)).Ok? <==> UniqueIds(local)
    ensures UniqueIds(local) ==> ApplyAll(t, SyncRequests(Some(original), local)) == Ok(TableOf(local))
  {
    var deletes := DeleteRequests(original);
    var posts := PostRequests(local);
    assert SyncRequests(Some(original), local) == deletes + posts;
    ApplyAllAppend(t, deletes, posts);
    DeleteAllEmpties(t, original);
    assert ApplyAll(t, deletes + posts) == ApplyAll(map[], posts);
    PostAllSucceedsIff(map[], local);
    if UniqueIds(local) {
      PostAllResult(map[], local);
      assert map[] + TableOf(local) == TableOf(local);
    }
  }

  /** In a list with unique ids, the table of the list records each entry's quantity. */
  lemma {:induction false} TableOfQuantities(items: seq<VariantItem>, i: nat)
    requires UniqueIds(items)
    requires i < |items|
    ensures TableOf(items)[items[i].itemId] == items[i].quantity
    decreases |items|
  {
    if i > 0 {
      UniqueTail(items);
      assert items[1..][i - 1] == items[i];
      TableOfQuantities(items[1..], i - 1);
    }
  }
}

=== FILE: item_model.dfy ===
/** The records behind a task variant's item list: catalogue items and the
    `(item_id, name, quantity)` entries of a variant, with the invariants the
    editors are meant to keep and an abstraction of a list as quantities per id. */
module ItemModel {
  import opened Wrappers
  import opened Seqs

  /** An entry of the item catalogue (`/items/` and `/items/list`). */
  datatype CatalogItem = CatalogItem(
    id: int, name: string, url: Option<string>, images: Option<seq<string>>, notes: Option<string>)

  /** One entry of a variant's item list. */
  datatype VariantItem = VariantItem(
    itemId: int, itemName: string, quantity: int,
    url: Option<string>, images: Option<seq<string>>, notes: Option<string>)

  /** JavaScript truthiness of a selected id: `null` and `0` both count as unset. */
  predicate IsSelected(sel: Option<int>) {
    sel.Some? && sel.value != 0
  }

  /** `catalogue?.find(item => item.id === id)`: the first catalogue entry with that id. */
  function FindCatalogItem(catalogue: Option<seq<CatalogItem>>, id: int): (r: Option<CatalogItem>)
    ensures r.Some? <==> catalogue.Some? && exists i | 0 <= i < |catalogue.value| :: catalogue.value[i].id == id
    ensures r.Some? ==> r.value in catalogue.value && r.value.id == id
  {
    if catalogue.None? then None
    else
      var k := FirstIndexWithId(catalogue.value, id);
      if k.None? then None else Some(catalogue.value[k.value])
  }

  /** Index of the first element of `s` whose id is `id`. */
  function FirstIndexWithId(s: seq<CatalogItem>, id: int): (r: Option<nat>)
    ensures r.None? <==> forall i | 0 <= i < |s| :: s[i].id != id
    ensures r.Some? ==> r.value < |s| && s[r.value].id == id
                        && forall j | 0 <= j < r.value :: s[j].id != id
  {
    if |s| == 0 then None
    else if s[0].id == id then Some(0)
    else
      var r := FirstIndexWithId(s[1..], id);
      if r.None? then None else Some(r.value + 1)
  }

  /** Some entry of the list has item id `id`. */
  predicate HasItem(items: seq<VariantItem>, id: int) {
    exists i | 0 <= i < |items| :: items[i].itemId == id
  }

  /** No two entries share an item id. */
  ghost predicate UniqueIds(items: seq<VariantItem>) {
    forall i, j | 0 <= i < j < |items| :: items[i].itemId != items[j].itemId
  }

  /** Every entry has a positive quantity. */
  ghost predicate AllPositive(items: seq<VariantItem>) {
    forall i | 0 <= i < |items| :: items[i].quantity > 0
  }

  /** The list seen as a bag of items: the summed quantity recorded for `id`. */
  function TotalQuantity(items: seq<VariantItem>, id: int): int {
    if |items| == 0 then 0
    else (if items[0].itemId == id then items[0].quantity else 0) + TotalQuantity(items[1..], id)
  }

  /** `items.filter(item => item.item_id !== id)`, shared by both editors. */
  function RemoveItemId(items: seq<VariantItem>, id: int): (r: seq<VariantItem>)
    ensures !HasItem(r, id)
    ensures forall i | 0 <= i < |items| && items[i].itemId != id :: items[i] in r
    ensures forall i | 0 <= i < |r| :: r[i] in items
  {
    Filter((e: VariantItem) => e.itemId != id, items)
  }

  /** Removing an id that does not occur changes nothing. */
  lemma RemoveAbsentItemId(items: seq<VariantItem>, id: int)
    requires !HasItem(items, id)
    ensures RemoveItemId(items, id) == items
  {
    FilterAll((e: VariantItem) => e.itemId != id, items);
  }

  /** Totals are additive over concatenation. */
  lemma {:induction false} TotalQuantityAppend(a: seq<VariantItem>, b: seq<VariantItem>, id: int)
    ensures TotalQuantity(a + b, id) == TotalQuantity(a, id) + TotalQuantity(b, id)
    decreases |a|
  {
    if |a| == 0 {
      assert a + b == b;
    } else {
      assert (a + b)[1..] == a[1..] + b;
      TotalQuantityAppend(a[1..], b, id);
    }
  }

  /** An id that does not occur has total zero. */
  lemma {:induction false} TotalQuantityAbsent(items: seq<VariantItem>, id: int)
    requires !HasItem(items, id)
    ensures TotalQuantity(items, id) == 0
    decreases |items|
  {
    if |items| > 0 {
      assert !HasItem(items[1..], id) by {
        forall i | 0 <= i < |items[1..]| ensures items[1..][i].itemId != id {
          assert items[1..][i] == items[i + 1];
        }
      }
      TotalQuantityAbsent(items[1..], id);
    }
  }

  /** Removing an id zeroes its total and leaves every other total unchanged. */
  lemma {:induction false} RemoveItemIdTotals(items: seq<VariantItem>, id: int, other: int)
    ensures TotalQuantity(RemoveItemId(items, id), id) == 0
    ensures other != id ==> TotalQuantity(RemoveItemId(items, id), other) == TotalQuantity(items, other)
    decreases |items|
  {
    var p := (e: VariantItem) => e.itemId != id;
    TotalQuantityAbsent(RemoveItemId(items, id), id);
    if |items| > 0 {
      RemoveItemIdTotals(items[1..], id, other);
      assert items == [items[0]] + items[1..];
      FilterAppend(p, [items[0]], items[1..]);
      TotalQuantityAppend(Filter(p, [items[0]]), Filter(p, items[1..]), other);
    }
  }

  /** Removal keeps the surviving entries in their original relative order. */
  lemma RemoveItemIdKeepsOrder(items: seq<VariantItem>, id: int)
    ensures IsSubsequence(RemoveItemId(items, id), items)
  {
    FilterIsSubsequence((e: VariantItem) => e.itemId != id, items);
  }

  /** Removal distributes over concatenation, so it commutes with appending entries. */
  lemma RemoveItemIdAppend(a: seq<VariantItem>, b: seq<VariantItem>, id: int)
    ensures RemoveItemId(a + b, id) == RemoveItemId(a, id) + RemoveItemId(b, id)
  {
    FilterAppend((e: VariantItem) => e.itemId != id, a, b);
  }

  /** Removal keeps ids unique and quantities positive. */
  lemma RemoveItemIdPreserves(items: seq<VariantItem>, id: int)
    ensures UniqueIds(items) ==> UniqueIds(RemoveItemId(items, id))
    ensures AllPositive(items) ==> AllPositive(RemoveItemId(items, id))
  {
    RemoveItemIdKeepsOrder(items, id);
    if UniqueIds(items) {
      SubsequenceUnique(RemoveItemId(items, id), items);
    }
  }

  /** A subsequence of a list with unique ids has unique ids. */
  lemma {:induction false} SubsequenceUnique(sub: seq<VariantItem>, s: seq<VariantItem>)
    requires IsSubsequence(sub, s)
    requires UniqueIds(s)
    ensures UniqueIds(sub)
    decreases |s|
  {
    if |sub| > 0 {
      assert UniqueIds(s[1..]) by {
        forall i, j | 0 <= i < j < |s[1..]| ensures s[1..][i].itemId != s[1..][j].itemId {
          assert s[1..][i] == s[i + 1] && s[1..][j] == s[j + 1];
        }
      }
      if sub[0] == s[0] {
        SubsequenceUnique(sub[1..], s[1..]);
        SubsequenceMembers(sub[1..], s[1..]);
        forall j | 0 < j < |sub| ensures sub[0].itemId != sub[j].itemId {
          assert sub[1..][j - 1] == sub[j];
          var k :| 0 <= k < |s[1..]| && s[1..][k] == sub[j];
          assert s[k + 1] == sub[j];
        }
      } else {
        SubsequenceUnique(sub, s[1..]);
      }
    }
  }

  /** Every element of a subsequence is an element of the sequence. */
  lemma {:induction false} SubsequenceMembers(sub: seq<VariantItem>, s: seq<VariantItem>)
    requires IsSubsequence(sub, s)
    ensures forall i | 0 <= i < |sub| :: exists k | 0 <= k < |s| :: s[k] == sub[i]
    decreases |s|
  {
    if |sub| > 0 {
      if sub[0] == s[0] {
        SubsequenceMembers(sub[1..], s[1..]);
        forall i | 0 < i < |sub| ensures exists k | 0 <= k < |s| :: s[k] == sub[i] {
          assert sub[1..][i - 1] == sub[i];
          var k :| 0 <= k < |s[1..]| && s[1..][k] == sub[1..][i - 1];
          assert s[k + 1] == sub[i];
        }
        assert s[0] == sub[0];
      } else {
        SubsequenceMembers(sub, s[1..]);
        forall i | 0 <= i < |sub| ensures exists k | 0 <= k < |s| :: s[k] == sub[i] {
          var k :| 0 <= k < |s[1..]| && s[1..][k] == sub[i];
          assert s[k + 1] == sub[i];
        }
      }
    }
  }

  /** The tail of a list with unique ids has unique ids and does not repeat the head's id. */
  lemma UniqueTail(items: seq<VariantItem>)
    requires |items| > 0
    requires UniqueIds(items)
    ensures UniqueIds(items[1..])
    ensures !HasItem(items[1..], items[0].itemId)
  {
    forall i, j | 0 <= i < j < |items[1..]| ensures items[1..][i].itemId != items[1..][j].itemId {
      assert items[1..][i] == items[i + 1] && items[1..][j] == items[j + 1];
    }
    forall i | 0 <= i < |items[1..]| ensures items[1..][i].itemId != items[0].itemId {
      assert items[1..][i] == items[i + 1];
    }
  }

  /** An id occurs in a non-empty list iff it is the head's id or occurs in the tail. */
  lemma HasItemCons(items: seq<VariantItem>, id: int)
    requires |items| > 0
    ensures HasItem(items, id) <==> items[0].itemId == id || HasItem(items[1..], id)
  {
    if HasItem(items, id) && items[0].itemId != id {
      var i :| 0 <= i < |items| && items[i].itemId == id;
      assert items[1..][i - 1] == items[i];
    }
    if HasItem(items[1..], id) {
      var i :| 0 <= i < |items[1..]| && items[1..][i].itemId == id;
      assert items[i + 1] == items[1..][i];
    }
  }
}

=== FILE: item_selector.dfy ===
/** The item picker used on the variant create page: adding merges
    quantities for an id already present, and a quantity update to zero or
    below removes the entry (frontend/src/components/ItemSelector.tsx). */
module ItemSelector {
  import opened Wrappers
  import opened Seqs
  import opened ItemModel

  /** The picker's local form: visibility, chosen catalogue id, entered quantity. */
  datatype AddForm = AddForm(showAddForm: bool, selectedItemId: Option<int>, quantity: int)

  /** Initial form state, also what a successful add resets to. */
  const ClearedForm := AddForm(false, None, 1)

  /** The entry created for a catalogue item that is not yet in the list. */
  function NewEntry(c: CatalogItem, quantity: int): (e: VariantItem)
    ensures e.itemId == c.id && e.itemName == c.name && e.quantity == quantity
    ensures e.url == c.url && e.images == c.images && e.notes == c.notes
  {
    VariantItem(c.id, c.name, quantity, c.url, c.images, c.notes)
  }

  /** Adds `q` to the quantity of every entry with item id `id`. */
  function MergeQuantity(items: seq<VariantItem>, id: int, q: int): (r: seq<VariantItem>)
    ensures |r| == |items|
    ensures forall i | 0 <= i < |r| ::
      r[i] == items[i].(quantity := items[i].quantity + (if items[i].itemId == id then q else 0))
  {
    if |items| == 0 then []
    else
      var h := items[0];
      [h.(quantity := h.quantity + (if h.itemId == id then q else 0))] + MergeQuantity(items[1..], id, q)
  }

  /** Replaces the quantity of every entry with item id `id` by `q`. */
  function SetQuantity(items: seq<VariantItem>, id: int, q: int): (r: seq<VariantItem>)
    ensures |r| == |items|
    ensures forall i | 0 <= i < |r| ::
      r[i] == items[i].(quantity := if items[i].itemId == id then q else items[i].quantity)
  {
    if |items| == 0 then []
    else
      var h := items[0];
      [h.(quantity := if h.itemId == id then q else h.quantity)] + SetQuantity(items[1..], id, q)
  }

  /** The three guards of an add: an id is selected (0 counts as unset), the
      quantity is positive and the id exists in the loaded catalogue. */
  predicate AddAccepted(catalogue: Option<seq<CatalogItem>>, form: AddForm) {
    && IsSelected(form.selectedItemId)
    && form.quantity > 0
    && FindCatalogItem(catalogue, form.selectedItemId.value).Some?
  }

  /** `handleAddItem`: returns the new item list and the new form state. */
  function AddItem(items: seq<VariantItem>, catalogue: Option<seq<CatalogItem>>, form: AddForm)
    : (r: (seq<VariantItem>, AddForm))
    ensures !AddAccepted(catalogue, form) ==> r == (items, form)
    ensures AddAccepted(catalogue, form) ==> r.1 == ClearedForm
    ensures AddAccepted(catalogue, form) && HasItem(items, form.selectedItemId.value) ==>
      && |r.0| == |items|
      && forall i | 0 <= i < |items| ::
           && r.0[i].itemId == items[i].itemId
           && r.0[i].itemName == items[i].itemName
           && r.0[i].quantity == items[i].quantity
                + (if items[i].itemId == form.selectedItemId.value then form.quantity else 0)
    ensures AddAccepted(catalogue, form) && !HasItem(items, form.selectedItemId.value) ==>
      && |r.0| == |items| + 1
      && r.0[..|items|] == items
      && r.0[|items|].itemId == form.selectedItemId.value
      && r.0[|items|].quantity == form.quantity
      && r.0[|items|] == NewEntry(FindCatalogItem(catalogue, form.selectedItemId.value).value, form.quantity)
  {
    if !AddAccepted(catalogue, form) then (items, form)
    else
      var id := form.selectedItemId.value;
      var c := FindCatalogItem(catalogue, id).value;
      if HasItem(items, id) then (MergeQuantity(items, id, form.quantity), ClearedForm)
      else (items + [NewEntry(c, form.quantity)], ClearedForm)
  }

  /** `handleUpdateQuantity`: a new quantity of zero or less removes the entry. */
  function UpdateQuantity(items: seq<VariantItem>, id: int, newQuantity: int): (r: seq<VariantItem>)
    ensures newQuantity <= 0 ==> r == RemoveItemId(items, id)
    ensures newQuantity > 0 ==>
      && |r| == |items|
      && forall i | 0 <= i < |items| ::
           && r[i].itemId == items[i].itemId
           && r[i].itemName == items[i].itemName
           && r[i].quantity == (if items[i].itemId == id then newQuantity else items[i].quantity)
  {
    if newQuantity <= 0 then RemoveItemId(items, id) else SetQuantity(items, id, newQuantity)
  }

  /** `availableItems`: catalogue entries not yet selected, in catalogue order;
      empty while the catalogue is not loaded. */
  function AvailableItems(catalogue: Option<seq<CatalogItem>>, items: seq<VariantItem>): (r: seq<CatalogItem>)
    ensures catalogue.None? ==> r == []
    ensures catalogue.Some? ==> forall i | 0 <= i < |r| :: r[i] in catalogue.value && !HasItem(items, r[i].id)
    ensures catalogue.Some? ==>
      forall i | 0 <= i < |catalogue.value| && !HasItem(items, catalogue.value[i].id) :: catalogue.value[i] in r
  {
    if catalogue.None? then []
    else Filter((c: CatalogItem) => !HasItem(items, c.id), catalogue.value)
  }

  /** Available items keep catalogue order and share no id with the selection. */
  lemma AvailableItemsDisjointOrdered(catalogue: seq<CatalogItem>, items: seq<VariantItem>)
    ensures IsSubsequence(AvailableItems(Some(catalogue), items), catalogue)
    ensures forall i, j | 0 <= i < |AvailableItems(Some(catalogue), items)| && 0 <= j < |items| ::
      AvailableItems(Some(catalogue), items)[i].id != items[j].itemId
  {
    FilterIsSubsequence((c: CatalogItem) => !HasItem(items, c.id), catalogue);
  }

  /** After a successful add, the added id is no longer offered. */
  lemma AddedItemNoLongerAvailable(items: seq<VariantItem>, catalogue: Option<seq<CatalogItem>>, form: AddForm)
    requires AddAccepted(catalogue, form)
    ensures forall c | c in AvailableItems(catalogue, AddItem(items, catalogue, form).0) ::
      c.id != form.selectedItemId.value
  {
    var id := form.selectedItemId.value;
    var r := AddItem(items, catalogue, form).0;
    if HasItem(items, id) {
      var k :| 0 <= k < |items| && items[k].itemId == id;
      assert r[k].itemId == id;
    } else {
      assert r[|items|].itemId == id;
    }
  }

  /** Adding keeps item ids unique and quantities positive. */
  lemma AddItemPreservesInvariants(items: seq<VariantItem>, catalogue: Option<seq<CatalogItem>>, form: AddForm)
    ensures UniqueIds(items) ==> UniqueIds(AddItem(items, catalogue, form).0)
    ensures AllPositive(items) ==> AllPositive(AddItem(items, catalogue, form).0)
  {
    var r := AddItem(items, catalogue, form).0;
    if AddAccepted(catalogue, form) && !HasItem(items, form.selectedItemId.value) {
      if UniqueIds(items) {
        forall i, j | 0 <= i < j < |r| ensures r[i].itemId != r[j].itemId {
          if j == |items| {
            assert r[i] == items[i];
          } else {
            assert r[i] == items[i] && r[j] == items[j];
          }
        }
      }
      if AllPositive(items) {
        forall i | 0 <= i < |r| ensures r[i].quantity > 0 {
          if i < |items| {
            assert r[i] == items[i];
          }
        }
      }
    }
  }

  /** With unique ids, an accepted add raises the selected id's total by the
      entered quantity and leaves every other id's total unchanged. */
  lemma {:induction false} AddItemTotals(
    items: seq<VariantItem>, catalogue: Option<seq<CatalogItem>>, form: AddForm, x: int)
    requires UniqueIds(items)
    requires AddAccepted(catalogue, form)
    ensures TotalQuantity(AddItem(items, catalogue, form).0, x)
         == TotalQuantity(items, x) + (if x == form.selectedItemId.value then form.quantity else 0)
  {
    var id := form.selectedItemId.value;
    if HasItem(items, id) {
      MergeTotals(items, id, form.quantity, x);
    } else {
      var c := FindCatalogItem(catalogue, id).value;
      TotalQuantityAppend(items, [NewEntry(c, form.quantity)], x);
      assert [NewEntry(c, form.quantity)][1..] == [];
    }
  }

  /** Merging into unique ids adds `q` to the total of `id` exactly once. */
  lemma {:induction false} MergeTotals(items: seq<VariantItem>, id: int, q: int, x: int)
    requires UniqueIds(items)
    ensures TotalQuantity(MergeQuantity(items, id, q), x)
         == TotalQuantity(items, x) + (if x == id && HasItem(items, id) then q else 0)
    decreases |items|
  {
    if |items| > 0 {
      UniqueTail(items);
      HasItemCons(items, id);
      MergeTotals(items[1..], id, q, x);
      assert MergeQuantity(items, id, q)[1..] == MergeQuantity(items[1..], id, q);
    }
  }

  /** With unique ids, a positive update sets the total of a present id to the
      new quantity; any update leaves other ids' totals unchanged. */
  lemma {:induction false} UpdateQuantityTotals(items: seq<VariantItem>, id: int, newQuantity: int, x: int)
    requires UniqueIds(items)
    ensures TotalQuantity(UpdateQuantity(items, id, newQuantity), x)
         == if x != id then TotalQuantity(items, x)
            else if newQuantity > 0 && HasItem(items, id) then newQuantity
            else 0
  {
    if newQuantity <= 0 {
      RemoveItemIdTotals(items, id, x);
    } else {
      SetTotals(items, id, newQuantity, x);
    }
  }

  /** Setting a quantity in a list with unique ids. */
  lemma {:induction false} SetTotals(items: seq<VariantItem>, id: int, q: int, x: int)
    requires UniqueIds(items)
    ensures TotalQuantity(SetQuantity(items, id, q), x)
         == if x != id then TotalQuantity(items, x) else if HasItem(items, id) then q else 0
    decreases |items|
  {
    if |items| > 0 {
      UniqueTail(items);
      HasItemCons(items, id);
      SetTotals(items[1..], id, q, x);
      assert SetQuantity(items, id, q)[1..] == SetQuantity(items[1..], id, q);
      if items[0].itemId == id {
        TotalQuantityAbsent(items[1..], id);
      }
    }
  }

  /** Updating keeps item ids unique and, since a non-positive value removes
      the entry, keeps quantities positive. */
  lemma UpdateQuantityPreservesInvariants(items: seq<VariantItem>, id: int, newQuantity: int)
    ensures UniqueIds(items) ==> UniqueIds(UpdateQuantity(items, id, newQuantity))
    ensures AllPositive(items) ==> AllPositive(UpdateQuantity(items, id, newQuantity))
  {
    RemoveItemIdPreserves(items, id);
  }
}

=== FILE: items_page.dfy ===
/** The item catalogue page (frontend/src/pages/ItemsPage.tsx): create-form
    normalisation, form reset and delete confirmation. */
module ItemsPage {
  import opened Wrappers
  import opened Text
  import opened FormInput

  /** The create form; every field starts empty. */
  datatype ItemForm = ItemForm(name: string, url: string, notes: string)

  /** The form after a successful create. */
  const EmptyItemForm := ItemForm("", "", "")

  /** The create body; absent optional fields are left out of the request. */
  datatype ItemCreate = ItemCreate(name: string, url: Option<string>, notes: Option<string>)

  /** `handleCreateItem`: refuses a blank name; trims the name, and trims url
      and notes, dropping them when blank. */
  function CreateBody(form: ItemForm): (r: Result<ItemCreate, string>)
    ensures r.Err? <==> Blank(form.name)
    ensures r.Err? ==> r.error == "Item name is required"
    ensures r.Ok? ==> r.value.name == Trim(form.name) && r.value.name != ""
    ensures r.Ok? ==> (r.value.url.Some? <==> !Blank(form.url))
    ensures r.Ok? ==> (r.value.notes.Some? <==> !Blank(form.notes))
    ensures r.Ok? && r.value.url.Some? ==> r.value.url.value == Trim(form.url)
    ensures r.Ok? && r.value.notes.Some? ==> r.value.notes.value == Trim(form.notes)
  {
    if Blank(form.name) then Err("Item name is required")
    else Ok(ItemCreate(Trim(form.name), OptionalTrimmed(Some(form.url)), OptionalTrimmed(Some(form.notes))))
  }

  /** Typing a sent body back into the form sends the same body again. */
  lemma CreateBodyStable(form: ItemForm)
    requires CreateBody(form).Ok?
    ensures var b := CreateBody(form).value;
      CreateBody(ItemForm(b.name, b.url.GetOr(""), b.notes.GetOr(""))) == Ok(b)
  {
    TrimIdempotent(form.name);
    TrimIdempotent(form.url);
    TrimIdempotent(form.notes);
  }

  /** Visibility and contents of the create form. */
  datatype FormState = FormState(showCreateForm: bool, form: ItemForm)

  /** The create mutation's outcome: success hides and clears the form,
      failure leaves everything as it was. */
  function AfterCreate(st: FormState, succeeded: bool): (r: FormState)
    ensures succeeded ==> !r.showCreateForm && r.form == EmptyItemForm
    ensures !succeeded ==> r == st
  {
    if succeeded then FormState(false, EmptyItemForm) else st
  }

  /** After a successful create the form would refuse to submit again. */
  lemma ClearedFormRefused(st: FormState)
    ensures CreateBody(AfterCreate(st, true).form).Err?
  {
  }

  /** `handleDeleteItem`: the delete request is issued only when confirmed. */
  function DeleteRequest(itemId: int, confirmed: bool): (r: Option<int>)
    ensures r.Some? <==> confirmed
    ensures r.Some? ==> r.value == itemId
  {
    if confirmed then Some(itemId) else None
  }
}

=== FILE: link_variant.dfy ===
/** The page that links a subdataset to a task variant
    (frontend/src/pages/SubdatasetLinkTaskVariantPage.tsx). The two selects
    hold strings: '' for "nothing chosen", otherwise the decimal id of an
    option. */
module LinkVariantPage {
  import opened Wrappers
  import opened Text

  /** A variant offered in the second select. */
  datatype VariantOption = VariantOption(id: int, name: string)

  /** A task with its variants, from the task list. */
  datatype TaskOption = TaskOption(id: int, name: string, variants: seq<VariantOption>)

  /** The form state. */
  datatype LinkForm = LinkForm(
    selectedTaskId: string, selectedVariantId: string, linking: bool,
    linkError: Option<string>, linkSuccess: Option<string>)

  /** Nothing selected, nothing in flight, no message. */
  const InitialForm: LinkForm := LinkForm("", "", false, None, None)

  const LinkSucceeded: string := "Successfully linked!"
  const LinkFailed: string := "Failed to link"

  /** `Number(value)` for a select value: `''` is 0, an option value is its id. */
  function SelectNumber(value: string): (n: int)
    ensures value == "" ==> n == 0
  {
    if value == "" then 0 else ParseInt(value)
  }

  /** Choosing a task clears the chosen variant. */
  function SelectTask(f: LinkForm, value: string): (r: LinkForm)
    ensures r.selectedTaskId == value && r.selectedVariantId == ""
    ensures r.linking == f.linking && r.linkError == f.linkError && r.linkSuccess == f.linkSuccess
  {
    f.(selectedTaskId := value, selectedVariantId := "")
  }

  /** Choosing a variant changes only the variant. */
  function SelectVariant(f: LinkForm, value: string): (r: LinkForm)
    ensures r.selectedVariantId == value
    ensures r.(selectedVariantId := f.selectedVariantId) == f
  {
    f.(selectedVariantId := value)
  }

  /** `allTasks?.find(t => t.id === Number(selectedTaskId))`. */
  function SelectedTask(tasks: seq<TaskOption>, selectedTaskId: string): (r: Option<TaskOption>)
    ensures r.None? <==> forall i | 0 <= i < |tasks| :: tasks[i].id != SelectNumber(selectedTaskId)
    ensures r.Some? ==> r.value in tasks && r.value.id == SelectNumber(selectedTaskId)
  {
    if |tasks| == 0 then None
    else if tasks[0].id == SelectNumber(selectedTaskId) then Some(tasks[0])
    else SelectedTask(tasks[1..], selectedTaskId)
  }

  /** `selectedTask?.variants || []`: the variants offered; none while the tasks are loading. */
  function OfferedVariants(tasks: Option<seq<TaskOption>>, selectedTaskId: string): (r: seq<VariantOption>)
    ensures tasks.None? ==> r == []
    ensures tasks.Some? && SelectedTask(tasks.value, selectedTaskId).Some?
            ==> r == SelectedTask(tasks.value, selectedTaskId).value.variants
    ensures tasks.Some? && SelectedTask(tasks.value, selectedTaskId).None? ==> r == []
  {
    if tasks.None? then []
    else match SelectedTask(tasks.value, selectedTaskId)
      case None => []
      case Some(t) => t.variants
  }

  /** With database ids (all positive), choosing no task offers no variant,
      although `Number('')` is 0 rather than "no id". */
  lemma NoTaskOffersNothing(tasks: Option<seq<TaskOption>>)
    requires tasks.Some? ==> forall i | 0 <= i < |tasks.value| :: tasks.value[i].id > 0
    ensures OfferedVariants(tasks, "") == []
  {
  }

  /** Choosing a task by its option value offers the first task with that id. */
  lemma OptionValueSelectsTask(tasks: seq<TaskOption>, i: nat)
    requires i < |tasks|
    requires forall j | 0 <= j < i :: tasks[j].id != tasks[i].id
    ensures OfferedVariants(Some(tasks), IntToString(tasks[i].id)) == tasks[i].variants
  {
    ParseIntToString(tasks[i].id);
    var v := IntToString(tasks[i].id);
    assert SelectNumber(v) == tasks[i].id;
    var r := SelectedTask(tasks, v);
    assert r.Some? by { assert tasks[i].id == SelectNumber(v); }
    assert r.value == tasks[i] by {
      var k :| 0 <= k < |tasks| && tasks[k] == r.value;
      FirstMatch(tasks, v, i);
    }
  }

  /** The task `SelectedTask` returns is the first one whose id matches. */
  lemma {:induction false} FirstMatch(tasks: seq<TaskOption>, value: string, i: nat)
    requires i < |tasks| && tasks[i].id == SelectNumber(value)
    requires forall j | 0 <= j < i :: tasks[j].id != tasks[i].id
    ensures SelectedTask(tasks, value) == Some(tasks[i])
    decreases i
  {
    if i > 0 {
      FirstMatch(tasks[1..], value, i - 1);
    }
  }

  /** The Link button is enabled: a task and a variant are chosen and no request is in flight. */
  predicate CanLink(f: LinkForm) {
    f.selectedTaskId != "" && f.selectedVariantId != "" && !f.linking
  }

  /** The start of `handleLink`: in flight, both messages cleared. */
  function StartLink(f: LinkForm): (r: LinkForm)
    ensures r.linking && r.linkError.None? && r.linkSuccess.None?
    ensures !CanLink(r)
    ensures r.selectedTaskId == f.selectedTaskId && r.selectedVariantId == f.selectedVariantId
  {
    f.(linking := true, linkError := None, linkSuccess := None)
  }

  /** The request body's `task_variant_id`. */
  function LinkRequestVariantId(f: LinkForm): int {
    SelectNumber(f.selectedVariantId)
  }

  /** The end of `handleLink`. The outcome is `Ok` when the POST succeeds,
      otherwise the response's `detail` string if there is one. A missing or
      empty detail shows the generic message. The other message is left as
      it was (the start of the attempt has cleared it). */
  function FinishLink(f: LinkForm, outcome: Result<(), Option<string>>): (r: LinkForm)
    ensures !r.linking
    ensures outcome.Err? ==> r.linkSuccess == f.linkSuccess
    ensures outcome.Ok? ==> r.linkError == f.linkError
    ensures outcome.Ok? ==> r.linkSuccess == Some(LinkSucceeded)
    ensures outcome.Err? && outcome.error.Some? && outcome.error.value != "" ==> r.linkError == outcome.error
    ensures outcome.Err? && !(outcome.error.Some? && outcome.error.value != "") ==> r.linkError == Some(LinkFailed)
    ensures r.selectedTaskId == f.selectedTaskId && r.selectedVariantId == f.selectedVariantId
  {
    match outcome
    case Ok(_) => f.(linking := false, linkSuccess := Some(LinkSucceeded))
    case Err(detail) =>
      var message := if detail.Some? && detail.value != "" then detail.value else LinkFailed;
      f.(linking := false, linkError := Some(message))
  }

  /** A full link attempt from an enabled form sends the chosen variant's id
      and leaves exactly one message, with the button enabled again. */
  lemma LinkAttempt(f: LinkForm, v: VariantOption, outcome: Result<(), Option<string>>)
    requires f.selectedTaskId != "" && f.selectedVariantId == IntToString(v.id)
    requires CanLink(f)
    ensures LinkRequestVariantId(StartLink(f)) == v.id
    ensures var r := FinishLink(StartLink(f), outcome);
      CanLink(r) && (r.linkError.Some? != r.linkSuccess.Some?)
  {
    ParseIntToString(v.id);
  }

  /** Choosing another task always disables the button until a variant is chosen again. */
  lemma NewTaskDisablesLink(f: LinkForm, value: string)
    ensures !CanLink(SelectTask(f, value))
  {
  }

  /** A linked task as returned by the linked-tasks query. */
  datatype LinkedTask = LinkedTask(id: int, name: string, variants: seq<VariantOption>)

  /** The page shows "Already linked to" instead of the form when the first
      linked task has at least one variant. */
  predicate AlreadyLinked(linked: Option<seq<LinkedTask>>) {
    linked.Some? && |linked.value| > 0 && |linked.value[0].variants| > 0
  }

  /** The variant shown as the existing link: the first variant of the first linked task. */
  function ShownLink(linked: Option<seq<LinkedTask>>): (r: Option<(LinkedTask, VariantOption)>)
    ensures r.Some? <==> AlreadyLinked(linked)
    ensures r.Some? ==> r.value.0 == linked.value[0] && r.value.1 == linked.value[0].variants[0]
  {
    if AlreadyLinked(linked) then Some((linked.value[0], linked.value[0].variants[0])) else None
  }
}

=== FILE: raw_episode_api.dfy ===
/** The flat raw-episode endpoints (backend/app/api/v1/endpoints/raw_episodes.py):
    creation and listing check the subdataset; single-episode routes look up
    the episode by id alone. */
module RawEpisodeApi {
  import opened Wrappers
  import opened Store
  import opened Http
  import opened SubdatasetCrud
  import SubdatasetApi

  const SubdatasetNotFound := "Subdataset not found"
  const EpisodeNotFound := "Raw episode not found"

  /** `POST /raw-episodes/?subdataset_id=...`. */
  function CreateEndpoint(db: SubdatasetDb, subdatasetId: int, f: EpisodeFields)
    : (r: (SubdatasetDb, Result<Row<RawEpisode>, HttpError>))
    ensures r.1.Err? <==> subdatasetId !in db.subdatasets.rows
    ensures r.1.Err? ==> r.1.error == NotFound(SubdatasetNotFound) && r.0 == db
    ensures r.1.Ok? ==>
      && r.1.value.rec == RawEpisode(subdatasetId, f)
      && r.0.episodes.rows == db.episodes.rows[r.1.value.id := r.1.value.rec]
  {
    if GetSubdataset(db, subdatasetId).None? then (db, Err(NotFound(SubdatasetNotFound)))
    else
      var (db', id) := CreateEpisode(db, subdatasetId, f);
      (db', Ok(Row(id, RawEpisode(subdatasetId, f))))
  }

  /** `GET /raw-episodes/`: with a subdataset id, that subdataset's episodes
      (404 when it is missing); without, episodes of all subdatasets. */
  function ListEndpoint(
    db: SubdatasetDb, order: seq<int>, skip: nat, limit: nat, subdatasetId: Option<int>, episodeLabel: Option<string>)
    : (r: Result<seq<Row<RawEpisode>>, HttpError>)
    ensures r.Err? <==> subdatasetId.Some? && subdatasetId.value !in db.subdatasets.rows
    ensures r.Err? ==> r.error == NotFound(SubdatasetNotFound)
    ensures r.Ok? ==> |r.value| <= limit
    ensures r.Ok? ==> forall i | 0 <= i < |r.value| ::
      && r.value[i].id in db.episodes.rows && db.episodes.rows[r.value[i].id] == r.value[i].rec
      && LabelMatches(r.value[i].rec, episodeLabel)
      && (subdatasetId.Some? ==> r.value[i].rec.subdatasetId == subdatasetId.value)
    ensures r.Ok? && subdatasetId.Some? ==>
      IsPage(r.value, db.episodes.rows, order, OwnedLabelFilter(subdatasetId.value, episodeLabel), skip, limit)
    ensures r.Ok? && subdatasetId.None? ==>
      IsPage(r.value, db.episodes.rows, order, LabelFilter(episodeLabel), skip, limit)
  {
    if subdatasetId.Some? then
      if GetSubdataset(db, subdatasetId.value).None? then Err(NotFound(SubdatasetNotFound))
      else Ok(GetEpisodes(db, order, subdatasetId.value, skip, limit, episodeLabel))
    else Ok(GetAllEpisodes(db, order, skip, limit, episodeLabel))
  }

  /** `GET /raw-episodes/{id}`. */
  function ReadEndpoint(db: SubdatasetDb, id: int): (r: Result<RawEpisode, HttpError>)
    ensures r.Err? <==> id !in db.episodes.rows
    ensures r.Err? ==> r.error == NotFound(EpisodeNotFound)
    ensures r.Ok? ==> r.value == db.episodes.rows[id]
  {
    match GetEpisode(db, id)
    case None => Err(NotFound(EpisodeNotFound))
    case Some(e) => Ok(e)
  }

  /** `PUT /raw-episodes/{id}`. */
  function UpdateEndpoint(db: SubdatasetDb, id: int, u: EpisodeUpdate): (r: (SubdatasetDb, Result<RawEpisode, HttpError>))
    ensures r.1.Err? <==> id !in db.episodes.rows
    ensures r.1.Err? ==> r.1.error == NotFound(EpisodeNotFound) && r.0 == db
    ensures r.1.Ok? ==>
      && r.1.value == ApplyEpisodeUpdate(db.episodes.rows[id], u)
      && r.0.episodes.rows == db.episodes.rows[id := r.1.value]
  {
    if GetEpisode(db, id).None? then (db, Err(NotFound(EpisodeNotFound)))
    else
      var (db', e) := UpdateEpisode(db, id, u);
      (db', Ok(e.value))
  }

  /** `DELETE /raw-episodes/{id}`. */
  function DeleteEndpoint(db: SubdatasetDb, id: int): (r: (SubdatasetDb, Result<bool, HttpError>))
    ensures r.1.Err? <==> id !in db.episodes.rows
    ensures r.1.Err? ==> r.1.error == NotFound(EpisodeNotFound) && r.0 == db
    ensures r.1.Ok? ==> r.1.value && r.0.episodes.rows == db.episodes.rows - {id}
  {
    if GetEpisode(db, id).None? then (db, Err(NotFound(EpisodeNotFound)))
    else
      var (db', ok) := DeleteEpisode(db, id);
      (db', Ok(ok))
  }

  /** The flat read succeeds whenever the nested one does, with the same
      episode; the converse fails exactly for episodes of another subdataset
      (or a missing path subdataset). */
  lemma FlatReadWeakerThanNested(db: SubdatasetDb, subdatasetId: int, id: int)
    ensures SubdatasetApi.ReadEpisodeEndpoint(db, subdatasetId, id).Ok? ==>
      ReadEndpoint(db, id) == SubdatasetApi.ReadEpisodeEndpoint(db, subdatasetId, id)
    ensures ReadEndpoint(db, id).Ok? && SubdatasetApi.ReadEpisodeEndpoint(db, subdatasetId, id).Err? <==>
      id in db.episodes.rows &&
      (subdatasetId !in db.subdatasets.rows || db.episodes.rows[id].subdatasetId != subdatasetId)
  {
  }

  /** Creating through either route stores the same record. */
  lemma CreateRoutesAgree(db: SubdatasetDb, subdatasetId: int, f: EpisodeFields)
    ensures CreateEndpoint(db, subdatasetId, f) == SubdatasetApi.CreateEpisodeEndpoint(db, subdatasetId, f)
  {
  }
}

=== FILE: seqs.dfy ===
/** Order-preserving filtering of sequences, the `Array.prototype.filter` of the front end. */
module Seqs {

  /** The elements of `s` that satisfy `p`, in their original order. */
  function Filter<T>(p: T -> bool, s: seq<T>): (r: seq<T>)
    ensures |r| <= |s|
    ensures forall i | 0 <= i < |r| :: r[i] in s && p(r[i])
    ensures forall i | 0 <= i < |s| && p(s[i]) :: s[i] in r
  {
    if |s| == 0 then []
    else if p(s[0]) then [s[0]] + Filter(p, s[1..])
    else Filter(p, s[1..])
  }

  /** `sub` can be obtained from `s` by deleting elements, without reordering. */
  predicate IsSubsequence<T(==)>(sub: seq<T>, s: seq<T>)
    decreases |s|
  {
    if |sub| == 0 then true
    else if |s| == 0 then false
    else if sub[0] == s[0] then IsSubsequence(sub[1..], s[1..])
    else IsSubsequence(sub, s[1..])
  }

  /** Filtering distributes over concatenation: the relative order of the kept elements is unchanged. */
  lemma {:induction false} FilterAppend<T>(p: T -> bool, a: seq<T>, b: seq<T>)
    ensures Filter(p, a + b) == Filter(p, a) + Filter(p, b)
    decreases |a|
  {
    if |a| == 0 {
      assert a + b == b;
    } else {
      assert (a + b)[1..] == a[1..] + b;
      FilterAppend(p, a[1..], b);
    }
  }

  /** The filtered sequence is a subsequence of the original. */
  lemma {:induction false} FilterIsSubsequence<T>(p: T -> bool, s: seq<T>)
    ensures IsSubsequence(Filter(p, s), s)
    decreases |s|
  {
    if |s| > 0 {
      FilterIsSubsequence(p, s[1..]);
      if !p(s[0]) {
        SubsequenceSkip(Filter(p, s[1..]), s);
      }
    }
  }

  /** Dropping the head of `s` keeps subsequences of its tail subsequences of `s`. */
  lemma {:induction false} SubsequenceSkip<T>(sub: seq<T>, s: seq<T>)
    requires |s| > 0
    requires IsSubsequence(sub, s[1..])
    ensures IsSubsequence(sub, s)
    decreases |s|, 0
  {
    if |sub| > 0 && sub[0] == s[0] {
      SubsequenceTail(sub, s[1..]);
    }
  }

  /** A subsequence without its head is still a subsequence. */
  lemma {:induction false} SubsequenceTail<T>(sub: seq<T>, s: seq<T>)
    requires |sub| > 0
    requires IsSubsequence(sub, s)
    ensures IsSubsequence(sub[1..], s)
    decreases |s|, 1
  {
    if sub[0] != s[0] {
      SubsequenceTail(sub, s[1..]);
    }
    SubsequenceSkip(sub[1..], s);
  }

  /** A filter whose predicate holds everywhere in `s` returns `s` itself. */
  lemma {:induction false} FilterAll<T>(p: T -> bool, s: seq<T>)
    requires forall i | 0 <= i < |s| :: p(s[i])
    ensures Filter(p, s) == s
    decreases |s|
  {
    if |s| > 0 {
      FilterAll(p, s[1..]);
    }
  }

  /** A filter whose predicate fails everywhere in `s` returns the empty sequence. */
  lemma {:induction false} FilterNone<T>(p: T -> bool, s: seq<T>)
    requires forall i | 0 <= i < |s| :: !p(s[i])
    ensures Filter(p, s) == []
    decreases |s|
  {
    if |s| > 0 {
      FilterNone(p, s[1..]);
    }
  }

  /** Filters whose predicates agree on every element of `s` select the same elements. */
  lemma {:induction false} FilterAgree<T>(p: T -> bool, q: T -> bool, s: seq<T>)
    requires forall i | 0 <= i < |s| :: p(s[i]) == q(s[i])
    ensures Filter(p, s) == Filter(q, s)
    decreases |s|
  {
    if |s| > 0 {
      FilterAgree(p, q, s[1..]);
    }
  }
}

=== FILE: storage.dfy ===
/** Object naming and content-type choice of the media bucket service
    (backend/app/core/gcs_service.py), and the extension rule the upload
    endpoint applies to uploaded filenames (CPython `os.path.splitext`). */
module Storage {
  import opened Wrappers
  import opened Text
  import opened ConfigImages

  /** `generate_filename`: `{task_id}_{variant_id}_{image_type}{file_extension}`. */
  function GenerateFilename(taskId: int, variantId: int, imageType: string, extension: string): (r: string)
    ensures |r| == |IntToString(taskId)| + |IntToString(variantId)| + |imageType| + |extension| + 2
    ensures r[..|IntToString(taskId)|] == IntToString(taskId)
  {
    IntToString(taskId) + "_" + IntToString(variantId) + "_" + imageType + extension
  }

  /** The URI `upload_image` returns: `gs://{bucket}/{filename}`. */
  function GsUri(bucket: string, filename: string): (r: string)
    ensures |r| == 6 + |bucket| + |filename|
    ensures r[..5] == "gs://" && r[|r| - |filename|..] == filename
    ensures forall i | 0 <= i < |bucket| :: r[5 + i] == bucket[i]
    ensures r[5 + |bucket|] == '/'
  {
    "gs://" + bucket + "/" + filename
  }

  /** The name of a start or end image as generated for a variant. */
  function ImageFilename(taskId: int, variantId: int, kind: ImageKind, extension: string): string {
    GenerateFilename(taskId, variantId, kind.Name(), extension)
  }

  /** A generated start (end) filename carries the marker the front end looks for. */
  lemma GeneratedNameCarriesMarker(taskId: int, variantId: int, kind: ImageKind, extension: string)
    ensures Contains(ImageFilename(taskId, variantId, kind, extension), Marker(variantId, kind))
  {
    var t := IntToString(taskId);
    var m := Marker(variantId, kind);
    var f := ImageFilename(taskId, variantId, kind, extension);
    Regroup(t, IntToString(variantId), kind.Name(), extension);
    ContainsInMiddle(t, m, extension);
  }

  /** Concatenation regrouped around the marker part of a filename. */
  lemma Regroup(t: string, v: string, n: string, e: string)
    ensures t + "_" + v + "_" + n + e == t + ("_" + v + "_" + n) + e
  {
  }

  /** Concatenation regrouped after a prefix. */
  lemma PrefixRegroup(g: string, t: string, m: string, e: string)
    ensures g + (t + m + e) == (g + t) + m + e
  {
  }

  /** The URI a generated filename is stored under carries the marker too, so
      a media list holding just that URI yields it as the variant's start
      (end) image. */
  lemma GeneratedUriFound(bucket: string, taskId: int, variantId: int, kind: ImageKind, extension: string)
    ensures var u := GsUri(bucket, ImageFilename(taskId, variantId, kind, extension));
      FindImage([u], variantId, kind) == Some(u)
  {
    var t := IntToString(taskId);
    var m := Marker(variantId, kind);
    var u := GsUri(bucket, ImageFilename(taskId, variantId, kind, extension));
    Regroup(t, IntToString(variantId), kind.Name(), extension);
    PrefixRegroup("gs://" + bucket + "/", t, m, extension);
    ContainsInMiddle("gs://" + bucket + "/" + t, m, extension);
    assert [u][0] == u;
  }

  /** Start and end filenames of the same task, variant and extension differ. */
  lemma StartEndNamesDiffer(taskId: int, variantId: int, extension: string)
    ensures ImageFilename(taskId, variantId, StartKind, extension) != ImageFilename(taskId, variantId, EndKind, extension)
  {
    var p := IntToString(taskId) + "_" + IntToString(variantId) + "_";
    var s := ImageFilename(taskId, variantId, StartKind, extension);
    var e := ImageFilename(taskId, variantId, EndKind, extension);
    assert s == p + "start" + extension && e == p + "end" + extension;
    assert s[|p|] == 's' && e[|p|] == 'e';
  }

  /** The filename splits at `_` back into its task id, variant id and the
      type with extension, and the ids parse back, whenever the type and
      extension have no `_`. */
  lemma FilenameRoundTrip(taskId: int, variantId: int, imageType: string, extension: string)
    requires '_' !in imageType + extension
    ensures var parts := Split(GenerateFilename(taskId, variantId, imageType, extension), '_');
      && parts == [IntToString(taskId), IntToString(variantId), imageType + extension]
      && ParseInt(parts[0]) == taskId && ParseInt(parts[1]) == variantId
  {
    var t := IntToString(taskId);
    var v := IntToString(variantId);
    var k := imageType + extension;
    assert GenerateFilename(taskId, variantId, imageType, extension) == t + ['_'] + (v + ['_'] + k);
    SplitAppend(t, '_', v + ['_'] + k);
    SplitAppend(v, '_', k);
    SplitNoSeparator(t, '_');
    SplitNoSeparator(v, '_');
    SplitNoSeparator(k, '_');
    ParseIntToString(taskId);
    ParseIntToString(variantId);
  }

  /** Different ids never produce the same filename for the same type and extension. */
  lemma FilenameInjective(t1: int, v1: int, t2: int, v2: int, imageType: string, extension: string)
    requires '_' !in imageType + extension
    requires GenerateFilename(t1, v1, imageType, extension) == GenerateFilename(t2, v2, imageType, extension)
    ensures t1 == t2 && v1 == v2
  {
    FilenameRoundTrip(t1, v1, imageType, extension);
    FilenameRoundTrip(t2, v2, imageType, extension);
  }

  /** The content type set on the blob: the explicit one when non-empty,
      otherwise the one guessed from the filename, if any. */
  function ChooseContentType(explicit: Option<string>, guessed: Option<string>): (r: Option<string>)
    ensures explicit.Some? && explicit.value != "" ==> r == explicit
    ensures !(explicit.Some? && explicit.value != "") && guessed.Some? && guessed.value != "" ==> r == guessed
    ensures !(explicit.Some? && explicit.value != "") && !(guessed.Some? && guessed.value != "") ==> r.None?
  {
    if explicit.Some? && explicit.value != "" then explicit
    else if guessed.Some? && guessed.value != "" then guessed
    else None
  }

  /** Index of the last `c` in `s`, or -1. */
  function LastIndexOf(s: string, c: char): (r: int)
    ensures -1 <= r < |s|
    ensures r >= 0 ==> s[r] == c
    ensures forall k | r < k < |s| :: s[k] != c
  {
    if |s| == 0 then -1
    else if s[|s| - 1] == c then |s| - 1
    else LastIndexOf(s[..|s| - 1], c)
  }

  /** Whether `s[from..to]` holds a character other than `.`. */
  predicate HasNonDot(s: string, from: int, to: int)
    requires 0 <= from <= to <= |s|
  {
    exists k | from <= k < to :: s[k] != '.'
  }

  /** The final path component of `p` holds a `.` that has a character
      other than `.` before it within that component. */
  predicate HasExtension(p: string) {
    exists i, j | 0 <= i < j < |p| :: p[i] != '.' && p[j] == '.' && forall k | i <= k < |p| :: p[k] != '/'
  }

  /** The split `Extension` makes agrees with `HasExtension`. */
  lemma ExtensionCondition(p: string, sep: int, dot: int)
    requires sep == LastIndexOf(p, '/') && dot == LastIndexOf(p, '.')
    ensures HasExtension(p) <==> dot > sep && HasNonDot(p, sep + 1, dot)
  {
    SplitHasExtension(p, sep, dot);
    HasExtensionSplits(p, sep, dot);
  }

  /** When `Extension` splits, `HasExtension` holds. */
  lemma SplitHasExtension(p: string, sep: int, dot: int)
    requires sep == LastIndexOf(p, '/') && dot == LastIndexOf(p, '.')
    ensures dot > sep && HasNonDot(p, sep + 1, dot) ==> HasExtension(p)
  {
    if dot > sep && HasNonDot(p, sep + 1, dot) {
      var k :| sep + 1 <= k < dot && p[k] != '.';
      ExtensionWitness(p, sep, k, dot);
    }
  }

  /** When `HasExtension` holds, `Extension` splits. */
  lemma HasExtensionSplits(p: string, sep: int, dot: int)
    requires sep == LastIndexOf(p, '/') && dot == LastIndexOf(p, '.')
    ensures HasExtension(p) ==> dot > sep && HasNonDot(p, sep + 1, dot)
  {
    if HasExtension(p) {
      var i, j :| 0 <= i < j < |p| && p[i] != '.' && p[j] == '.' && forall k | i <= k < |p| :: p[k] != '/';
      WitnessSplits(p, sep, i, j, dot);
    }
  }

  /** A witness of `HasExtension` lies after the last separator and before
      the last dot, so `Extension` splits there. */
  lemma WitnessSplits(p: string, sep: int, i: int, j: int, dot: int)
    requires sep == LastIndexOf(p, '/') && dot == LastIndexOf(p, '.')
    requires 0 <= i < j < |p| && p[i] != '.' && p[j] == '.'
    requires forall k | i <= k < |p| :: p[k] != '/'
    ensures dot > sep && HasNonDot(p, sep + 1, dot)
  {
    assert sep < i;
    assert j <= dot;
    assert sep + 1 <= i < dot && p[i] != '.';
  }

  /** A non-dot character after the last separator and before the last dot
      witnesses `HasExtension`. */
  lemma ExtensionWitness(p: string, sep: int, k: int, dot: int)
    requires sep == LastIndexOf(p, '/') && dot == LastIndexOf(p, '.')
    requires sep + 1 <= k < dot && p[k] != '.'
    ensures HasExtension(p)
  {
    assert forall m | k <= m < |p| :: p[m] != '/';
    assert 0 <= k < dot < |p| && p[k] != '.' && p[dot] == '.';
  }

  /** `os.path.splitext(p)[1]` on POSIX: from the last `.` of the final path
      component, provided that component has something other than dots before it. */
  function Extension(p: string): (r: string)
    ensures r != "" <==> HasExtension(p)
    ensures r != "" ==> r == p[LastIndexOf(p, '.')..]
    ensures r == "" || (r[0] == '.' && '/' !in r && '.' !in r[1..])
    ensures |r| <= |p| && p[|p| - |r|..] == r
  {
    var sep := LastIndexOf(p, '/');
    var dot := LastIndexOf(p, '.');
    ExtensionCondition(p, sep, dot);
    if dot > sep && HasNonDot(p, sep + 1, dot) then
      assert forall k | 1 <= k < |p[dot..]| :: p[dot..][k] == p[dot + k];
      p[dot..]
    else ""
  }

  /** Some concrete extensions: a plain name, a dot file and a dotted directory. */
  lemma ExtensionExamples()
    ensures Extension("a.png") == ".png"
    ensures Extension(".png") == ""
    ensures Extension("d.x/a") == ""
  {
    PlainNameExtension();
    DotFileExtension();
    DottedDirectoryExtension();
  }

  /** `a.png` has the extension `.png`. */
  lemma PlainNameExtension()
    ensures Extension("a.png") == ".png"
  {
    assert LastIndexOf("a.png", '/') == -1 by {
      assert "a.png"[..4] == "a.pn" && "a.pn"[..3] == "a.p" && "a.p"[..2] == "a." && "a."[..1] == "a" && "a"[..0] == "";
    }
    assert LastIndexOf("a.png", '.') == 1 by {
      assert "a.png"[..4] == "a.pn" && "a.pn"[..3] == "a.p" && "a.p"[..2] == "a.";
    }
    assert "a.png"[0] == 'a';
    assert HasNonDot("a.png", 0, 1);
    assert "a.png"[1..] == ".png";
  }

  /** The dot file `.png` has no extension. */
  lemma DotFileExtension()
    ensures Extension(".png") == ""
  {
    assert LastIndexOf(".png", '/') == -1 by {
      assert ".png"[..3] == ".pn" && ".pn"[..2] == ".p" && ".p"[..1] == "." && "."[..0] == "";
    }
    assert LastIndexOf(".png", '.') == 0 by {
      assert ".png"[..3] == ".pn" && ".pn"[..2] == ".p" && ".p"[..1] == ".";
    }
  }

  /** A dot in a directory name gives `d.x/a` no extension. */
  lemma DottedDirectoryExtension()
    ensures Extension("d.x/a") == ""
  {
    assert LastIndexOf("d.x/a", '/') == 3 by {
      assert "d.x/a"[..4] == "d.x/";
    }
    assert LastIndexOf("d.x/a", '.') == 1 by {
      assert "d.x/a"[..4] == "d.x/" && "d.x/"[..3] == "d.x" && "d.x"[..2] == "d.";
    }
  }
}

=== FILE: store.dfy ===
/** An in-memory stand-in for a SQLAlchemy table with an auto-increment
    integer primary key, and the query shapes the CRUD layer uses:
    `filter(...).first()` by id, chained equality filters followed by
    `offset(skip).limit(limit)`, partial updates and deletes. */
module Store {
  import opened Wrappers

  /** A stored record together with its primary key. */
  datatype Row<R> = Row(id: int, rec: R)

  /** The rows by primary key, and the next key the sequence will hand out. */
  datatype Table<R> = Table(rows: map<int, R>, nextId: int)

  /** Keys handed out so far are positive and below the next one. */
  predicate Valid<R>(t: Table<R>) {
    t.nextId > 0 && forall k | k in t.rows :: 0 < k < t.nextId
  }

  /** A table with no rows whose sequence starts at 1. */
  function EmptyTable<R>(): (t: Table<R>)
    ensures Valid(t) && t.rows == map[]
  {
    Table(map[], 1)
  }

  /** `db.add(x); db.commit()`: stores the record under the next key and returns that key. */
  function Insert<R>(t: Table<R>, rec: R): (r: (Table<R>, int))
    ensures r.0.rows == t.rows[r.1 := rec]
    ensures Valid(t) ==> Valid(r.0) && r.1 !in t.rows && r.1 > 0
  {
    (Table(t.rows[t.nextId := rec], t.nextId + 1), t.nextId)
  }

  /** `query.filter(X.id == id).first()`. */
  function Get<R>(t: Table<R>, id: int): (r: Option<R>)
    ensures r.Some? <==> id in t.rows
    ensures r.Some? ==> r.value == t.rows[id]
  {
    if id in t.rows then Some(t.rows[id]) else None
  }

  /** Writes `rec` over an existing row; the key set and the sequence are unchanged. */
  function Replace<R>(t: Table<R>, id: int, rec: R): (r: Table<R>)
    requires id in t.rows
    ensures r.rows.Keys == t.rows.Keys && r.nextId == t.nextId
    ensures r.rows[id] == rec
    ensures forall k | k in t.rows && k != id :: r.rows[k] == t.rows[k]
    ensures Valid(t) ==> Valid(r)
  {
    Table(t.rows[id := rec], t.nextId)
  }

  /** `db.delete(x); db.commit()` after a lookup: false, and no change, when the key is absent. */
  function Remove<R>(t: Table<R>, id: int): (r: (Table<R>, bool))
    ensures r.1 <==> id in t.rows
    ensures !r.1 ==> r.0 == t
    ensures r.0.rows.Keys == t.rows.Keys - {id} && r.0.nextId == t.nextId
    ensures forall k | k in r.0.rows :: r.0.rows[k] == t.rows[k]
    ensures Valid(t) ==> Valid(r.0)
  {
    if id in t.rows then (Table(t.rows - {id}, t.nextId), true) else (t, false)
  }

  /** Removes every row whose record satisfies `p` (an ORM delete cascade). */
  function RemoveWhere<R>(t: Table<R>, p: R -> bool): (r: Table<R>)
    ensures r.rows.Keys == set k | k in t.rows && !p(t.rows[k])
    ensures forall k | k in r.rows :: r.rows[k] == t.rows[k]
    ensures r.nextId == t.nextId
    ensures Valid(t) ==> Valid(r)
  {
    Table(map k | k in t.rows && !p(t.rows[k]) :: t.rows[k], t.nextId)
  }

  /** The rows a filtered query visits, in the database's scan order `order`
      (SQL gives no order without ORDER BY, so the order is a parameter). */
  function Query<R>(rows: map<int, R>, order: seq<int>, p: R -> bool): (r: seq<Row<R>>)
    ensures |r| <= |order|
    ensures forall i | 0 <= i < |r| :: r[i].id in rows && rows[r[i].id] == r[i].rec && p(r[i].rec)
    ensures forall i | 0 <= i < |r| :: r[i].id in order
    ensures forall i | 0 <= i < |order| && order[i] in rows && p(rows[order[i]]) ::
      Row(order[i], rows[order[i]]) in r
  {
    if |order| == 0 then []
    else
      var rest := Query(rows, order[1..], p);
      var k := order[0];
      assert forall i | 0 < i < |order| :: order[i] == order[1..][i - 1];
      if k in rows && p(rows[k]) then [Row(k, rows[k])] + rest else rest
  }

  /** How many of `n` results survive `offset(skip).limit(limit)`. */
  function PageLength(n: nat, skip: nat, limit: nat): nat {
    if skip >= n then 0 else if n - skip < limit then n - skip else limit
  }

  /** `offset(skip).limit(limit)`: the `limit` elements after the first `skip`. */
  function Page<T>(s: seq<T>, skip: nat, limit: nat): (r: seq<T>)
    ensures |r| == PageLength(|s|, skip, limit)
    ensures forall i | 0 <= i < |r| :: r[i] == s[skip + i]
  {
    if skip >= |s| then []
    else if |s| - skip < limit then s[skip..]
    else s[skip..skip + limit]
  }

  /** The listing is exactly a page of the query: the first `skip` matches
      in scan order are passed over, and the next ones fill the page up to
      `limit` or until the matches run out. */
  ghost predicate IsPage<R>(r: seq<Row<R>>, rows: map<int, R>, order: seq<int>, p: R -> bool, skip: nat, limit: nat) {
    var q := Query(rows, order, p);
    |r| == PageLength(|q|, skip, limit) && forall i | 0 <= i < |r| :: r[i] == q[skip + i]
  }

  /** A filtered, paginated listing of a table. */
  function List<R>(t: Table<R>, order: seq<int>, p: R -> bool, skip: nat, limit: nat): (r: seq<Row<R>>)
    ensures |r| <= limit
    ensures forall i | 0 <= i < |r| :: r[i].id in t.rows && t.rows[r[i].id] == r[i].rec && p(r[i].rec)
    ensures IsPage(r, t.rows, order, p, skip, limit)
  {
    Page(Query(t.rows, order, p), skip, limit)
  }

  /** Consecutive pages tile the result: the first `a` rows followed by the
      next `b` rows are the first `a + b` rows. */
  lemma PageSplit<T>(s: seq<T>, a: nat, b: nat)
    ensures Page(s, 0, a) + Page(s, a, b) == Page(s, 0, a + b)
  {
    var lhs := Page(s, 0, a) + Page(s, a, b);
    var rhs := Page(s, 0, a + b);
    assert |lhs| == |rhs|;
    forall i | 0 <= i < |lhs| ensures lhs[i] == rhs[i] {
      if i < |Page(s, 0, a)| {
      } else {
        assert lhs[i] == Page(s, a, b)[i - |Page(s, 0, a)|];
      }
    }
  }

  /** A query no stored row satisfies returns nothing, whatever the scan order. */
  lemma QueryNoMatch<R>(rows: map<int, R>, order: seq<int>, p: R -> bool)
    requires forall k | k in rows :: !p(rows[k])
    ensures Query(rows, order, p) == []
  {
  }

  /** No sequence element occurs twice. */
  predicate NoDuplicates(order: seq<int>) {
    forall i, j | 0 <= i < j < |order| :: order[i] != order[j]
  }

  /** When the scan visits every key exactly once, the query returns every
      matching row and each of them once. */
  lemma {:induction false} QueryExact<R>(rows: map<int, R>, order: seq<int>, p: R -> bool)
    requires NoDuplicates(order)
    ensures forall i, j | 0 <= i < j < |Query(rows, order, p)| ::
      Query(rows, order, p)[i].id != Query(rows, order, p)[j].id
    ensures (forall k | k in rows :: k in order) ==>
      forall k | k in rows && p(rows[k]) :: Row(k, rows[k]) in Query(rows, order, p)
  {
    if |order| > 0 {
      var rest := Query(rows, order[1..], p);
      assert NoDuplicates(order[1..]) by {
        forall i, j | 0 <= i < j < |order[1..]| ensures order[1..][i] != order[1..][j] {
          assert order[1..][i] == order[i + 1] && order[1..][j] == order[j + 1];
        }
      }
      QueryExact(rows, order[1..], p);
      forall i | 0 <= i < |rest| ensures rest[i].id != order[0] {
        assert rest[i].id in order[1..];
        var m :| 0 <= m < |order[1..]| && order[1..][m] == rest[i].id;
        assert order[m + 1] == rest[i].id;
      }
    }
    if forall k | k in rows :: k in order {
      forall k | k in rows && p(rows[k]) ensures Row(k, rows[k]) in Query(rows, order, p) {
        var i :| 0 <= i < |order| && order[i] == k;
      }
    }
  }

  /** A partial-update field: left alone, or explicitly set (possibly to null). */
  datatype Patch<T> = Unset | Set(value: T) {
    /** The field's value after the update. */
    function Over(current: T): (r: T)
      ensures Set? ==> r == value
      ensures Unset? ==> r == current
    {
      if Set? then value else current
    }
  }
}

=== FILE: subdataset_api.dfy ===
/** The subdataset endpoints and the raw-episode routes nested under a
    subdataset (backend/app/api/v1/endpoints/subdatasets.py). Nested episode
    routes first require the subdataset, then an episode that belongs to it. */
module SubdatasetApi {
  import opened Wrappers
  import opened Store
  import opened Http
  import opened SubdatasetCrud

  const SubdatasetNotFound := "Subdataset not found"
  const EpisodeNotFound := "Raw episode not found"

  /** A stored subdataset validates against the `Subdataset` response model,
      whose `name` is a required string; the column itself is nullable. The
      embedded raw episodes have only optional fields. */
  predicate SubdatasetResponds(s: Subdataset) {
    s.name.Some?
  }

  /** `GET /subdatasets/{id}`: 404 for a missing subdataset, 500 for one
      without a name. */
  function ReadSubdataset(db: SubdatasetDb, id: int): (r: Result<Subdataset, HttpError>)
    ensures r == Err(NotFound(SubdatasetNotFound)) <==> id !in db.subdatasets.rows
    ensures r == Err(InvalidResponse) <==> id in db.subdatasets.rows && !SubdatasetResponds(db.subdatasets.rows[id])
    ensures r.Ok? ==> r.value == db.subdatasets.rows[id] && SubdatasetResponds(r.value)
  {
    match GetSubdataset(db, id)
    case None => Err(NotFound(SubdatasetNotFound))
    case Some(s) => if SubdatasetResponds(s) then Ok(s) else Err(InvalidResponse)
  }

  /** `PUT /subdatasets/{id}`: committed before validation, so a nulled name
      is stored and the call answers 500. */
  function UpdateSubdatasetEndpoint(db: SubdatasetDb, id: int, u: SubdatasetUpdate)
    : (r: (SubdatasetDb, Result<Subdataset, HttpError>))
    ensures r.1 == Err(NotFound(SubdatasetNotFound)) <==> id !in db.subdatasets.rows
    ensures id !in db.subdatasets.rows ==> r.0 == db
    ensures id in db.subdatasets.rows ==>
      && r.0.subdatasets.rows == db.subdatasets.rows[id := ApplySubdatasetUpdate(db.subdatasets.rows[id], u)]
      && r.0.episodes == db.episodes
    ensures r.1 == Err(InvalidResponse) <==>
      id in db.subdatasets.rows && !SubdatasetResponds(ApplySubdatasetUpdate(db.subdatasets.rows[id], u))
    ensures r.1.Ok? ==> r.1.value == ApplySubdatasetUpdate(db.subdatasets.rows[id], u) && SubdatasetResponds(r.1.value)
  {
    if GetSubdataset(db, id).None? then (db, Err(NotFound(SubdatasetNotFound)))
    else
      var (db', s) := UpdateSubdataset(db, id, u);
      if SubdatasetResponds(s.value) then (db', Ok(s.value)) else (db', Err(InvalidResponse))
  }

  /** Nulling a subdataset's name through `PUT` is stored even though the
      call answers 500, and from then on every `GET` of it answers 500. */
  lemma NulledNameStoredThen500(db: SubdatasetDb, id: int)
    requires id in db.subdatasets.rows
    ensures var (db', r) := UpdateSubdatasetEndpoint(db, id, SubdatasetUpdate(Set(None), Unset, Unset, Unset, Unset));
      && r == Err(InvalidResponse)
      && db'.subdatasets.rows[id].name.None?
      && ReadSubdataset(db', id) == Err(InvalidResponse)
  {
  }

  /** `DELETE /subdatasets/{id}`: 404 when missing, otherwise the CRUD result (true). */
  function DeleteSubdatasetEndpoint(db: SubdatasetDb, id: int): (r: (SubdatasetDb, Result<bool, HttpError>))
    ensures r.1.Err? <==> id !in db.subdatasets.rows
    ensures r.1.Err? ==> r.1.error == NotFound(SubdatasetNotFound) && r.0 == db
    ensures r.1.Ok? ==> r.1.value && id !in r.0.subdatasets.rows
  {
    if GetSubdataset(db, id).None? then (db, Err(NotFound(SubdatasetNotFound)))
    else
      var (db', ok) := DeleteSubdataset(db, id);
      (db', Ok(ok))
  }

  /** `POST /subdatasets/{id}/episodes/`: the new episode is owned by the path subdataset. */
  function CreateEpisodeEndpoint(db: SubdatasetDb, subdatasetId: int, f: EpisodeFields)
    : (r: (SubdatasetDb, Result<Row<RawEpisode>, HttpError>))
    ensures r.1.Err? <==> subdatasetId !in db.subdatasets.rows
    ensures r.1.Err? ==> r.1.error == NotFound(SubdatasetNotFound) && r.0 == db
    ensures r.1.Ok? ==>
      && r.1.value.rec == RawEpisode(subdatasetId, f)
      && r.0.episodes.rows == db.episodes.rows[r.1.value.id := r.1.value.rec]
      && r.0.subdatasets == db.subdatasets
  {
    if GetSubdataset(db, subdatasetId).None? then (db, Err(NotFound(SubdatasetNotFound)))
    else
      var (db', id) := CreateEpisode(db, subdatasetId, f);
      (db', Ok(Row(id, RawEpisode(subdatasetId, f))))
  }

  /** `GET /subdatasets/{id}/episodes/`. */
  function ListEpisodesEndpoint(
    db: SubdatasetDb, order: seq<int>, subdatasetId: int, skip: nat, limit: nat, episodeLabel: Option<string>)
    : (r: Result<seq<Row<RawEpisode>>, HttpError>)
    ensures r.Err? <==> subdatasetId !in db.subdatasets.rows
    ensures r.Err? ==> r.error == NotFound(SubdatasetNotFound)
    ensures r.Ok? ==> |r.value| <= limit
    ensures r.Ok? ==> forall i | 0 <= i < |r.value| ::
      r.value[i].rec.subdatasetId == subdatasetId && LabelMatches(r.value[i].rec, episodeLabel)
    ensures r.Ok? ==> IsPage(r.value, db.episodes.rows, order, OwnedLabelFilter(subdatasetId, episodeLabel), skip, limit)
  {
    if GetSubdataset(db, subdatasetId).None? then Err(NotFound(SubdatasetNotFound))
    else Ok(GetEpisodes(db, order, subdatasetId, skip, limit, episodeLabel))
  }

  /** The shared guard of the three single-episode routes. */
  function OwnedEpisode(db: SubdatasetDb, subdatasetId: int, episodeId: int): (r: Result<RawEpisode, HttpError>)
    ensures r.Ok? <==>
      subdatasetId in db.subdatasets.rows && episodeId in db.episodes.rows
      && db.episodes.rows[episodeId].subdatasetId == subdatasetId
    ensures subdatasetId !in db.subdatasets.rows ==> r == Err(NotFound(SubdatasetNotFound))
    ensures subdatasetId in db.subdatasets.rows && r.Err? ==> r == Err(NotFound(EpisodeNotFound))
    ensures r.Ok? ==> r.value == db.episodes.rows[episodeId]
  {
    if GetSubdataset(db, subdatasetId).None? then Err(NotFound(SubdatasetNotFound))
    else match GetEpisode(db, episodeId)
      case None => Err(NotFound(EpisodeNotFound))
      case Some(e) => if e.subdatasetId != subdatasetId then Err(NotFound(EpisodeNotFound)) else Ok(e)
  }

  /** `GET /subdatasets/{id}/episodes/{episode_id}`. */
  function ReadEpisodeEndpoint(db: SubdatasetDb, subdatasetId: int, episodeId: int): (r: Result<RawEpisode, HttpError>)
    ensures r.Ok? ==> r.value.subdatasetId == subdatasetId && episodeId in db.episodes.rows && r.value == db.episodes.rows[episodeId]
    ensures r.Err? <==> OwnedEpisode(db, subdatasetId, episodeId).Err?
  {
    OwnedEpisode(db, subdatasetId, episodeId)
  }

  /** `PUT /subdatasets/{id}/episodes/{episode_id}`: nothing changes unless the guard passes. */
  function UpdateEpisodeEndpoint(db: SubdatasetDb, subdatasetId: int, episodeId: int, u: EpisodeUpdate)
    : (r: (SubdatasetDb, Result<RawEpisode, HttpError>))
    ensures r.1.Err? <==> OwnedEpisode(db, subdatasetId, episodeId).Err?
    ensures r.1.Err? ==> r.0 == db && r.1.error == OwnedEpisode(db, subdatasetId, episodeId).error
    ensures r.1.Ok? ==>
      && r.1.value == ApplyEpisodeUpdate(db.episodes.rows[episodeId], u)
      && r.1.value.subdatasetId == subdatasetId
      && r.0.episodes.rows == db.episodes.rows[episodeId := r.1.value]
  {
    match OwnedEpisode(db, subdatasetId, episodeId)
    case Err(e) => (db, Err(e))
    case Ok(_) =>
      var (db', e') := UpdateEpisode(db, episodeId, u);
      (db', Ok(e'.value))
  }

  /** `DELETE /subdatasets/{id}/episodes/{episode_id}`. */
  function DeleteEpisodeEndpoint(db: SubdatasetDb, subdatasetId: int, episodeId: int)
    : (r: (SubdatasetDb, Result<bool, HttpError>))
    ensures r.1.Err? <==> OwnedEpisode(db, subdatasetId, episodeId).Err?
    ensures r.1.Err? ==> r.0 == db && r.1.error == OwnedEpisode(db, subdatasetId, episodeId).error
    ensures r.1.Ok? ==> r.1.value && r.0.episodes.rows == db.episodes.rows - {episodeId}
  {
    match OwnedEpisode(db, subdatasetId, episodeId)
    case Err(e) => (db, Err(e))
    case Ok(_) =>
      var (db', ok) := DeleteEpisode(db, episodeId);
      (db', Ok(ok))
  }

  /** An episode of another subdataset cannot be read, changed or deleted
      through this subdataset's routes. */
  lemma ForeignEpisodeUntouchable(db: SubdatasetDb, subdatasetId: int, episodeId: int, u: EpisodeUpdate)
    requires episodeId in db.episodes.rows && db.episodes.rows[episodeId].subdatasetId != subdatasetId
    ensures ReadEpisodeEndpoint(db, subdatasetId, episodeId).Err?
    ensures UpdateEpisodeEndpoint(db, subdatasetId, episodeId, u).0 == db
    ensures DeleteEpisodeEndpoint(db, subdatasetId, episodeId).0 == db
    ensures ReadEpisodeEndpoint(db, subdatasetId, episodeId).error.status == 404
  {
  }

  /** Every raw episode belongs to a subdataset that exists. */
  predicate OwnersExist(db: SubdatasetDb) {
    forall k | k in db.episodes.rows :: db.episodes.rows[k].subdatasetId in db.subdatasets.rows
  }

  /** The nested routes never leave an episode without its subdataset. */
  lemma EndpointsKeepOwners(db: SubdatasetDb, sid: int, eid: int, u: SubdatasetUpdate, f: EpisodeFields, eu: EpisodeUpdate)
    requires OwnersExist(db)
    ensures OwnersExist(UpdateSubdatasetEndpoint(db, sid, u).0)
    ensures OwnersExist(DeleteSubdatasetEndpoint(db, sid).0)
    ensures OwnersExist(CreateEpisodeEndpoint(db, sid, f).0)
    ensures OwnersExist(UpdateEpisodeEndpoint(db, sid, eid, eu).0)
    ensures OwnersExist(DeleteEpisodeEndpoint(db, sid, eid).0)
  {
    var d1 := DeleteSubdatasetEndpoint(db, sid).0;
    if sid in db.subdatasets.rows {
      forall k | k in d1.episodes.rows ensures d1.episodes.rows[k].subdatasetId in d1.subdatasets.rows {
        assert k in db.episodes.rows;
        assert db.episodes.rows[k].subdatasetId != sid;
      }
    }
    var d2 := UpdateEpisodeEndpoint(db, sid, eid, eu).0;
    if OwnedEpisode(db, sid, eid).Ok? {
      forall k | k in d2.episodes.rows ensures d2.episodes.rows[k].subdatasetId in d2.subdatasets.rows {
        assert d2.episodes.rows[k].subdatasetId == db.episodes.rows[k].subdatasetId;
      }
    }
  }
}

=== FILE: subdataset_crud.dfy ===
/** Subdatasets and their raw episodes in the database
    (backend/app/crud/subdataset.py). A raw episode belongs to a subdataset
    through `subdatasetId`; deleting a subdataset deletes its raw episodes. */
module SubdatasetCrud {
  import opened Wrappers
  import opened Store

  /** A stored subdataset. */
  datatype Subdataset = Subdataset(
    name: Option<string>, description: Option<string>, notes: Option<string>,
    embodimentId: Option<int>, teleopModeId: Option<int>)

  /** The create body. */
  datatype SubdatasetCreate = SubdatasetCreate(
    name: string, description: Option<string>, notes: Option<string>,
    embodimentId: Option<int>, teleopModeId: Option<int>)

  /** The update body: only explicitly sent fields are applied. */
  datatype SubdatasetUpdate = SubdatasetUpdate(
    name: Patch<Option<string>>, description: Patch<Option<string>>, notes: Patch<Option<string>>,
    embodimentId: Patch<Option<int>>, teleopModeId: Patch<Option<int>>)

  /** The client-settable fields of a raw episode; `recordedAt` is kept as its text form. */
  datatype EpisodeFields = EpisodeFields(
    operator: Option<string>, url: Option<string>, episodeLabel: Option<string>,
    repository: Option<string>, gitCommit: Option<string>, recordedAt: Option<string>)

  /** A stored raw episode: its owner plus the settable fields. */
  datatype RawEpisode = RawEpisode(subdatasetId: int, fields: EpisodeFields)

  /** The raw episode update body. It has no `subdatasetId`, so ownership never changes. */
  datatype EpisodeUpdate = EpisodeUpdate(
    operator: Patch<Option<string>>, url: Patch<Option<string>>, episodeLabel: Patch<Option<string>>,
    repository: Patch<Option<string>>, gitCommit: Patch<Option<string>>, recordedAt: Patch<Option<string>>)

  /** The two tables. */
  datatype SubdatasetDb = SubdatasetDb(subdatasets: Table<Subdataset>, episodes: Table<RawEpisode>)

  /** Both key sequences are consistent. */
  predicate ValidDb(db: SubdatasetDb) {
    Valid(db.subdatasets) && Valid(db.episodes)
  }

  /** The record `create_subdataset` stores. */
  function NewSubdataset(c: SubdatasetCreate): (s: Subdataset)
    ensures s.name == Some(c.name) && s.description == c.description && s.notes == c.notes
    ensures s.embodimentId == c.embodimentId && s.teleopModeId == c.teleopModeId
  {
    Subdataset(Some(c.name), c.description, c.notes, c.embodimentId, c.teleopModeId)
  }

  /** `create_subdataset`. */
  function CreateSubdataset(db: SubdatasetDb, c: SubdatasetCreate): (r: (SubdatasetDb, int))
    ensures r.0.subdatasets.rows == db.subdatasets.rows[r.1 := NewSubdataset(c)]
    ensures r.0.episodes == db.episodes
    ensures ValidDb(db) ==> ValidDb(r.0) && r.1 !in db.subdatasets.rows
  {
    var (t, id) := Insert(db.subdatasets, NewSubdataset(c));
    (db.(subdatasets := t), id)
  }

  /** `get_subdataset`. */
  function GetSubdataset(db: SubdatasetDb, id: int): (r: Option<Subdataset>)
    ensures r.Some? <==> id in db.subdatasets.rows
    ensures r.Some? ==> r.value == db.subdatasets.rows[id]
  {
    Get(db.subdatasets, id)
  }

  /** The equality filters of `get_subdatasets`. */
  predicate SubdatasetMatches(s: Subdataset, embodimentId: Option<int>, teleopModeId: Option<int>) {
    && (embodimentId.Some? ==> s.embodimentId == Some(embodimentId.value))
    && (teleopModeId.Some? ==> s.teleopModeId == Some(teleopModeId.value))
  }

  /** The `get_subdatasets` filters as a query predicate. */
  function SubdatasetFilter(embodimentId: Option<int>, teleopModeId: Option<int>): Subdataset -> bool {
    (s: Subdataset) => SubdatasetMatches(s, embodimentId, teleopModeId)
  }

  /** `get_subdatasets`. */
  function GetSubdatasets(
    db: SubdatasetDb, order: seq<int>, skip: nat, limit: nat, embodimentId: Option<int>, teleopModeId: Option<int>)
    : (r: seq<Row<Subdataset>>)
    ensures |r| <= limit
    ensures forall i | 0 <= i < |r| ::
      && r[i].id in db.subdatasets.rows && db.subdatasets.rows[r[i].id] == r[i].rec
      && SubdatasetMatches(r[i].rec, embodimentId, teleopModeId)
    ensures IsPage(r, db.subdatasets.rows, order, SubdatasetFilter(embodimentId, teleopModeId), skip, limit)
  {
    List(db.subdatasets, order, SubdatasetFilter(embodimentId, teleopModeId), skip, limit)
  }

  /** The subdataset after applying the explicitly set fields of `u`. */
  function ApplySubdatasetUpdate(s: Subdataset, u: SubdatasetUpdate): (r: Subdataset)
    ensures u.name.Unset? ==> r.name == s.name
    ensures u.name.Set? ==> r.name == u.name.value
    ensures u.description.Unset? ==> r.description == s.description
    ensures u.description.Set? ==> r.description == u.description.value
    ensures u.notes.Unset? ==> r.notes == s.notes
    ensures u.notes.Set? ==> r.notes == u.notes.value
    ensures u.embodimentId.Unset? ==> r.embodimentId == s.embodimentId
    ensures u.embodimentId.Set? ==> r.embodimentId == u.embodimentId.value
    ensures u.teleopModeId.Unset? ==> r.teleopModeId == s.teleopModeId
    ensures u.teleopModeId.Set? ==> r.teleopModeId == u.teleopModeId.value
  {
    Subdataset(u.name.Over(s.name), u.description.Over(s.description), u.notes.Over(s.notes),
      u.embodimentId.Over(s.embodimentId), u.teleopModeId.Over(s.teleopModeId))
  }

  /** `update_subdataset`. */
  function UpdateSubdataset(db: SubdatasetDb, id: int, u: SubdatasetUpdate): (r: (SubdatasetDb, Option<Subdataset>))
    ensures r.1.None? <==> id !in db.subdatasets.rows
    ensures r.1.None? ==> r.0 == db
    ensures r.1.Some? ==>
      && r.1.value == ApplySubdatasetUpdate(db.subdatasets.rows[id], u)
      && r.0.subdatasets.rows == db.subdatasets.rows[id := r.1.value]
      && r.0.subdatasets.nextId == db.subdatasets.nextId
      && r.0.episodes == db.episodes
  {
    match Get(db.subdatasets, id)
    case None => (db, None)
    case Some(s) =>
      var s' := ApplySubdatasetUpdate(s, u);
      (db.(subdatasets := Replace(db.subdatasets, id, s')), Some(s'))
  }

  /** `delete_subdataset`: the subdataset and all of its raw episodes go. */
  function DeleteSubdataset(db: SubdatasetDb, id: int): (r: (SubdatasetDb, bool))
    ensures r.1 <==> id in db.subdatasets.rows
    ensures !r.1 ==> r.0 == db
    ensures r.1 ==>
      && r.0.subdatasets.rows == db.subdatasets.rows - {id}
      && r.0.episodes.rows.Keys == set k | k in db.episodes.rows && db.episodes.rows[k].subdatasetId != id
      && (forall k | k in r.0.episodes.rows :: k in db.episodes.rows && r.0.episodes.rows[k] == db.episodes.rows[k])
    ensures ValidDb(db) ==> ValidDb(r.0)
  {
    var (t, found) := Remove(db.subdatasets, id);
    if !found then (db, false)
    else (SubdatasetDb(t, RemoveWhere(db.episodes, (e: RawEpisode) => e.subdatasetId == id)), true)
  }

  /** `create_raw_episode`: the episode is owned by the given subdataset. */
  function CreateEpisode(db: SubdatasetDb, subdatasetId: int, f: EpisodeFields): (r: (SubdatasetDb, int))
    ensures r.0.episodes.rows == db.episodes.rows[r.1 := RawEpisode(subdatasetId, f)]
    ensures r.0.subdatasets == db.subdatasets
    ensures ValidDb(db) ==> ValidDb(r.0) && r.1 !in db.episodes.rows
  {
    var (t, id) := Insert(db.episodes, RawEpisode(subdatasetId, f));
    (db.(episodes := t), id)
  }

  /** `get_raw_episode`: by id alone, whatever its owner. */
  function GetEpisode(db: SubdatasetDb, id: int): (r: Option<RawEpisode>)
    ensures r.Some? <==> id in db.episodes.rows
    ensures r.Some? ==> r.value == db.episodes.rows[id]
  {
    Get(db.episodes, id)
  }

  /** The optional label filter; a null label never equals a given one. */
  predicate LabelMatches(e: RawEpisode, episodeLabel: Option<string>) {
    episodeLabel.Some? ==> e.fields.episodeLabel == Some(episodeLabel.value)
  }

  /** The `get_raw_episodes` filters as a query predicate. */
  function OwnedLabelFilter(subdatasetId: int, episodeLabel: Option<string>): RawEpisode -> bool {
    (e: RawEpisode) => e.subdatasetId == subdatasetId && LabelMatches(e, episodeLabel)
  }

  /** The `get_all_raw_episodes` filter as a query predicate. */
  function LabelFilter(episodeLabel: Option<string>): RawEpisode -> bool {
    (e: RawEpisode) => LabelMatches(e, episodeLabel)
  }

  /** `get_raw_episodes`: one subdataset's episodes, label-filtered when asked. */
  function GetEpisodes(db: SubdatasetDb, order: seq<int>, subdatasetId: int, skip: nat, limit: nat, episodeLabel: Option<string>)
    : (r: seq<Row<RawEpisode>>)
    ensures |r| <= limit
    ensures forall i | 0 <= i < |r| ::
      && r[i].id in db.episodes.rows && db.episodes.rows[r[i].id] == r[i].rec
      && r[i].rec.subdatasetId == subdatasetId && LabelMatches(r[i].rec, episodeLabel)
    ensures IsPage(r, db.episodes.rows, order, OwnedLabelFilter(subdatasetId, episodeLabel), skip, limit)
  {
    List(db.episodes, order, OwnedLabelFilter(subdatasetId, episodeLabel), skip, limit)
  }

  /** `get_all_raw_episodes`: episodes of every subdataset, label-filtered when asked. */
  function GetAllEpisodes(db: SubdatasetDb, order: seq<int>, skip: nat, limit: nat, episodeLabel: Option<string>)
    : (r: seq<Row<RawEpisode>>)
    ensures |r| <= limit
    ensures forall i | 0 <= i < |r| ::
      r[i].id in db.episodes.rows && db.episodes.rows[r[i].id] == r[i].rec && LabelMatches(r[i].rec, episodeLabel)
    ensures IsPage(r, db.episodes.rows, order, LabelFilter(episodeLabel), skip, limit)
  {
    List(db.episodes, order, LabelFilter(episodeLabel), skip, limit)
  }

  /** The episode after applying the explicitly set fields of `u`. */
  function ApplyEpisodeUpdate(e: RawEpisode, u: EpisodeUpdate): (r: RawEpisode)
    ensures r.subdatasetId == e.subdatasetId
    ensures u.operator.Unset? ==> r.fields.operator == e.fields.operator
    ensures u.operator.Set? ==> r.fields.operator == u.operator.value
    ensures u.url.Unset? ==> r.fields.url == e.fields.url
    ensures u.url.Set? ==> r.fields.url == u.url.value
    ensures u.episodeLabel.Unset? ==> r.fields.episodeLabel == e.fields.episodeLabel
    ensures u.episodeLabel.Set? ==> r.fields.episodeLabel == u.episodeLabel.value
    ensures u.repository.Unset? ==> r.fields.repository == e.fields.repository
    ensures u.repository.Set? ==> r.fields.repository == u.repository.value
    ensures u.gitCommit.Unset? ==> r.fields.gitCommit == e.fields.gitCommit
    ensures u.gitCommit.Set? ==> r.fields.gitCommit == u.gitCommit.value
    ensures u.recordedAt.Unset? ==> r.fields.recordedAt == e.fields.recordedAt
    ensures u.recordedAt.Set? ==> r.fields.recordedAt == u.recordedAt.value
  {
    var f := e.fields;
    RawEpisode(e.subdatasetId, EpisodeFields(
      u.operator.Over(f.operator), u.url.Over(f.url), u.episodeLabel.Over(f.episodeLabel),
      u.repository.Over(f.repository), u.gitCommit.Over(f.gitCommit), u.recordedAt.Over(f.recordedAt)))
  }

  /** `update_raw_episode`. */
  function UpdateEpisode(db: SubdatasetDb, id: int, u: EpisodeUpdate): (r: (SubdatasetDb, Option<RawEpisode>))
    ensures r.1.None? <==> id !in db.episodes.rows
    ensures r.1.None? ==> r.0 == db
    ensures r.1.Some? ==>
      && r.1.value == ApplyEpisodeUpdate(db.episodes.rows[id], u)
      && r.0.episodes.rows == db.episodes.rows[id := r.1.value]
      && r.0.episodes.nextId == db.episodes.nextId
      && r.0.subdatasets == db.subdatasets
  {
    match Get(db.episodes, id)
    case None => (db, None)
    case Some(e) =>
      var e' := ApplyEpisodeUpdate(e, u);
      (db.(episodes := Replace(db.episodes, id, e')), Some(e'))
  }

  /** `delete_raw_episode`. */
  function DeleteEpisode(db: SubdatasetDb, id: int): (r: (SubdatasetDb, bool))
    ensures r.1 <==> id in db.episodes.rows
    ensures !r.1 ==> r.0 == db
    ensures r.0.episodes.rows == db.episodes.rows - {id} && r.0.subdatasets == db.subdatasets
    ensures ValidDb(db) ==> ValidDb(r.0)
  {
    var (t, found) := Remove(db.episodes, id);
    (db.(episodes := t), found)
  }

  /** No update moves an episode to another subdataset, and every episode of
      a subdataset keeps belonging to it. */
  lemma UpdateKeepsOwner(db: SubdatasetDb, id: int, u: EpisodeUpdate, k: int)
    requires k in db.episodes.rows
    ensures var db' := UpdateEpisode(db, id, u).0;
      k in db'.episodes.rows && db'.episodes.rows[k].subdatasetId == db.episodes.rows[k].subdatasetId
  {
  }

  /** Restricting the subdataset listing to one owner is the all-episodes
      listing narrowed to that owner, before pagination. */
  lemma {:induction false} OwnerQueryNarrows(rows: map<int, RawEpisode>, order: seq<int>, subdatasetId: int, episodeLabel: Option<string>)
    ensures Query(rows, order, OwnedLabelFilter(subdatasetId, episodeLabel))
         == OwnedRows(Query(rows, order, LabelFilter(episodeLabel)), subdatasetId)
  {
    if |order| > 0 {
      OwnerQueryNarrows(rows, order[1..], subdatasetId, episodeLabel);
    }
  }

  /** The rows of a listing that belong to one subdataset, in order. */
  function OwnedRows(rs: seq<Row<RawEpisode>>, subdatasetId: int): (r: seq<Row<RawEpisode>>)
    ensures |r| <= |rs|
    ensures forall i | 0 <= i < |r| :: r[i] in rs && r[i].rec.subdatasetId == subdatasetId
    ensures forall i | 0 <= i < |rs| && rs[i].rec.subdatasetId == subdatasetId :: rs[i] in r
  {
    if |rs| == 0 then []
    else if rs[0].rec.subdatasetId == subdatasetId then [rs[0]] + OwnedRows(rs[1..], subdatasetId)
    else OwnedRows(rs[1..], subdatasetId)
  }
}

=== FILE: task_api.dfy ===
/** The task and variant endpoints (backend/app/api/v1/endpoints/tasks.py):
    the CRUD layer plus 404 mapping and the task-existence guard on the
    nested variant routes. Every failing call leaves the database as it was. */
module TaskApi {
  import opened Wrappers
  import opened Store
  import opened Http
  import opened TaskCrud

  const TaskNotFound := "Task not found"
  const VariantNotFound := "Task variant not found"

  /** A stored variant validates against the `TaskVariant` response model,
      whose `name` is a required string; the column itself is nullable. */
  predicate VariantResponds(v: TaskVariant) {
    v.name.Some?
  }

  /** A stored task validates against the `Task` response model: name,
      status and external flag are required, and so is every variant's
      name, since the response embeds the task's variants. */
  predicate TaskResponds(db: TaskDb, id: int) {
    && id in db.tasks.rows
    && db.tasks.rows[id].name.Some? && db.tasks.rows[id].status.Some? && db.tasks.rows[id].isExternal.Some?
    && forall k | k in db.variants.rows && db.variants.rows[k].taskId == id :: VariantResponds(db.variants.rows[k])
  }

  /** `POST /tasks/`: no guard. */
  function CreateTaskEndpoint(db: TaskDb, c: TaskCreate): (r: (TaskDb, Row<Task>))
    ensures r.0 == CreateTask(db, c).0
    ensures r.1 == Row(CreateTask(db, c).1, NewTask(c))
    ensures r.1.id in r.0.tasks.rows && r.0.tasks.rows[r.1.id] == r.1.rec
  {
    var (db', id) := CreateTask(db, c);
    (db', Row(id, NewTask(c)))
  }

  /** `GET /tasks/{task_id}`: 404 for a missing task, 500 for a stored task
      the response model refuses. */
  function ReadTask(db: TaskDb, id: int): (r: Result<Task, HttpError>)
    ensures r == Err(NotFound(TaskNotFound)) <==> id !in db.tasks.rows
    ensures r == Err(InvalidResponse) <==> id in db.tasks.rows && !TaskResponds(db, id)
    ensures r.Ok? <==> TaskResponds(db, id)
    ensures r.Ok? ==> r.value == db.tasks.rows[id]
  {
    match GetTask(db, id)
    case None => Err(NotFound(TaskNotFound))
    case Some(t) => if TaskResponds(db, id) then Ok(t) else Err(InvalidResponse)
  }

  /** `PUT /tasks/{task_id}`: the update is committed before the response is
      validated, so a task left without a name, status or external flag is
      stored and the call still answers 500. */
  function UpdateTaskEndpoint(db: TaskDb, id: int, u: TaskUpdate): (r: (TaskDb, Result<Task, HttpError>))
    ensures r.1 == Err(NotFound(TaskNotFound)) <==> id !in db.tasks.rows
    ensures id !in db.tasks.rows ==> r.0 == db
    ensures id in db.tasks.rows ==>
      && r.0.tasks.rows == db.tasks.rows[id := ApplyTaskUpdate(db.tasks.rows[id], u)]
      && r.0.variants == db.variants
    ensures r.1 == Err(InvalidResponse) <==> id in db.tasks.rows && !TaskResponds(r.0, id)
    ensures r.1.Ok? ==> r.1.value == ApplyTaskUpdate(db.tasks.rows[id], u) && TaskResponds(r.0, id)
  {
    var (db', t) := UpdateTask(db, id, u);
    match t
    case None => (db', Err(NotFound(TaskNotFound)))
    case Some(v) => if TaskResponds(db', id) then (db', Ok(v)) else (db', Err(InvalidResponse))
  }

  /** `DELETE /tasks/{task_id}`. */
  function DeleteTaskEndpoint(db: TaskDb, id: int): (r: (TaskDb, Result<string, HttpError>))
    ensures r.1.Err? <==> id !in db.tasks.rows
    ensures r.1.Err? ==> r.1.error == NotFound(TaskNotFound) && r.0 == db
    ensures r.1.Ok? ==> r.1.value == "Task deleted successfully" && id !in r.0.tasks.rows
  {
    var (db', ok) := DeleteTask(db, id);
    if ok then (db', Ok("Task deleted successfully")) else (db', Err(NotFound(TaskNotFound)))
  }

  /** `POST /tasks/{task_id}/variants/`: 404, and nothing created, for a missing task. */
  function CreateVariantEndpoint(db: TaskDb, taskId: int, c: TaskVariantCreate): (r: (TaskDb, Result<Row<TaskVariant>, HttpError>))
    ensures r.1.Err? <==> taskId !in db.tasks.rows
    ensures r.1.Err? ==> r.1.error == NotFound(TaskNotFound) && r.0 == db
    ensures r.1.Ok? ==>
      && r.1.value.rec == NewVariant(taskId, c)
      && r.0.variants.rows == db.variants.rows[r.1.value.id := r.1.value.rec]
      && r.0.tasks == db.tasks
  {
    if GetTask(db, taskId).None? then (db, Err(NotFound(TaskNotFound)))
    else
      var (db', id) := CreateVariant(db, taskId, c);
      (db', Ok(Row(id, NewVariant(taskId, c))))
  }

  /** `GET /tasks/{task_id}/variants/`: 404 for a missing task, 500 when a
      variant on the page has no name, otherwise the page. */
  function ListVariantsEndpoint(db: TaskDb, order: seq<int>, taskId: int, skip: nat, limit: nat)
    : (r: Result<seq<Row<TaskVariant>>, HttpError>)
    ensures r == Err(NotFound(TaskNotFound)) <==> taskId !in db.tasks.rows
    ensures var page := GetVariants(db, order, taskId, skip, limit);
      r == Err(InvalidResponse) <==>
        taskId in db.tasks.rows && exists i | 0 <= i < |page| :: !VariantResponds(page[i].rec)
    ensures r.Ok? ==>
      && |r.value| <= limit
      && IsPage(r.value, db.variants.rows, order, OwnedBy(taskId), skip, limit)
      && forall i | 0 <= i < |r.value| :: r.value[i].rec.taskId == taskId && VariantResponds(r.value[i].rec)
  {
    if GetTask(db, taskId).None? then Err(NotFound(TaskNotFound))
    else
      var page := GetVariants(db, order, taskId, skip, limit);
      if forall i | 0 <= i < |page| :: VariantResponds(page[i].rec) then Ok(page) else Err(InvalidResponse)
  }

  /** `GET /tasks/variants/{variant_id}`: 404 for a missing variant, 500 for
      one without a name. */
  function ReadVariant(db: TaskDb, id: int): (r: Result<TaskVariant, HttpError>)
    ensures r == Err(NotFound(VariantNotFound)) <==> id !in db.variants.rows
    ensures r == Err(InvalidResponse) <==> id in db.variants.rows && !VariantResponds(db.variants.rows[id])
    ensures r.Ok? ==> r.value == db.variants.rows[id] && VariantResponds(r.value)
  {
    match GetVariant(db, id)
    case None => Err(NotFound(VariantNotFound))
    case Some(v) => if VariantResponds(v) then Ok(v) else Err(InvalidResponse)
  }

  /** `PUT /tasks/variants/{variant_id}`: committed before validation, so a
      nulled name is stored and the call answers 500. */
  function UpdateVariantEndpoint(db: TaskDb, id: int, u: TaskVariantUpdate): (r: (TaskDb, Result<TaskVariant, HttpError>))
    ensures r.1 == Err(NotFound(VariantNotFound)) <==> id !in db.variants.rows
    ensures id !in db.variants.rows ==> r.0 == db
    ensures id in db.variants.rows ==>
      && r.0.variants.rows == db.variants.rows[id := ApplyVariantUpdate(db.variants.rows[id], u)]
      && r.0.tasks == db.tasks
    ensures r.1 == Err(InvalidResponse) <==>
      id in db.variants.rows && !VariantResponds(ApplyVariantUpdate(db.variants.rows[id], u))
    ensures r.1.Ok? ==> r.1.value == ApplyVariantUpdate(db.variants.rows[id], u) && VariantResponds(r.1.value)
  {
    var (db', v) := UpdateVariant(db, id, u);
    match v
    case None => (db', Err(NotFound(VariantNotFound)))
    case Some(x) => if VariantResponds(x) then (db', Ok(x)) else (db', Err(InvalidResponse))
  }

  /** `DELETE /tasks/variants/{variant_id}`. */
  function DeleteVariantEndpoint(db: TaskDb, id: int): (r: (TaskDb, Result<string, HttpError>))
    ensures r.1.Err? <==> id !in db.variants.rows
    ensures r.1.Err? ==> r.1.error == NotFound(VariantNotFound) && r.0 == db
    ensures r.1.Ok? ==> r.1.value == "Task variant deleted successfully" && id !in r.0.variants.rows
  {
    var (db', ok) := DeleteVariant(db, id);
    if ok then (db', Ok("Task variant deleted successfully")) else (db', Err(NotFound(VariantNotFound)))
  }

  /** Every variant belongs to a task that exists. */
  predicate OwnersExist(db: TaskDb) {
    forall k | k in db.variants.rows :: db.variants.rows[k].taskId in db.tasks.rows
  }

  /** A task created through the endpoint reads back as created: its name,
      status and external flag are set, and no existing variant can claim
      the fresh id while every variant's task exists. */
  lemma CreatedTaskReads(db: TaskDb, c: TaskCreate)
    requires ValidDb(db) && OwnersExist(db)
    ensures var (db', row) := CreateTaskEndpoint(db, c);
      ReadTask(db', row.id) == Ok(NewTask(c))
  {
  }

  /** A freshly created task has no variants to list: `create_task` adds
      none, and no existing variant can point at the fresh id while every
      variant's task exists. */
  lemma CreatedTaskHasNoVariants(db: TaskDb, c: TaskCreate, order: seq<int>, skip: nat, limit: nat)
    requires ValidDb(db) && OwnersExist(db)
    ensures var (db', row) := CreateTaskEndpoint(db, c);
      ListVariantsEndpoint(db', order, row.id, skip, limit) == Ok([])
  {
    var (db', row) := CreateTaskEndpoint(db, c);
    assert forall k | k in db'.variants.rows :: !OwnedBy(row.id)(db'.variants.rows[k]);
    QueryNoMatch(db'.variants.rows, order, OwnedBy(row.id));
  }

  /** Nulling a task's name through `PUT` is stored even though the call
      answers 500, and from then on every `GET` of that task answers 500. */
  lemma NulledNameStoredThen500(db: TaskDb, id: int)
    requires id in db.tasks.rows
    ensures var (db', r) := UpdateTaskEndpoint(db, id, TaskUpdate(Set(None), Unset, Unset, Unset));
      && r == Err(InvalidResponse)
      && db'.tasks.rows[id].name.None?
      && ReadTask(db', id) == Err(InvalidResponse)
  {
  }

  /** Through the endpoints no variant is ever left without its task: the
      variant create is guarded, task deletion cascades, and updates cannot
      change a variant's task. */
  lemma EndpointsKeepOwners(db: TaskDb, c: TaskCreate, u: TaskUpdate, vc: TaskVariantCreate, vu: TaskVariantUpdate, id: int)
    requires OwnersExist(db) && ValidDb(db)
    ensures OwnersExist(CreateTaskEndpoint(db, c).0)
    ensures OwnersExist(UpdateTaskEndpoint(db, id, u).0)
    ensures OwnersExist(DeleteTaskEndpoint(db, id).0)
    ensures OwnersExist(CreateVariantEndpoint(db, id, vc).0)
    ensures OwnersExist(UpdateVariantEndpoint(db, id, vu).0)
    ensures OwnersExist(DeleteVariantEndpoint(db, id).0)
  {
    var d1 := DeleteTaskEndpoint(db, id).0;
    if id in db.tasks.rows {
      forall k | k in d1.variants.rows ensures d1.variants.rows[k].taskId in d1.tasks.rows {
        assert k in db.variants.rows;
        assert db.variants.rows[k].taskId != id;
      }
    }
    var d2 := UpdateVariantEndpoint(db, id, vu).0;
    if id in db.variants.rows {
      forall k | k in d2.variants.rows ensures d2.variants.rows[k].taskId in d2.tasks.rows {
        assert d2.variants.rows[k].taskId == db.variants.rows[k].taskId;
      }
    }
  }
}

=== FILE: task_create.dfy ===
/** The task create page (frontend/src/pages/TaskCreatePage.tsx): the task
    body it posts and the optional follow-up update of the variant named
    `default`. */
module TaskCreatePage {
  import opened Wrappers
  import opened Text
  import opened FormInput

  /** The statuses the page offers; the form starts at the first. */
  const TaskStatuses: seq<string> :=
    ["created", "collecting data", "ready for training", "training", "evaluating", "done", "discarded"]

  /** Initial value of the status select, matching the schema default. */
  const InitialStatus: string := "created"

  /** The create body. */
  datatype TaskCreate = TaskCreate(name: string, description: string, status: string, isExternal: bool)

  /** `handleSubmit`: refuses a blank name, otherwise trims name and
      description and passes status and the external flag through. */
  function Submit(name: string, description: string, status: string, isExternal: bool)
    : (r: Result<TaskCreate, string>)
    ensures r.Err? <==> Blank(name)
    ensures r.Err? ==> r.error == "Task name is required"
    ensures r.Ok? ==>
      && r.value.name == Trim(name) && r.value.name != ""
      && r.value.description == Trim(description)
      && r.value.status == status && r.value.isExternal == isExternal
  {
    if Blank(name) then Err("Task name is required")
    else Ok(TaskCreate(Trim(name), Trim(description), status, isExternal))
  }

  /** The four default-variant inputs, as typed (untrimmed). */
  datatype DefaultVariantForm = DefaultVariantForm(description: string, items: string, notes: string, media: string)

  /** The follow-up runs when any of the four inputs is non-empty; a
      whitespace-only input counts. */
  predicate WantsFollowUp(f: DefaultVariantForm) {
    f.description != "" || f.items != "" || f.notes != "" || f.media != ""
  }

  /** `updateData`: a field is present exactly when its input is non-empty. */
  datatype VariantPatch = VariantPatch(
    description: Option<string>, items: Option<string>, notes: Option<string>, media: Option<seq<string>>)

  /** Builds `updateData` from the form. */
  function BuildPatch(f: DefaultVariantForm): (r: VariantPatch)
    ensures r.description.Some? <==> f.description != ""
    ensures r.items.Some? <==> f.items != ""
    ensures r.notes.Some? <==> f.notes != ""
    ensures r.media.Some? <==> f.media != ""
    ensures r.description.Some? ==> r.description.value == f.description
    ensures r.items.Some? ==> r.items.value == f.items
    ensures r.notes.Some? ==> r.notes.value == f.notes
    ensures r.media.Some? ==> r.media.value == ParseMedia(f.media)
  {
    VariantPatch(
      if f.description != "" then Some(f.description) else None,
      if f.items != "" then Some(f.items) else None,
      if f.notes != "" then Some(f.notes) else None,
      if f.media != "" then Some(ParseMedia(f.media)) else None)
  }

  /** A patch with no field present. */
  predicate EmptyPatch(p: VariantPatch) {
    p.description.None? && p.items.None? && p.notes.None? && p.media.None?
  }

  /** The patch carries something exactly when the follow-up is wanted. */
  lemma PatchEmptyIffNoFollowUp(f: DefaultVariantForm)
    ensures EmptyPatch(BuildPatch(f)) <==> !WantsFollowUp(f)
  {
  }

  /** A media input of spaces only still sends `media`, as an empty list. */
  lemma BlankMediaSendsEmptyList(f: DefaultVariantForm)
    requires f.media != "" && Blank(f.media)
    ensures BuildPatch(f).media == Some([])
  {
    BlankParsesEmpty(f.media);
  }

  /** What the created task's variant list offers: id and name. */
  datatype VariantRef = VariantRef(id: int, name: string)

  /** Index of the first variant named exactly `name`. */
  function FirstNamed(variants: seq<VariantRef>, name: string): (r: Option<nat>)
    ensures r.None? <==> forall i | 0 <= i < |variants| :: variants[i].name != name
    ensures r.Some? ==> r.value < |variants| && variants[r.value].name == name
    ensures r.Some? ==> forall j | 0 <= j < r.value :: variants[j].name != name
  {
    if |variants| == 0 then None
    else if variants[0].name == name then Some(0)
    else match FirstNamed(variants[1..], name)
      case None => None
      case Some(k) => Some(k + 1)
  }

  /** The follow-up update: the target variant id and the patch, or nothing. */
  function FollowUp(f: DefaultVariantForm, variants: seq<VariantRef>): (r: Option<(int, VariantPatch)>)
    ensures r.Some? <==>
      WantsFollowUp(f) && exists i | 0 <= i < |variants| :: variants[i].name == "default"
    ensures r.Some? ==> !EmptyPatch(r.value.1) && r.value.1 == BuildPatch(f)
    ensures r.Some? ==> exists i | 0 <= i < |variants| ::
      && variants[i].name == "default" && variants[i].id == r.value.0
      && forall j | 0 <= j < i :: variants[j].name != "default"
  {
    if !WantsFollowUp(f) then None
    else match FirstNamed(variants, "default")
      case None => None
      case Some(k) => Some((variants[k].id, BuildPatch(f)))
  }

  /** A variant called `Default` or ` default` is not the target: the match is exact. */
  lemma FollowUpNeedsExactName(f: DefaultVariantForm)
    requires WantsFollowUp(f)
    ensures FollowUp(f, [VariantRef(1, "Default"), VariantRef(2, " default")]).None?
    ensures FollowUp(f, [VariantRef(1, "Default"), VariantRef(2, "default")]) == Some((2, BuildPatch(f)))
  {
    var vs := [VariantRef(1, "Default"), VariantRef(2, " default")];
    assert vs[0].name != "default" && vs[1].name != "default";
    var ws := [VariantRef(1, "Default"), VariantRef(2, "default")];
    assert ws[0].name != "default";
  }
}

=== FILE: task_crud.dfy ===
/** Tasks and task variants in the database (backend/app/crud/task.py). A
    variant belongs to a task through `taskId`; deleting a task deletes its
    variants (the `cascade="all, delete-orphan"` relationship). */
module TaskCrud {
  import opened Wrappers
  import opened Store

  /** A stored task. Columns are nullable, so an update may null any of them. */
  datatype Task = Task(name: Option<string>, description: Option<string>, status: Option<string>, isExternal: Option<bool>)

  /** The create body; `status` defaults to `"created"` and `isExternal` to false. */
  datatype TaskCreate = TaskCreate(name: string, description: Option<string>, status: string, isExternal: bool)

  /** The create body a client sends when it gives only a name. */
  function DefaultTaskCreate(name: string): (c: TaskCreate)
    ensures c.name == name && c.description.None? && c.status == "created" && !c.isExternal
  {
    TaskCreate(name, None, "created", false)
  }

  /** The update body: only explicitly sent fields are applied. */
  datatype TaskUpdate = TaskUpdate(
    name: Patch<Option<string>>, description: Patch<Option<string>>,
    status: Patch<Option<string>>, isExternal: Patch<Option<bool>>)

  /** A stored task variant. The update schema has no `taskId`, so ownership never changes. */
  datatype TaskVariant = TaskVariant(
    taskId: int, name: Option<string>, description: Option<string>, items: Option<string>,
    embodimentId: Option<int>, teleopModeId: Option<int>, notes: Option<string>, media: Option<seq<string>>)

  /** The variant create body (the task id comes from the path). */
  datatype TaskVariantCreate = TaskVariantCreate(
    name: string, description: Option<string>, items: Option<string>,
    embodimentId: Option<int>, teleopModeId: Option<int>, notes: Option<string>, media: Option<seq<string>>)

  /** The variant update body. */
  datatype TaskVariantUpdate = TaskVariantUpdate(
    name: Patch<Option<string>>, description: Patch<Option<string>>, items: Patch<Option<string>>,
    embodimentId: Patch<Option<int>>, teleopModeId: Patch<Option<int>>, notes: Patch<Option<string>>,
    media: Patch<Option<seq<string>>>)

  /** The two tables. */
  datatype TaskDb = TaskDb(tasks: Table<Task>, variants: Table<TaskVariant>)

  /** Both key sequences are consistent. */
  predicate ValidDb(db: TaskDb) {
    Valid(db.tasks) && Valid(db.variants)
  }

  /** The record `create_task` stores for a body. */
  function NewTask(c: TaskCreate): (t: Task)
    ensures t.name == Some(c.name) && t.description == c.description
    ensures t.status == Some(c.status) && t.isExternal == Some(c.isExternal)
  {
    Task(Some(c.name), c.description, Some(c.status), Some(c.isExternal))
  }

  /** `create_task`: stores the body under a fresh id; variants are untouched. */
  function CreateTask(db: TaskDb, c: TaskCreate): (r: (TaskDb, int))
    ensures r.0.tasks.rows == db.tasks.rows[r.1 := NewTask(c)]
    ensures r.0.variants == db.variants
    ensures ValidDb(db) ==> ValidDb(r.0) && r.1 !in db.tasks.rows
  {
    var (t, id) := Insert(db.tasks, NewTask(c));
    (db.(tasks := t), id)
  }

  /** `get_task`. */
  function GetTask(db: TaskDb, id: int): (r: Option<Task>)
    ensures r.Some? <==> id in db.tasks.rows
    ensures r.Some? ==> r.value == db.tasks.rows[id]
  {
    Get(db.tasks, id)
  }

  /** The equality filters of `get_tasks`; a null column never equals a given value. */
  predicate TaskMatches(t: Task, status: Option<string>, isExternal: Option<bool>) {
    && (status.Some? ==> t.status == Some(status.value))
    && (isExternal.Some? ==> t.isExternal == Some(isExternal.value))
  }

  /** The `get_tasks` filters as a query predicate. */
  function TaskFilter(status: Option<string>, isExternal: Option<bool>): Task -> bool {
    (t: Task) => TaskMatches(t, status, isExternal)
  }

  /** `get_tasks`: the filtered tasks in scan order, then `offset`/`limit`. */
  function GetTasks(db: TaskDb, order: seq<int>, skip: nat, limit: nat, status: Option<string>, isExternal: Option<bool>)
    : (r: seq<Row<Task>>)
    ensures |r| <= limit
    ensures forall i | 0 <= i < |r| ::
      && r[i].id in db.tasks.rows && db.tasks.rows[r[i].id] == r[i].rec
      && TaskMatches(r[i].rec, status, isExternal)
    ensures IsPage(r, db.tasks.rows, order, TaskFilter(status, isExternal), skip, limit)
  {
    List(db.tasks, order, TaskFilter(status, isExternal), skip, limit)
  }

  /** The task after applying the explicitly set fields of `u`. */
  function ApplyTaskUpdate(t: Task, u: TaskUpdate): (r: Task)
    ensures u.name.Unset? ==> r.name == t.name
    ensures u.name.Set? ==> r.name == u.name.value
    ensures u.description.Unset? ==> r.description == t.description
    ensures u.description.Set? ==> r.description == u.description.value
    ensures u.status.Unset? ==> r.status == t.status
    ensures u.status.Set? ==> r.status == u.status.value
    ensures u.isExternal.Unset? ==> r.isExternal == t.isExternal
    ensures u.isExternal.Set? ==> r.isExternal == u.isExternal.value
  {
    Task(u.name.Over(t.name), u.description.Over(t.description), u.status.Over(t.status), u.isExternal.Over(t.isExternal))
  }

  /** `update_task`: None and no change when the id is missing; otherwise
      only that task changes, in exactly the set fields. */
  function UpdateTask(db: TaskDb, id: int, u: TaskUpdate): (r: (TaskDb, Option<Task>))
    ensures r.1.None? <==> id !in db.tasks.rows
    ensures r.1.None? ==> r.0 == db
    ensures r.1.Some? ==>
      && r.1.value == ApplyTaskUpdate(db.tasks.rows[id], u)
      && r.0.tasks.rows == db.tasks.rows[id := r.1.value]
      && r.0.tasks.nextId == db.tasks.nextId
      && r.0.variants == db.variants
  {
    match Get(db.tasks, id)
    case None => (db, None)
    case Some(t) =>
      var t' := ApplyTaskUpdate(t, u);
      (db.(tasks := Replace(db.tasks, id, t')), Some(t'))
  }

  /** `delete_task`: false and no change when the id is missing; otherwise the
      task and all of its variants are gone and nothing else changes. */
  function DeleteTask(db: TaskDb, id: int): (r: (TaskDb, bool))
    ensures r.1 <==> id in db.tasks.rows
    ensures !r.1 ==> r.0 == db
    ensures r.1 ==>
      && r.0.tasks.rows == db.tasks.rows - {id}
      && r.0.variants.rows.Keys == set k | k in db.variants.rows && db.variants.rows[k].taskId != id
      && (forall k | k in r.0.variants.rows :: k in db.variants.rows && r.0.variants.rows[k] == db.variants.rows[k])
    ensures ValidDb(db) ==> ValidDb(r.0)
  {
    var (t, found) := Remove(db.tasks, id);
    if !found then (db, false)
    else (TaskDb(t, RemoveWhere(db.variants, (v: TaskVariant) => v.taskId == id)), true)
  }

  /** The record `create_task_variant` stores. */
  function NewVariant(taskId: int, c: TaskVariantCreate): (v: TaskVariant)
    ensures v.taskId == taskId && v.name == Some(c.name) && v.description == c.description
    ensures v.items == c.items && v.embodimentId == c.embodimentId && v.teleopModeId == c.teleopModeId
    ensures v.notes == c.notes && v.media == c.media
  {
    TaskVariant(taskId, Some(c.name), c.description, c.items, c.embodimentId, c.teleopModeId, c.notes, c.media)
  }

  /** `create_task_variant`: attaches the variant to `taskId` (whether or not
      that task exists; the endpoint checks); tasks are untouched. */
  function CreateVariant(db: TaskDb, taskId: int, c: TaskVariantCreate): (r: (TaskDb, int))
    ensures r.0.variants.rows == db.variants.rows[r.1 := NewVariant(taskId, c)]
    ensures r.0.tasks == db.tasks
    ensures ValidDb(db) ==> ValidDb(r.0) && r.1 !in db.variants.rows
  {
    var (v, id) := Insert(db.variants, NewVariant(taskId, c));
    (db.(variants := v), id)
  }

  /** `get_task_variant`. */
  function GetVariant(db: TaskDb, id: int): (r: Option<TaskVariant>)
    ensures r.Some? <==> id in db.variants.rows
    ensures r.Some? ==> r.value == db.variants.rows[id]
  {
    Get(db.variants, id)
  }

  /** The `get_task_variants` filter as a query predicate. */
  function OwnedBy(taskId: int): TaskVariant -> bool {
    (v: TaskVariant) => v.taskId == taskId
  }

  /** `get_task_variants`: the variants of one task, paginated. */
  function GetVariants(db: TaskDb, order: seq<int>, taskId: int, skip: nat, limit: nat): (r: seq<Row<TaskVariant>>)
    ensures |r| <= limit
    ensures forall i | 0 <= i < |r| ::
      r[i].id in db.variants.rows && db.variants.rows[r[i].id] == r[i].rec && r[i].rec.taskId == taskId
    ensures IsPage(r, db.variants.rows, order, OwnedBy(taskId), skip, limit)
  {
    List(db.variants, order, OwnedBy(taskId), skip, limit)
  }

  /** The variant after applying the explicitly set fields of `u`. */
  function ApplyVariantUpdate(v: TaskVariant, u: TaskVariantUpdate): (r: TaskVariant)
    ensures r.taskId == v.taskId
    ensures u.name.Unset? ==> r.name == v.name
    ensures u.name.Set? ==> r.name == u.name.value
    ensures u.description.Unset? ==> r.description == v.description
    ensures u.description.Set? ==> r.description == u.description.value
    ensures u.items.Unset? ==> r.items == v.items
    ensures u.items.Set? ==> r.items == u.items.value
    ensures u.embodimentId.Unset? ==> r.embodimentId == v.embodimentId
    ensures u.embodimentId.Set? ==> r.embodimentId == u.embodimentId.value
    ensures u.teleopModeId.Unset? ==> r.teleopModeId == v.teleopModeId
    ensures u.teleopModeId.Set? ==> r.teleopModeId == u.teleopModeId.value
    ensures u.notes.Unset? ==> r.notes == v.notes
    ensures u.notes.Set? ==> r.notes == u.notes.value
    ensures u.media.Unset? ==> r.media == v.media
    ensures u.media.Set? ==> r.media == u.media.value
  {
    TaskVariant(v.taskId, u.name.Over(v.name), u.description.Over(v.description), u.items.Over(v.items),
      u.embodimentId.Over(v.embodimentId), u.teleopModeId.Over(v.teleopModeId), u.notes.Over(v.notes),
      u.media.Over(v.media))
  }

  /** `update_task_variant`: the same missing-id and partial-update rules as tasks. */
  function UpdateVariant(db: TaskDb, id: int, u: TaskVariantUpdate): (r: (TaskDb, Option<TaskVariant>))
    ensures r.1.None? <==> id !in db.variants.rows
    ensures r.1.None? ==> r.0 == db
    ensures r.1.Some? ==>
      && r.1.value == ApplyVariantUpdate(db.variants.rows[id], u)
      && r.0.variants.rows == db.variants.rows[id := r.1.value]
      && r.0.variants.nextId == db.variants.nextId
      && r.0.tasks == db.tasks
  {
    match Get(db.variants, id)
    case None => (db, None)
    case Some(v) =>
      var v' := ApplyVariantUpdate(v, u);
      (db.(variants := Replace(db.variants, id, v')), Some(v'))
  }

  /** `delete_task_variant`. */
  function DeleteVariant(db: TaskDb, id: int): (r: (TaskDb, bool))
    ensures r.1 <==> id in db.variants.rows
    ensures !r.1 ==> r.0 == db
    ensures r.0.variants.rows == db.variants.rows - {id} && r.0.tasks == db.tasks
    ensures ValidDb(db) ==> ValidDb(r.0)
  {
    var (v, found) := Remove(db.variants, id);
    (db.(variants := v), found)
  }

  /** Creating then reading a task gives back exactly the body's fields. */
  lemma CreateThenGetTask(db: TaskDb, c: TaskCreate)
    ensures var (db', id) := CreateTask(db, c);
      GetTask(db', id) == Some(Task(Some(c.name), c.description, Some(c.status), Some(c.isExternal)))
  {
  }

  /** An update that sets nothing changes nothing. */
  lemma EmptyUpdateNoChange(db: TaskDb, id: int)
    requires id in db.tasks.rows
    ensures UpdateTask(db, id, TaskUpdate(Unset, Unset, Unset, Unset)).0 == db
  {
    var t := db.tasks.rows[id];
    assert ApplyTaskUpdate(t, TaskUpdate(Unset, Unset, Unset, Unset)) == t;
    assert db.tasks.rows[id := t] == db.tasks.rows;
  }

  /** Applying the same update twice is the same as applying it once. */
  lemma UpdateTaskIdempotent(db: TaskDb, id: int, u: TaskUpdate)
    ensures UpdateTask(UpdateTask(db, id, u).0, id, u) == UpdateTask(db, id, u)
  {
    if id in db.tasks.rows {
      var t' := ApplyTaskUpdate(db.tasks.rows[id], u);
      assert ApplyTaskUpdate(t', u) == t';
      var db' := UpdateTask(db, id, u).0;
      assert db'.tasks.rows[id := t'] == db'.tasks.rows;
    }
  }

  /** After a successful delete the task is gone, no variant refers to it,
      and a second delete reports false. */
  lemma DeleteTaskGone(db: TaskDb, id: int)
    requires id in db.tasks.rows
    ensures var db' := DeleteTask(db, id).0;
      && GetTask(db', id).None?
      && (forall k | k in db'.variants.rows :: db'.variants.rows[k].taskId != id)
      && DeleteTask(db', id) == (db', false)
  {
  }

  /** Variants of other tasks survive the deletion of a task. */
  lemma DeleteTaskKeepsOtherVariants(db: TaskDb, id: int, vid: int)
    requires vid in db.variants.rows && db.variants.rows[vid].taskId != id
    ensures vid in DeleteTask(db, id).0.variants.rows
    ensures DeleteTask(db, id).0.variants.rows[vid] == db.variants.rows[vid]
  {
  }

  /** A created variant is listed among its task's variants by any scan that
      visits every key once and a page that covers the whole result. */
  lemma CreatedVariantListed(db: TaskDb, taskId: int, c: TaskVariantCreate, order: seq<int>)
    requires NoDuplicates(order)
    requires forall k | k in CreateVariant(db, taskId, c).0.variants.rows :: k in order
    ensures var (db', id) := CreateVariant(db, taskId, c);
      Row(id, NewVariant(taskId, c)) in GetVariants(db', order, taskId, 0, |order|)
  {
    var (db', id) := CreateVariant(db, taskId, c);
    var p := OwnedBy(taskId);
    QueryExact(db'.variants.rows, order, p);
    var q := Query(db'.variants.rows, order, p);
    assert id in db'.variants.rows;
    assert id in order;
    var i :| 0 <= i < |order| && order[i] == id;
    assert p(db'.variants.rows[id]);
    assert Row(id, db'.variants.rows[id]) in q;
    assert Page(q, 0, |order|) == q;
  }
}

=== FILE: task_edit.dfy ===
/** The task edit page (frontend/src/pages/TaskEditPage.tsx): the form is
    filled from the task detail, variants, subdatasets and training runs can
    be removed from the local lists only, and saving sends just the
    description and the status. */
module TaskEditPage {
  import opened Wrappers
  import opened Seqs
  import opened Store
  import opened TaskCrud
  import opened TaskApi
  import opened Http

  /** A variant as listed on the page. */
  datatype VariantSummary = VariantSummary(id: int, name: string)

  /** A linked subdataset or training run; only its id matters here. */
  datatype LinkedRef = LinkedRef(id: int)

  /** The fields of the task detail the page reads. */
  datatype TaskDetail = TaskDetail(
    description: Option<string>, status: string,
    variants: seq<VariantSummary>, subdatasets: seq<LinkedRef>, trainingRuns: seq<LinkedRef>)

  /** The page state. */
  datatype EditState = EditState(
    description: string, status: string,
    variants: seq<VariantSummary>, subdatasets: seq<LinkedRef>, trainingRuns: seq<LinkedRef>)

  /** The state before the detail arrives. */
  const InitialState: EditState := EditState("", "created", [], [], [])

  /** The effect run when the detail query settles: nothing until data
      arrives, then every field is taken from it, a missing description as ''. */
  function Load(s: EditState, data: Option<TaskDetail>): (r: EditState)
    ensures data.None? ==> r == s
    ensures data.Some? ==>
      && (data.value.description.Some? ==> r.description == data.value.description.value)
      && (data.value.description.None? ==> r.description == "")
      && r.status == data.value.status
      && r.variants == data.value.variants
      && r.subdatasets == data.value.subdatasets
      && r.trainingRuns == data.value.trainingRuns
  {
    match data
    case None => s
    case Some(d) => EditState(d.description.GetOr(""), d.status, d.variants, d.subdatasets, d.trainingRuns)
  }

  /** `prev.filter(x => x.id !== id)`. */
  function RemoveId<T>(xs: seq<T>, idOf: T -> int, id: int): (r: seq<T>)
    ensures IsSubsequence(r, xs)
    ensures forall i | 0 <= i < |r| :: idOf(r[i]) != id
    ensures forall i | 0 <= i < |xs| && idOf(xs[i]) != id :: xs[i] in r
  {
    FilterIsSubsequence(x => idOf(x) != id, xs);
    Filter(x => idOf(x) != id, xs)
  }

  /** Removing an id that is not listed changes nothing. */
  lemma RemoveAbsentId<T>(xs: seq<T>, idOf: T -> int, id: int)
    requires forall i | 0 <= i < |xs| :: idOf(xs[i]) != id
    ensures RemoveId(xs, idOf, id) == xs
  {
    FilterAll(x => idOf(x) != id, xs);
  }

  /** Removing the same id twice is removing it once. */
  lemma RemoveIdIdempotent<T>(xs: seq<T>, idOf: T -> int, id: int)
    ensures RemoveId(RemoveId(xs, idOf, id), idOf, id) == RemoveId(xs, idOf, id)
  {
    RemoveAbsentId(RemoveId(xs, idOf, id), idOf, id);
  }

  /** `removeVariant`. */
  function RemoveVariant(s: EditState, id: int): (r: EditState)
    ensures r.variants == RemoveId(s.variants, (v: VariantSummary) => v.id, id)
    ensures r.(variants := s.variants) == s
  {
    s.(variants := RemoveId(s.variants, (v: VariantSummary) => v.id, id))
  }

  /** `unlinkSubdataset`. */
  function UnlinkSubdataset(s: EditState, id: int): (r: EditState)
    ensures r.subdatasets == RemoveId(s.subdatasets, (x: LinkedRef) => x.id, id)
    ensures r.(subdatasets := s.subdatasets) == s
  {
    s.(subdatasets := RemoveId(s.subdatasets, (x: LinkedRef) => x.id, id))
  }

  /** `unlinkTrainingRun`. */
  function UnlinkTrainingRun(s: EditState, id: int): (r: EditState)
    ensures r.trainingRuns == RemoveId(s.trainingRuns, (x: LinkedRef) => x.id, id)
    ensures r.(trainingRuns := s.trainingRuns) == s
  {
    s.(trainingRuns := RemoveId(s.trainingRuns, (x: LinkedRef) => x.id, id))
  }

  /** The Remove button is offered for every variant except the one named `default`. */
  predicate Removable(v: VariantSummary) {
    v.name != "default"
  }

  /** The PUT body: description and status are sent, the other task fields are absent. */
  function SubmitBody(s: EditState): (u: TaskUpdate)
    ensures u.name.Unset? && u.isExternal.Unset?
    ensures u.description == Set(Some(s.description)) && u.status == Set(Some(s.status))
  {
    TaskUpdate(Unset, Set(Some(s.description)), Set(Some(s.status)), Unset)
  }

  /** Local removals never reach the request: the body is the same with or without them. */
  lemma RemovalsAreNotSent(s: EditState, variantId: int, subdatasetId: int, runId: int)
    ensures SubmitBody(RemoveVariant(s, variantId)) == SubmitBody(s)
    ensures SubmitBody(UnlinkSubdataset(s, subdatasetId)) == SubmitBody(s)
    ensures SubmitBody(UnlinkTrainingRun(s, runId)) == SubmitBody(s)
  {
  }

  /** Saving an existing task stores the new description and status, keeps
      its name and external flag, and leaves every variant in the database,
      even one removed on the page. The save is reported as successful
      exactly when the stored task has a name and an external flag and each
      of its variants a name; otherwise the change is stored all the same
      and the page sees a 500. */
  lemma SaveKeepsVariants(db: TaskDb, taskId: int, s: EditState, removed: int)
    requires taskId in db.tasks.rows
    ensures var (db', r) := UpdateTaskEndpoint(db, taskId, SubmitBody(RemoveVariant(s, removed)));
      && taskId in db'.tasks.rows
      && db'.tasks.rows[taskId].description == Some(s.description)
      && db'.tasks.rows[taskId].status == Some(s.status)
      && db'.tasks.rows[taskId].name == db.tasks.rows[taskId].name
      && db'.tasks.rows[taskId].isExternal == db.tasks.rows[taskId].isExternal
      && db'.variants == db.variants
      && (r.Ok? <==>
            && db.tasks.rows[taskId].name.Some? && db.tasks.rows[taskId].isExternal.Some?
            && forall k | k in db.variants.rows && db.variants.rows[k].taskId == taskId ::
                 db.variants.rows[k].name.Some?)
      && (r.Ok? ==> r.value == db'.tasks.rows[taskId])
      && (!r.Ok? ==> r == Err(InvalidResponse))
  {
    RemovalsAreNotSent(s, removed, 0, 0);
  }
}

=== FILE: text.dfy ===
/** String primitives the front end and back end rely on: trimming, ASCII
    lower-casing, substring search, comma splitting and decimal rendering. */
module Text {

  /** ECMAScript `WhiteSpace` and `LineTerminator`: what `String.prototype.trim` strips. */
  predicate IsJsSpace(c: char) {
    || c == '\t' || c == '\n' || c == '\U{000B}' || c == '\U{000C}' || c == '\r' || c == ' '
    || c == '\U{00A0}' || c == '\U{1680}' || ('\U{2000}' <= c <= '\U{200A}')
    || c == '\U{2028}' || c == '\U{2029}' || c == '\U{202F}' || c == '\U{205F}'
    || c == '\U{3000}' || c == '\U{FEFF}'
  }

  /** Python `str.isspace`: what `str.strip()` with no argument strips. */
  predicate IsPySpace(c: char) {
    || ('\t' <= c <= '\r') || ('\U{001C}' <= c <= '\U{001F}') || c == ' '
    || c == '\U{0085}' || c == '\U{00A0}' || c == '\U{1680}' || ('\U{2000}' <= c <= '\U{200A}')
    || c == '\U{2028}' || c == '\U{2029}' || c == '\U{202F}' || c == '\U{205F}' || c == '\U{3000}'
  }

  /** Number of leading characters of `s` that are spaces according to `sp`. */
  function LeadCount(s: string, sp: char -> bool): (n: nat)
    ensures n <= |s|
    ensures forall k | 0 <= k < n :: sp(s[k])
    ensures n == |s| || !sp(s[n])
  {
    if |s| > 0 && sp(s[0]) then 1 + LeadCount(s[1..], sp) else 0
  }

  /** Number of trailing characters of `s` that are spaces according to `sp`. */
  function TrailCount(s: string, sp: char -> bool): (n: nat)
    ensures n <= |s|
    ensures forall k | |s| - n <= k < |s| :: sp(s[k])
    ensures n == |s| || !sp(s[|s| - n - 1])
  {
    if |s| > 0 && sp(s[|s| - 1]) then 1 + TrailCount(s[..|s| - 1], sp) else 0
  }

  /** `s` without its leading and trailing spaces (according to `sp`). */
  function TrimBy(s: string, sp: char -> bool): (r: string)
    ensures |r| <= |s|
    ensures |r| == 0 <==> forall k | 0 <= k < |s| :: sp(s[k])
    ensures |r| > 0 ==> !sp(r[0]) && !sp(r[|r| - 1])
    ensures Contains(s, r)
  {
    var a := LeadCount(s, sp);
    if a == |s| then
      assert OccursAt(s, [], 0);
      []
    else
      var b := TrailCount(s[a..], sp);
      assert s[a..][|s[a..]| - b - 1] == s[|s| - b - 1];
      assert !sp(s[a]);
      var r := s[a..|s| - b];
      assert r[0] == s[a];
      assert OccursAt(s, r, a);
      r
  }

  /** JavaScript `s.trim()`. */
  function Trim(s: string): (r: string)
    ensures |r| <= |s|
    ensures |r| == 0 <==> forall k | 0 <= k < |s| :: IsJsSpace(s[k])
    ensures |r| > 0 ==> !IsJsSpace(r[0]) && !IsJsSpace(r[|r| - 1])
  {
    TrimBy(s, IsJsSpace)
  }

  /** Python `s.strip()`. */
  function Strip(s: string): (r: string)
    ensures |r| <= |s|
    ensures |r| == 0 <==> forall k | 0 <= k < |s| :: IsPySpace(s[k])
  {
    TrimBy(s, IsPySpace)
  }

  /** A string with no space at either end is its own trim. */
  lemma TrimOfTrimmed(s: string, sp: char -> bool)
    requires |s| == 0 || (!sp(s[0]) && !sp(s[|s| - 1]))
    ensures TrimBy(s, sp) == s
  {
    if |s| > 0 {
      assert LeadCount(s, sp) == 0;
      assert TrailCount(s, sp) == 0;
      assert s[0..|s| - 0] == s;
    }
  }

  /** Trimming is idempotent. */
  lemma TrimIdempotent(s: string)
    ensures Trim(Trim(s)) == Trim(s)
  {
    TrimOfTrimmed(Trim(s), IsJsSpace);
  }

  /** `s.includes(p)`: `p` occurs in `s` at some position. */
  predicate Contains(s: string, p: string) {
    exists i | 0 <= i <= |s| - |p| :: OccursAt(s, p, i)
  }

  /** `p` occurs in `s` starting at index `i`. */
  predicate OccursAt(s: string, p: string, i: int) {
    0 <= i <= |s| - |p| && s[i..i + |p|] == p
  }

  /** Whatever surrounds an occurrence of `p`, the result contains `p`. */
  lemma ContainsInMiddle(a: string, p: string, b: string)
    ensures Contains(a + p + b, p)
  {
    var s := a + p + b;
    assert OccursAt(s, p, |a|);
  }

  /** The empty string occurs in every string. */
  lemma ContainsEmpty(s: string)
    ensures Contains(s, "")
  {
    assert OccursAt(s, "", 0);
  }

  /** ASCII lower-casing of one character. */
  function LowerChar(c: char): char {
    if 'A' <= c <= 'Z' then (c as int + 32) as char else c
  }

  /** `s.toLowerCase()` restricted to ASCII letters. */
  function ToLower(s: string): (r: string)
    ensures |r| == |s|
    ensures forall i | 0 <= i < |s| :: r[i] == LowerChar(s[i])
  {
    if |s| == 0 then [] else [LowerChar(s[0])] + ToLower(s[1..])
  }

  /** Lower-casing twice is lower-casing once. */
  lemma ToLowerIdempotent(s: string)
    ensures ToLower(ToLower(s)) == ToLower(s)
  {
  }

  /** `s.split(sep)`: the maximal separator-free pieces between occurrences of `sep`. */
  function Split(s: string, sep: char): (r: seq<string>)
    ensures |r| >= 1
    ensures forall i | 0 <= i < |r| :: sep !in r[i]
  {
    if |s| == 0 then [""]
    else
      var rest := Split(s[1..], sep);
      if s[0] == sep then [""] + rest else [[s[0]] + rest[0]] + rest[1..]
  }

  /** Splitting at an explicit separator splits the two sides independently. */
  lemma {:induction false} SplitAppend(a: string, sep: char, b: string)
    requires sep !in a
    ensures Split(a + [sep] + b, sep) == Split(a, sep) + Split(b, sep)
    decreases |a|
  {
    if |a| == 0 {
      assert a + [sep] + b == [sep] + b;
      assert ([sep] + b)[1..] == b;
    } else {
      assert (a + [sep] + b)[1..] == a[1..] + [sep] + b;
      SplitAppend(a[1..], sep, b);
    }
  }

  /** A string without the separator splits into itself. */
  lemma {:induction false} SplitNoSeparator(s: string, sep: char)
    requires sep !in s
    ensures Split(s, sep) == [s]
    decreases |s|
  {
    if |s| > 0 {
      SplitNoSeparator(s[1..], sep);
      assert [s[0]] + s[1..] == s;
    }
  }

  /** Joins pieces with `sep` between them; the inverse of `Split`. */
  function Join(parts: seq<string>, sep: char): string
    requires |parts| >= 1
  {
    if |parts| == 1 then parts[0] else parts[0] + [sep] + Join(parts[1..], sep)
  }

  /** Splitting and re-joining gives back the original string. */
  lemma {:induction false} JoinSplit(s: string, sep: char)
    ensures Join(Split(s, sep), sep) == s
    decreases |s|
  {
    if |s| > 0 {
      JoinSplit(s[1..], sep);
      var rest := Split(s[1..], sep);
      if s[0] != sep {
        var r := Split(s, sep);
        assert r[1..] == rest[1..];
        if |rest| > 1 {
          assert Join(rest, sep) == rest[0] + [sep] + Join(rest[1..], sep);
        }
      }
    }
  }

  /** Decimal digit character for `d < 10`. */
  function DigitChar(d: nat): (c: char)
    requires d < 10
    ensures '0' <= c <= '9'
  {
    "0123456789"[d]
  }

  /** Value of a decimal digit character. */
  function DigitValue(c: char): nat {
    if '0' <= c <= '9' then (c as int - '0' as int) as nat else 0
  }

  /** Decimal rendering of a natural number, without leading zeros. */
  function NatToString(n: nat): (r: string)
    ensures |r| >= 1
    ensures forall i | 0 <= i < |r| :: '0' <= r[i] <= '9'
  {
    if n < 10 then [DigitChar(n)] else NatToString(n / 10) + [DigitChar(n % 10)]
  }

  /** Python `str(i)` and JavaScript `${i}` for an integer. */
  function IntToString(i: int): (r: string)
    ensures |r| >= 1
    ensures '_' !in r
  {
    if i < 0 then "-" + NatToString(-i) else NatToString(i)
  }

  /** Reads a digit string back as a number. */
  function ParseNat(s: string): nat {
    if |s| == 0 then 0 else 10 * ParseNat(s[..|s| - 1]) + DigitValue(s[|s| - 1])
  }

  /** Reads an integer rendered by `IntToString` back. */
  function ParseInt(s: string): int {
    if |s| > 0 && s[0] == '-' then -(ParseNat(s[1..]) as int) else ParseNat(s)
  }

  /** Decimal rendering is inverted by parsing. */
  lemma {:induction false} ParseNatToString(n: nat)
    ensures ParseNat(NatToString(n)) == n
    decreases n
  {
    if n >= 10 {
      ParseNatToString(n / 10);
      var s := NatToString(n);
      assert s[..|s| - 1] == NatToString(n / 10);
    }
  }

  /** Integer rendering is inverted by parsing, so distinct integers render differently. */
  lemma ParseIntToString(i: int)
    ensures ParseInt(IntToString(i)) == i
  {
    var r := IntToString(i);
    if i < 0 {
      var d := NatToString(-i);
      ParseNatToString(-i);
      assert r == "-" + d;
      assert r[1..] == d;
      assert ParseInt(r) == -(ParseNat(d) as int);
    } else {
      ParseNatToString(i);
      assert r == NatToString(i);
      assert r[0] != '-';
    }
  }
}

=== FILE: upload.dfy ===
/** The upload endpoints (backend/app/api/v1/endpoints/upload.py): storing a
    variant's start and end configuration images, and serving stored images
    back as base64 data. Reading file bytes and the bucket itself are outside
    the model; a storage failure is a parameter. */
module Upload {
  import opened Wrappers
  import opened Text
  import opened Http
  import opened ConfigImages
  import opened Storage

  /** An uploaded form file: its client filename and declared content type. */
  datatype UploadedFile = UploadedFile(filename: Option<string>, contentType: Option<string>)

  /** A stored object: its name in the bucket and the content type set on it. */
  datatype Blob = Blob(name: string, contentType: Option<string>)

  /** The success body: the message and the URIs, start image first. */
  datatype UploadResponse = UploadResponse(message: string, uris: seq<string>, blobs: seq<Blob>)

  /** The content types the endpoint accepts. */
  const AllowedTypes: seq<string> := ["image/jpeg", "image/jpg", "image/png", "image/gif", "image/webp"]

  /** `', '.join(allowed_types)` as it appears in the error detail. */
  const AllowedTypesText: string := "image/jpeg, image/jpg, image/png, image/gif, image/webp"

  const TaskNameRequired: string := "Task name is required"
  const NoImageGiven: string := "At least one image must be provided"
  const UploadFailedPrefix: string := "Failed to upload images: "
  const DownloadFailedPrefix: string := "Failed to download images: "

  /** The content type is one of the accepted ones (a missing one is not). */
  predicate AllowedType(f: UploadedFile) {
    f.contentType.Some? && f.contentType.value in AllowedTypes
  }

  /** The extension used for the stored name: the filename's own, or `.jpg` when
      there is no filename at all. A filename without a dot keeps no extension. */
  function FileExtension(f: UploadedFile): (r: string)
    ensures (f.filename.None? || f.filename.value == "") ==> r == ".jpg"
    ensures f.filename.Some? && f.filename.value != "" ==> r == Extension(f.filename.value)
  {
    if f.filename.Some? && f.filename.value != "" then Extension(f.filename.value) else ".jpg"
  }

  /** Storing one image: the object name for its kind, and its URI. */
  function StoreOne(bucket: string, taskId: int, variantId: int, kind: ImageKind, f: UploadedFile): (r: (string, Blob))
    ensures r.1.name == ImageFilename(taskId, variantId, kind, FileExtension(f))
    ensures r.0 == GsUri(bucket, r.1.name)
    ensures AllowedType(f) ==> r.1.contentType == f.contentType
  {
    var name := ImageFilename(taskId, variantId, kind, FileExtension(f));
    (GsUri(bucket, name), Blob(name, ChooseContentType(f.contentType, None)))
  }

  /** The validation the endpoint performs before touching storage, in its order. */
  function Validate(taskName: string, start: Option<UploadedFile>, end: Option<UploadedFile>): (r: Option<HttpError>)
    ensures r.None? <==> Strip(taskName) != "" && (start.Some? || end.Some?)
                         && (start.Some? ==> AllowedType(start.value))
                         && (end.Some? ==> AllowedType(end.value))
    ensures r.Some? ==> r.value.status == 400
    ensures Strip(taskName) == "" ==> r == Some(BadRequest(TaskNameRequired))
    ensures Strip(taskName) != "" && start.None? && end.None? ==> r == Some(BadRequest(NoImageGiven))
  {
    if Strip(taskName) == "" then Some(BadRequest(TaskNameRequired))
    else if start.None? && end.None? then Some(BadRequest(NoImageGiven))
    else if start.Some? && !AllowedType(start.value) then
      Some(BadRequest("Start image must be one of: " + AllowedTypesText))
    else if end.Some? && !AllowedType(end.value) then
      Some(BadRequest("End image must be one of: " + AllowedTypesText))
    else None
  }

  /** The storing half of `upload_task_images`: one object per given image,
      the start image first. */
  function StoreAll(bucket: string, taskId: int, variantId: int, start: Option<UploadedFile>, end: Option<UploadedFile>)
    : (r: UploadResponse)
    requires start.Some? || end.Some?
    ensures r.message == "Images uploaded successfully"
    ensures |r.uris| == |r.blobs| == (if start.Some? then 1 else 0) + (if end.Some? then 1 else 0)
    ensures start.Some? ==> r.uris[0] == GsUri(bucket, ImageFilename(taskId, variantId, StartKind, FileExtension(start.value)))
    ensures end.Some? ==> r.uris[|r.uris| - 1] == GsUri(bucket, ImageFilename(taskId, variantId, EndKind, FileExtension(end.value)))
    ensures forall i | 0 <= i < |r.uris| :: r.uris[i] == GsUri(bucket, r.blobs[i].name)
  {
    var msg := "Images uploaded successfully";
    match (start, end)
    case (Some(sf), Some(ef)) =>
      var (su, sb) := StoreOne(bucket, taskId, variantId, StartKind, sf);
      var (eu, eb) := StoreOne(bucket, taskId, variantId, EndKind, ef);
      UploadResponse(msg, [su, eu], [sb, eb])
    case (Some(sf), None) =>
      var (su, sb) := StoreOne(bucket, taskId, variantId, StartKind, sf);
      UploadResponse(msg, [su], [sb])
    case (None, Some(ef)) =>
      var (eu, eb) := StoreOne(bucket, taskId, variantId, EndKind, ef);
      UploadResponse(msg, [eu], [eb])
  }

  /** Every object stored for accepted images gets an allowed content type. */
  lemma StoredTypesAllowed(bucket: string, taskId: int, variantId: int, start: Option<UploadedFile>, end: Option<UploadedFile>)
    requires start.Some? || end.Some?
    requires start.Some? ==> AllowedType(start.value)
    requires end.Some? ==> AllowedType(end.value)
    ensures var r := StoreAll(bucket, taskId, variantId, start, end);
      forall i | 0 <= i < |r.blobs| :: r.blobs[i].contentType.Some? && r.blobs[i].contentType.value in AllowedTypes
  {
    var blobs := StoreAll(bucket, taskId, variantId, start, end).blobs;
    if start.Some? {
      assert blobs[0] == StoreOne(bucket, taskId, variantId, StartKind, start.value).1;
    }
    if end.Some? {
      assert blobs[|blobs| - 1] == StoreOne(bucket, taskId, variantId, EndKind, end.value).1;
    }
  }

  /** `upload_task_images`. `storageFailure` is the message of the first failing
      storage call, if any; it turns the whole request into a 500. */
  function UploadTaskImages(taskName: string, taskId: int, variantId: int,
                            start: Option<UploadedFile>, end: Option<UploadedFile>,
                            bucket: string, storageFailure: Option<string>): (r: Result<UploadResponse, HttpError>)
    ensures Validate(taskName, start, end).Some? ==> r == Err(Validate(taskName, start, end).value)
    ensures Validate(taskName, start, end).None? && storageFailure.Some?
            ==> r == Err(HttpError(500, UploadFailedPrefix + storageFailure.value))
    ensures r.Ok? <==> Validate(taskName, start, end).None? && storageFailure.None?
    ensures r.Ok? ==> |r.value.uris| == |r.value.blobs| == (if start.Some? then 1 else 0) + (if end.Some? then 1 else 0)
    ensures r.Ok? && start.Some? ==> r.value.uris[0] == GsUri(bucket, ImageFilename(taskId, variantId, StartKind, FileExtension(start.value)))
    ensures r.Ok? && end.Some? ==> r.value.uris[|r.value.uris| - 1] == GsUri(bucket, ImageFilename(taskId, variantId, EndKind, FileExtension(end.value)))
    ensures r.Ok? ==> forall i | 0 <= i < |r.value.uris| :: r.value.uris[i] == GsUri(bucket, r.value.blobs[i].name)
    ensures r.Ok? ==> forall i | 0 <= i < |r.value.blobs| :: r.value.blobs[i].contentType.Some? && r.value.blobs[i].contentType.value in AllowedTypes
  {
    var invalid := Validate(taskName, start, end);
    if invalid.Some? then Err(invalid.value)
    else if storageFailure.Some? then Err(HttpError(500, UploadFailedPrefix + storageFailure.value))
    else
      StoredTypesAllowed(bucket, taskId, variantId, start, end);
      Ok(StoreAll(bucket, taskId, variantId, start, end))
  }

  /** Every URI a successful upload returns is found by the variant page under
      the kind it was uploaded as, so the images show up once the URIs are
      saved as the variant's media. The end lookup scans the whole list from
      the start, so it needs the start URI not to carry the end marker too
      (`EndMarkerCollision` shows a bucket name that breaks it). */
  lemma UploadedUrisAreFound(taskName: string, taskId: int, variantId: int,
                             start: Option<UploadedFile>, end: Option<UploadedFile>,
                             bucket: string)
    requires UploadTaskImages(taskName, taskId, variantId, start, end, bucket, None).Ok?
    ensures var uris := UploadTaskImages(taskName, taskId, variantId, start, end, bucket, None).value.uris;
      && (start.Some? ==> FindImage(uris, variantId, StartKind) == Some(uris[0]))
      && (end.Some? && (start.Some? ==> !Contains(uris[0], Marker(variantId, EndKind))) ==>
            FindImage(uris, variantId, EndKind) == Some(uris[|uris| - 1]))
  {
    var uris := UploadTaskImages(taskName, taskId, variantId, start, end, bucket, None).value.uris;
    if start.Some? {
      UploadedStartFound(uris, bucket, taskId, variantId, FileExtension(start.value));
    }
    if end.Some? && (start.Some? ==> !Contains(uris[0], Marker(variantId, EndKind))) {
      UploadedEndFound(uris, bucket, taskId, variantId, FileExtension(end.value));
    }
  }

  /** A list headed by a generated start URI yields it as the start image. */
  lemma UploadedStartFound(uris: seq<string>, bucket: string, taskId: int, variantId: int, extension: string)
    requires |uris| > 0 && uris[0] == GsUri(bucket, ImageFilename(taskId, variantId, StartKind, extension))
    ensures FindImage(uris, variantId, StartKind) == Some(uris[0])
  {
    GeneratedUriContains(bucket, taskId, variantId, StartKind, extension);
    ConfigImages.FoundAt(uris, variantId, StartKind, 0);
  }

  /** A list of at most two URIs ending in a generated end URI yields it as
      the end image unless the first URI also carries the end marker. */
  lemma UploadedEndFound(uris: seq<string>, bucket: string, taskId: int, variantId: int, extension: string)
    requires 0 < |uris| <= 2
    requires uris[|uris| - 1] == GsUri(bucket, ImageFilename(taskId, variantId, EndKind, extension))
    requires |uris| == 2 ==> !Contains(uris[0], Marker(variantId, EndKind))
    ensures FindImage(uris, variantId, EndKind) == Some(uris[|uris| - 1])
  {
    GeneratedUriContains(bucket, taskId, variantId, EndKind, extension);
    ConfigImages.FoundAt(uris, variantId, EndKind, |uris| - 1);
  }

  /** A generated URI contains the marker of its own kind. */
  lemma GeneratedUriContains(bucket: string, taskId: int, variantId: int, kind: ImageKind, extension: string)
    ensures Contains(GsUri(bucket, ImageFilename(taskId, variantId, kind, extension)), Marker(variantId, kind))
  {
    var u := GsUri(bucket, ImageFilename(taskId, variantId, kind, extension));
    GeneratedUriFound(bucket, taskId, variantId, kind, extension);
    assert FindImage([u], variantId, kind) == Some(u);
    assert [u][0] == u;
  }

  /** A bucket whose name contains `_5_end` puts the end marker into the start
      URI as well, so the page's first-match lookup takes the start image for
      the end image of variant 5. */
  lemma EndMarkerCollision()
    ensures var f := UploadedFile(None, Some("image/png"));
      var r := UploadTaskImages("t", 7, 5, Some(f), Some(f), "b_5_end", None);
      && r.Ok? && |r.value.uris| == 2
      && r.value.uris[0] != r.value.uris[1]
      && FindImage(r.value.uris, 5, EndKind) == Some(r.value.uris[0])
  {
    var f := UploadedFile(None, Some("image/png"));
    assert Validate("t", Some(f), Some(f)).None? by {
      assert AllowedType(f);
      assert Strip("t") == "t";
    }
    var uris := UploadTaskImages("t", 7, 5, Some(f), Some(f), "b_5_end", None).value.uris;
    assert FileExtension(f) == ".jpg";
    CollisionStartUri();
    assert Contains(uris[0], Marker(5, EndKind));
    assert FirstIndexContaining(uris, Marker(5, EndKind)) == Some(0);
    BothImagesStoredApart("t", 7, 5, f, f, "b_5_end");
  }

  /** The start URI of the collision example carries the end marker of variant 5. */
  lemma CollisionStartUri()
    ensures Contains(GsUri("b_5_end", ImageFilename(7, 5, StartKind, ".jpg")), Marker(5, EndKind))
  {
    var m := Marker(5, EndKind);
    var name := ImageFilename(7, 5, StartKind, ".jpg");
    EndMarkerOfFive();
    assert "b_5_end" == "b" + "_5_end";
    assert GsUri("b" + m, name) == "gs://" + ("b" + m) + "/" + name;
    BucketRegroup("gs://", "b", m, name);
    ContainsInMiddle("gs://" + "b", m, "/" + name);
  }

  /** The end marker of variant 5 spelled out. */
  lemma EndMarkerOfFive()
    ensures Marker(5, EndKind) == "_5_end"
  {
    assert IntToString(5) == "5";
    assert EndKind.Name() == "end";
  }

  /** A URI regrouped around a part of its bucket name. */
  lemma BucketRegroup(scheme: string, b: string, m: string, name: string)
    ensures scheme + (b + m) + "/" + name == (scheme + b) + m + ("/" + name)
  {
  }

  /** A start and an end image uploaded together are stored under different names. */
  lemma BothImagesStoredApart(taskName: string, taskId: int, variantId: int,
                              start: UploadedFile, end: UploadedFile, bucket: string)
    requires UploadTaskImages(taskName, taskId, variantId, Some(start), Some(end), bucket, None).Ok?
    requires FileExtension(start) == FileExtension(end)
    ensures var r := UploadTaskImages(taskName, taskId, variantId, Some(start), Some(end), bucket, None).value;
      |r.blobs| == 2 && r.blobs[0].name != r.blobs[1].name
  {
    StartEndNamesDiffer(taskId, variantId, FileExtension(start));
  }

  /** `get_images_as_base64` as written: the loop calls a method the storage
      service does not define, so any non-empty request fails with a 500; only
      the empty request succeeds, with no images. */
  function GetImagesAsBase64AsWritten(uris: seq<string>): (r: Result<seq<string>, HttpError>)
    ensures |uris| == 0 <==> r.Ok?
    ensures r.Ok? ==> r.value == []
    ensures r.Err? ==> r.error.status == 500
  {
    if |uris| == 0 then Ok([])
    else Err(HttpError(500, DownloadFailedPrefix + "'GCSService' object has no attribute 'get_image_as_base64'"))
  }

  /** The body the front end reads: the images on success, nothing on failure. */
  function ResponseImages(r: Result<seq<string>, HttpError>): (o: Option<seq<string>>)
    ensures o.Some? <==> r.Ok?
  {
    if r.Ok? then Some(r.value) else None
  }

  /** As written, a variant with a start image never gets a preview: every
      request fails, so the map stays at its empty initial value and the
      component falls back to the bucket URI, which a browser cannot load. */
  lemma AsWrittenPreviewIsUri(media: seq<string>, variantId: int)
    requires FindImage(media, variantId, StartKind).Some?
    ensures var uris := RequestedUris(FindImage(media, variantId, StartKind), FindImage(media, variantId, EndKind));
      && |uris| > 0
      && PreviewSource(LoadedImages(map[], uris, ResponseImages(GetImagesAsBase64AsWritten(uris))),
                       FindImage(media, variantId, StartKind).value)
         == FindImage(media, variantId, StartKind).value
  {
    NoRequestIffNothingRendered(media, variantId);
  }

  /** The evidently intended endpoint: download every URI in order with
      `download` (an error message or the base64 data), failing with a 500 on
      the first download error. */
  function GetImagesAsBase64(uris: seq<string>, download: string -> Result<string, string>): (r: Result<seq<string>, HttpError>)
    ensures r.Ok? <==> forall i | 0 <= i < |uris| :: download(uris[i]).Ok?
    ensures r.Ok? ==> |r.value| == |uris| && forall i | 0 <= i < |uris| :: r.value[i] == download(uris[i]).value
    ensures r.Err? ==> r.error.status == 500
  {
    if |uris| == 0 then Ok([])
    else
      var d := download(uris[0]);
      if d.Err? then Err(HttpError(500, DownloadFailedPrefix + d.error))
      else
        var rest := GetImagesAsBase64(uris[1..], download);
        if rest.Err? then rest
        else
          assert forall i | 1 <= i < |uris| :: uris[i] == uris[1..][i - 1];
          Ok([d.value] + rest.value)
  }

  /** With the intended endpoint, the component previews each requested image
      with the data downloaded for it, whatever an earlier run left. */
  lemma DownloadedPreviewShown(prev: map<string, Option<string>>, uris: seq<string>,
                               download: string -> Result<string, string>, i: nat)
    requires forall a, b | 0 <= a < b < |uris| :: uris[a] != uris[b]
    requires forall k | 0 <= k < |uris| :: download(uris[k]).Ok? && download(uris[k]).value != ""
    requires i < |uris|
    ensures PreviewSource(LoadedImages(prev, uris, ResponseImages(GetImagesAsBase64(uris, download))), uris[i])
         == download(uris[i]).value
  {
    var images := GetImagesAsBase64(uris, download).value;
    ImageMapPairs(uris, images, i);
  }
}

=== FILE: variant_create.dfy ===
/** The task variant create page (frontend/src/pages/TaskVariantCreatePage.tsx):
    submission checks, the body sent to create the variant, and the item
    links posted to the new variant afterwards. */
module VariantCreatePage {
  import opened Wrappers
  import opened Text
  import opened ItemModel
  import opened ItemLinks
  import opened FormInput

  /** Why `handleSubmit` refuses to send anything. */
  datatype CreateError = NoTaskSelected | NameRequired | DuplicateName

  /** The create body. */
  datatype VariantCreate = VariantCreate(name: string, description: string, notes: string, media: seq<string>)

  /** `media.trim() ? parse : []`: the media box is parsed only when not blank. */
  function GuardedMedia(s: string): (r: seq<string>)
    ensures Blank(s) ==> r == []
    ensures forall i | 0 <= i < |r| :: r[i] != ""
  {
    if Blank(s) then [] else ParseMedia(s)
  }

  /** The blank guard changes nothing: a blank box parses to no entries anyway. */
  lemma GuardedMediaIsParse(s: string)
    ensures GuardedMedia(s) == ParseMedia(s)
  {
    if Blank(s) {
      BlankParsesEmpty(s);
    }
  }

  /** The names the duplicate check compares against, lower-cased; none until
      the variant list of the selected task has loaded. */
  function ExistingNamesLower(existing: Option<seq<string>>): (r: seq<string>)
    ensures existing.None? ==> r == []
    ensures existing.Some? ==> |r| == |existing.value|
    ensures existing.Some? ==> forall i | 0 <= i < |r| :: r[i] == ToLower(existing.value[i])
  {
    if existing.None? then [] else LowerEach(existing.value)
  }

  /** Lower-cases every name. */
  function LowerEach(names: seq<string>): (r: seq<string>)
    ensures |r| == |names|
    ensures forall i | 0 <= i < |r| :: r[i] == ToLower(names[i])
  {
    if |names| == 0 then [] else [ToLower(names[0])] + LowerEach(names[1..])
  }

  /** `handleSubmit`: the three checks in order, then trimmed fields and the
      parsed media list. */
  function Submit(
    selectedTaskId: Option<int>, existing: Option<seq<string>>,
    name: string, description: string, notes: string, media: string)
    : (r: Result<VariantCreate, CreateError>)
    ensures r == Err(NoTaskSelected) <==> !IsSelected(selectedTaskId)
    ensures r == Err(NameRequired) <==> IsSelected(selectedTaskId) && Blank(name)
    ensures r == Err(DuplicateName) <==>
      && IsSelected(selectedTaskId) && !Blank(name) && existing.Some?
      && exists i | 0 <= i < |existing.value| :: ToLower(existing.value[i]) == ToLower(Trim(name))
    ensures r.Ok? ==>
      && r.value.name == Trim(name) && r.value.name != ""
      && r.value.description == Trim(description) && r.value.notes == Trim(notes)
      && r.value.media == ParseMedia(media)
  {
    if !IsSelected(selectedTaskId) then Err(NoTaskSelected)
    else if Blank(name) then Err(NameRequired)
    else if ToLower(Trim(name)) in ExistingNamesLower(existing) then Err(DuplicateName)
    else
      GuardedMediaIsParse(media);
      Ok(VariantCreate(Trim(name), Trim(description), Trim(notes), GuardedMedia(media)))
  }

  /** An accepted name differs, ignoring ASCII case, from every loaded
      variant name of the task; names differing only in case or surrounding
      spaces are refused. */
  lemma SubmittedNameIsNew(
    selectedTaskId: Option<int>, existing: seq<string>,
    name: string, description: string, notes: string, media: string)
    requires IsSelected(selectedTaskId)
    ensures var r := Submit(selectedTaskId, Some(existing), name, description, notes, media);
      r.Ok? ==> forall i | 0 <= i < |existing| :: ToLower(existing[i]) != ToLower(r.value.name)
    ensures !Blank(name) && (exists i | 0 <= i < |existing| :: ToLower(existing[i]) == ToLower(Trim(name))) ==>
      Submit(selectedTaskId, Some(existing), name, description, notes, media) == Err(DuplicateName)
  {
  }

  /** "Default" is taken once "default" exists, whatever the spacing. */
  lemma CaseVariantRefused()
    ensures Submit(Some(3), Some(["default"]), " Default ", "", "", "") == Err(DuplicateName)
  {
    DefaultTaken();
    SubmittedNameIsNew(Some(3), ["default"], " Default ", "", "", "");
  }

  /** `" Default "` is not blank and, trimmed and lower-cased, equals the
      lower-cased `"default"`. */
  lemma DefaultTaken()
    ensures !Blank(" Default ")
    ensures exists i | 0 <= i < |["default"]| :: ToLower(["default"][i]) == ToLower(Trim(" Default "))
  {
    TrimPaddedDefault();
    LowerDefault();
    var names := ["default"];
    assert names[0] == "default";
    assert ToLower(names[0]) == ToLower(Trim(" Default "));
  }

  /** `"Default"` and `"default"` both lower-case to `"default"`. */
  lemma LowerDefault()
    ensures ToLower("Default") == "default"
    ensures ToLower("default") == "default"
  {
    ToLowerIdempotent("Default");
  }

  /** `" Default ".trim()` is `"Default"`. */
  lemma TrimPaddedDefault()
    ensures Trim(" Default ") == "Default"
  {
    var s := " Default ";
    assert LeadCount(s[1..], IsJsSpace) == 0;
    assert LeadCount(s, IsJsSpace) == 1;
    assert TrailCount(s[1..][..7], IsJsSpace) == 0;
    assert TrailCount(s[1..], IsJsSpace) == 1;
    assert s[1..8] == "Default";
  }

  /** The item links posted to the freshly created variant (which has none)
      all succeed exactly when the picked ids are distinct, and then the
      variant holds one link per picked item with its quantity. */
  lemma CreatedVariantLinks(items: seq<VariantItem>)
    ensures ApplyAll(map[], PostRequests(items)).Ok? <==> UniqueIds(items)
    ensures UniqueIds(items) ==> ApplyAll(map[], PostRequests(items)) == Ok(TableOf(items))
  {
    PostAllSucceedsIff(map[], items);
    if UniqueIds(items) {
      PostAllResult(map[], items);
      assert map[] + TableOf(items) == TableOf(items);
    }
  }
}

=== FILE: variant_edit.dfy ===
/** The task variant edit page (frontend/src/pages/TaskVariantEditPage.tsx):
    a non-merging item add, removal by id, the delete-then-repost item sync,
    the start/end image slots and the submitted variant fields. */
module VariantEditPage {
  import opened Wrappers
  import opened Text
  import opened ItemModel
  import opened ItemLinks
  import opened ConfigImages
  import opened FormInput

  /** Item picker state of the page: chosen catalogue id and entered quantity. */
  datatype ItemForm = ItemForm(selectedItemId: Option<int>, itemQuantity: int)

  /** Picker state after a successful add. */
  const ClearedItemForm := ItemForm(None, 1)

  /** The guards of `addItem`: an id is selected, the quantity is positive and
      the id exists in the loaded catalogue. */
  predicate AddAccepted(catalogue: Option<seq<CatalogItem>>, form: ItemForm) {
    && IsSelected(form.selectedItemId)
    && form.itemQuantity > 0
    && FindCatalogItem(catalogue, form.selectedItemId.value).Some?
  }

  /** `addItem`: always appends one `(id, name, quantity)` entry, never merges. */
  function AddItem(items: seq<VariantItem>, catalogue: Option<seq<CatalogItem>>, form: ItemForm)
    : (r: (seq<VariantItem>, ItemForm))
    ensures !AddAccepted(catalogue, form) ==> r == (items, form)
    ensures AddAccepted(catalogue, form) ==>
      && r.1 == ClearedItemForm
      && |r.0| == |items| + 1
      && r.0[..|items|] == items
      && r.0[|items|].itemId == form.selectedItemId.value
      && r.0[|items|].itemName == FindCatalogItem(catalogue, form.selectedItemId.value).value.name
      && r.0[|items|].quantity == form.itemQuantity
  {
    if !AddAccepted(catalogue, form) then (items, form)
    else
      var id := form.selectedItemId.value;
      var c := FindCatalogItem(catalogue, id).value;
      (items + [VariantItem(id, c.name, form.itemQuantity, None, None, None)], ClearedItemForm)
  }

  /** An accepted add raises the selected id's total by the quantity, whatever the list held. */
  lemma AddItemTotals(items: seq<VariantItem>, catalogue: Option<seq<CatalogItem>>, form: ItemForm, x: int)
    requires AddAccepted(catalogue, form)
    ensures TotalQuantity(AddItem(items, catalogue, form).0, x)
         == TotalQuantity(items, x) + (if x == form.selectedItemId.value then form.itemQuantity else 0)
  {
    var r := AddItem(items, catalogue, form).0;
    assert r == items + [r[|items|]];
    TotalQuantityAppend(items, [r[|items|]], x);
    assert [r[|items|]][1..] == [];
  }

  /** Unlike the item selector, adding an id already present creates a
      duplicate entry, and the item sync then fails at the second post. */
  lemma AddItemCanDuplicate(
    items: seq<VariantItem>, catalogue: Option<seq<CatalogItem>>, form: ItemForm,
    t: LinkTable, original: seq<VariantItem>)
    requires AddAccepted(catalogue, form)
    requires HasItem(items, form.selectedItemId.value)
    requires UniqueIds(original) && t.Keys == IdSet(original)
    ensures !UniqueIds(AddItem(items, catalogue, form).0)
    ensures ApplyAll(t, SyncRequests(Some(original), AddItem(items, catalogue, form).0)).Err?
  {
    var r := AddItem(items, catalogue, form).0;
    var k :| 0 <= k < |items| && items[k].itemId == form.selectedItemId.value;
    assert r[k] == items[k];
    assert r[k].itemId == r[|items|].itemId;
    SyncResult(t, original, r);
  }

  /** One configuration-image slot: the existing URI (`''` when none), the newly
      chosen file (by name) and the delete flag. */
  datatype ImageSlot = ImageSlot(existing: string, newFile: Option<string>, shouldDelete: bool)

  /** The slot before the variant has loaded. */
  const EmptySlot := ImageSlot("", None, false)

  /** On load, the slot takes the first media URL carrying its marker, if any. */
  function LoadExisting(slot: ImageSlot, media: Option<seq<string>>, variantId: int, kind: ImageKind)
    : (r: ImageSlot)
    ensures r.newFile == slot.newFile && r.shouldDelete == slot.shouldDelete
    ensures media.Some? && FindImage(media.value, variantId, kind).Some? ==>
      r.existing == FindImage(media.value, variantId, kind).value
    ensures media.None? || FindImage(media.value, variantId, kind).None? ==> r.existing == slot.existing
  {
    if media.Some? && FindImage(media.value, variantId, kind).Some? then
      slot.(existing := FindImage(media.value, variantId, kind).value)
    else slot
  }

  /** `handleFileSelect`: a file whose type starts with `image/` becomes the new file and clears the delete flag. */
  function SelectFile(slot: ImageSlot, fileName: string, contentType: string): (r: ImageSlot)
    ensures IsImageType(contentType) ==> r == ImageSlot(slot.existing, Some(fileName), false)
    ensures !IsImageType(contentType) ==> r == slot
  {
    if IsImageType(contentType) then slot.(newFile := Some(fileName), shouldDelete := false) else slot
  }

  /** `file.type.startsWith('image/')`. */
  predicate IsImageType(contentType: string) {
    |contentType| >= 6 && contentType[..6] == "image/"
  }

  /** `removeImage`: drops the new file and flags the slot for deletion. */
  function RemoveNewImage(slot: ImageSlot): (r: ImageSlot)
    ensures r.existing == slot.existing && r.newFile.None? && r.shouldDelete
  {
    slot.(newFile := None, shouldDelete := true)
  }

  /** `removeExistingImage`: flags the slot for deletion, keeping any new file. */
  function RemoveExistingImage(slot: ImageSlot): (r: ImageSlot)
    ensures r.existing == slot.existing && r.newFile == slot.newFile && r.shouldDelete
  {
    slot.(shouldDelete := true)
  }

  /** Whether the save step touches images at all. */
  predicate NeedsImageWork(start: ImageSlot, end: ImageSlot) {
    start.newFile.Some? || end.newFile.Some? || start.shouldDelete || end.shouldDelete
  }

  /** The existing URI of a slot survives into the media list. */
  predicate Kept(slot: ImageSlot) {
    !slot.shouldDelete && slot.existing != ""
  }

  /** The existing URI of a slot is sent for deletion. */
  predicate Deleted(slot: ImageSlot) {
    slot.shouldDelete && slot.existing != ""
  }

  /** `imagesToDelete`: flagged, non-empty existing URIs, start before end. */
  function ImagesToDelete(start: ImageSlot, end: ImageSlot): (r: seq<string>)
    ensures start.existing in r ==> Deleted(start) || (Deleted(end) && end.existing == start.existing)
    ensures Deleted(start) ==> |r| >= 1 && r[0] == start.existing
    ensures Deleted(end) ==> |r| >= 1 && r[|r| - 1] == end.existing
    ensures |r| == (if Deleted(start) then 1 else 0) + (if Deleted(end) then 1 else 0)
  {
    (if Deleted(start) then [start.existing] else []) + (if Deleted(end) then [end.existing] else [])
  }

  /** `finalMedia`: kept existing start, kept existing end, then the uploaded URIs. */
  function FinalMedia(start: ImageSlot, end: ImageSlot, newUris: seq<string>): (r: seq<string>)
    ensures |r| == (if Kept(start) then 1 else 0) + (if Kept(end) then 1 else 0) + |newUris|
    ensures r[|r| - |newUris|..] == newUris
    ensures Kept(start) ==> r[0] == start.existing
    ensures Kept(end) ==> r[if Kept(start) then 1 else 0] == end.existing
  {
    (if Kept(start) then [start.existing] else []) + (if Kept(end) then [end.existing] else []) + newUris
  }

  /** Every non-empty existing URI is either kept or deleted, never both. */
  lemma KeptOrDeleted(slot: ImageSlot)
    requires slot.existing != ""
    ensures Kept(slot) != Deleted(slot)
  {
  }

  /** Choosing a replacement start image clears the delete flag that made the
      file input appear, so the old start URI is kept in front of the newly
      uploaded one and the first-match lookup keeps returning the old image. */
  lemma ReplacedStartImageStillShown()
    ensures
      var prior := "gs://media/7_5_start.jpg";
      var chosen := "gs://media/7_5_start.png";
      var slot := SelectFile(RemoveExistingImage(ImageSlot(prior, None, false)), "new.png", "image/png");
      var media := FinalMedia(slot, EmptySlot, [chosen]);
      && ImagesToDelete(slot, EmptySlot) == []
      && media == [prior, chosen]
      && FindImage(media, 5, StartKind) == Some(prior)
  {
    var prior := "gs://media/7_5_start.jpg";
    var chosen := "gs://media/7_5_start.png";
    assert IsImageType("image/png");
    assert IntToString(5) == "5";
    assert Marker(5, StartKind) == "_5_start";
    assert OccursAt(prior, "_5_start", 12);
  }

  /** A slot whose existing URI is replaced: flagged, or given a new file. */
  predicate Replaced(slot: ImageSlot) {
    slot.shouldDelete || slot.newFile.Some?
  }

  /** Under the intended composition, the existing URI of a slot survives
      into the media list: the slot was neither flagged nor given a file. */
  predicate KeptIntended(slot: ImageSlot) {
    !Replaced(slot) && slot.existing != ""
  }

  /** Under the intended composition, the existing URI of a slot is deleted:
      the slot was flagged or given a replacement file. */
  predicate DeletedIntended(slot: ImageSlot) {
    Replaced(slot) && slot.existing != ""
  }

  /** The intended media list: an existing URI is kept only when the slot was
      neither flagged nor given a replacement file. */
  function FinalMediaReplacing(start: ImageSlot, end: ImageSlot, newUris: seq<string>): (r: seq<string>)
    ensures |r| == (if KeptIntended(start) then 1 else 0) + (if KeptIntended(end) then 1 else 0) + |newUris|
    ensures r[|r| - |newUris|..] == newUris
    ensures KeptIntended(start) ==> r[0] == start.existing
    ensures KeptIntended(end) ==> r[if KeptIntended(start) then 1 else 0] == end.existing
    ensures var kept := r[..|r| - |newUris|];
      forall x :: x in kept <==> (x == start.existing && KeptIntended(start)) || (x == end.existing && KeptIntended(end))
  {
    (if KeptIntended(start) then [start.existing] else [])
    + (if KeptIntended(end) then [end.existing] else [])
    + newUris
  }

  /** The intended deletions: every replaced, non-empty existing URI, start
      before end. */
  function ImagesToDeleteReplacing(start: ImageSlot, end: ImageSlot): (r: seq<string>)
    ensures |r| == (if DeletedIntended(start) then 1 else 0) + (if DeletedIntended(end) then 1 else 0)
    ensures DeletedIntended(start) ==> r[0] == start.existing
    ensures DeletedIntended(end) ==> r[|r| - 1] == end.existing
    ensures forall x :: x in r <==>
      (x == start.existing && DeletedIntended(start)) || (x == end.existing && DeletedIntended(end))
  {
    (if DeletedIntended(start) then [start.existing] else [])
    + (if DeletedIntended(end) then [end.existing] else [])
  }

  /** With the corrected composition, a newly uploaded start image that comes
      first among the uploads is what the first-match lookup finds, unless the
      kept end image carries the start marker too. */
  lemma NewStartImageShown(start: ImageSlot, end: ImageSlot, newUris: seq<string>, variantId: int)
    requires Replaced(start) && |newUris| > 0 && Contains(newUris[0], Marker(variantId, StartKind))
    requires !(KeptIntended(end) && Contains(end.existing, Marker(variantId, StartKind)))
    ensures FindImage(FinalMediaReplacing(start, end, newUris), variantId, StartKind) == Some(newUris[0])
  {
    var r := FinalMediaReplacing(start, end, newUris);
    var kept := r[..|r| - |newUris|];
    assert r == kept + newUris;
    assert kept == (if KeptIntended(end) then [end.existing] else []);
    var m := Marker(variantId, StartKind);
    assert forall j | 0 <= j < |kept| :: !Contains(r[j], m);
    assert r[|kept|] == newUris[0];
  }

  /** With the corrected composition, a newly uploaded end image that comes
      last among the uploads is what the first-match lookup finds, provided
      neither the kept start image nor an earlier upload carries the end
      marker. */
  lemma NewEndImageShown(start: ImageSlot, end: ImageSlot, newUris: seq<string>, variantId: int)
    requires Replaced(end) && |newUris| > 0 && Contains(newUris[|newUris| - 1], Marker(variantId, EndKind))
    requires !(KeptIntended(start) && Contains(start.existing, Marker(variantId, EndKind)))
    requires forall j | 0 <= j < |newUris| - 1 :: !Contains(newUris[j], Marker(variantId, EndKind))
    ensures FindImage(FinalMediaReplacing(start, end, newUris), variantId, EndKind) == Some(newUris[|newUris| - 1])
  {
    var kept := if KeptIntended(start) then [start.existing] else [];
    assert FinalMediaReplacing(start, end, newUris) == kept + newUris;
    OnlyLastMatches(kept, newUris, variantId, EndKind);
  }

  /** When only the last of the uploads carries the marker and nothing kept
      before them does, the lookup finds the last upload. */
  lemma OnlyLastMatches(kept: seq<string>, newUris: seq<string>, variantId: int, kind: ImageKind)
    requires |newUris| > 0 && Contains(newUris[|newUris| - 1], Marker(variantId, kind))
    requires forall j | 0 <= j < |kept| :: !Contains(kept[j], Marker(variantId, kind))
    requires forall j | 0 <= j < |newUris| - 1 :: !Contains(newUris[j], Marker(variantId, kind))
    ensures FindImage(kept + newUris, variantId, kind) == Some(newUris[|newUris| - 1])
  {
    var m := Marker(variantId, kind);
    var r := kept + newUris;
    forall j | 0 <= j < |r| - 1
      ensures !Contains(r[j], m)
    {
      if j >= |kept| {
        assert r[j] == newUris[j - |kept|];
      } else {
        assert r[j] == kept[j];
      }
    }
    assert r[|r| - 1] == newUris[|newUris| - 1];
    assert FirstIndexContaining(r, m) == Some(|r| - 1);
  }

  /** With the corrected composition, a replaced image never survives in the
      media list unless the upload returned the same URI, and every existing
      URI is either kept or deleted, for the start and the end slot alike. */
  lemma ReplacementShowsNewImage(start: ImageSlot, end: ImageSlot, newUris: seq<string>)
    requires start.existing != end.existing
    ensures var kept := FinalMediaReplacing(start, end, newUris)[..|FinalMediaReplacing(start, end, newUris)| - |newUris|];
      && (Replaced(start) ==> start.existing !in kept)
      && (Replaced(end) ==> end.existing !in kept)
    ensures var kept := FinalMediaReplacing(start, end, newUris)[..|FinalMediaReplacing(start, end, newUris)| - |newUris|];
      var deleted := ImagesToDeleteReplacing(start, end);
      && (start.existing != "" ==> (start.existing in deleted) != (start.existing in kept))
      && (end.existing != "" ==> (end.existing in deleted) != (end.existing in kept))
  {
  }

  /** The base64 previews of the two existing images; `''` while unset. */
  datatype Previews = Previews(start: string, end: string)

  /** The previews before any download. */
  const NoPreviews := Previews("", "")

  /** `downloadExistingImages` as written: the request carries only the
      non-empty URIs, yet the end preview is always read from position 1 of
      the response; an empty or missing response entry leaves that preview
      as it was. */
  function ExistingPreviewsAsWritten(prev: Previews, startUri: string, endUri: string, images: seq<string>): (r: Previews)
    ensures startUri != "" && |images| > 0 && images[0] != "" ==> r.start == images[0]
    ensures !(startUri != "" && |images| > 0 && images[0] != "") ==> r.start == prev.start
    ensures endUri != "" && |images| > 1 && images[1] != "" ==> r.end == images[1]
    ensures !(endUri != "" && |images| > 1 && images[1] != "") ==> r.end == prev.end
  {
    Previews(
      if startUri != "" && |images| > 0 && images[0] != "" then images[0] else prev.start,
      if endUri != "" && |images| > 1 && images[1] != "" then images[1] else prev.end)
  }

  /** A variant with only an end image sends a one-entry request, receives
      one image back, and still shows no end preview when the page opens. */
  lemma LoneEndImageGetsNoPreview()
    ensures
      var endUri := "gs://media/7_5_end.jpg";
      var images := ["data:image/jpeg;base64,AA=="];
      && RequestedUris(Some(""), Some(endUri)) == [endUri]
      && |images| == |RequestedUris(Some(""), Some(endUri))|
      && ExistingPreviewsAsWritten(NoPreviews, "", endUri, images).end == ""
  {
  }

  /** The intended reading: the end preview sits after the start one only when
      a start URI was requested; as in the source, an empty or missing entry
      leaves that preview as it was. */
  function ExistingPreviews(prev: Previews, startUri: string, endUri: string, images: seq<string>): (r: Previews)
    ensures r.start != prev.start ==> startUri != "" && r.start in images && r.start != ""
    ensures r.end != prev.end ==> endUri != "" && r.end in images && r.end != ""
  {
    var endAt := if startUri != "" then 1 else 0;
    Previews(
      if startUri != "" && |images| > 0 && images[0] != "" then images[0] else prev.start,
      if endUri != "" && |images| > endAt && images[endAt] != "" then images[endAt] else prev.end)
  }

  /** When the response has one non-empty image per requested URI, each
      existing image gets exactly the image returned for its own URI, and an
      image that is absent keeps its earlier preview (none when the page
      opens). */
  lemma ExistingPreviewsMatchRequest(prev: Previews, startUri: string, endUri: string, images: seq<string>)
    requires |images| == |RequestedUris(Some(startUri), Some(endUri))|
    requires forall i | 0 <= i < |images| :: images[i] != ""
    ensures var uris := RequestedUris(Some(startUri), Some(endUri));
      var r := ExistingPreviews(prev, startUri, endUri, images);
      && (startUri != "" ==> uris[0] == startUri && r.start == images[0])
      && (endUri != "" ==> uris[|uris| - 1] == endUri && r.end == images[|uris| - 1])
      && (startUri == "" ==> r.start == prev.start)
      && (endUri == "" ==> r.end == prev.end)
    ensures var r := ExistingPreviews(NoPreviews, startUri, endUri, images);
      (startUri == "" <==> r.start == "") && (endUri == "" <==> r.end == "")
  {
  }

  /** The update body of `handleSubmit`. */
  datatype VariantUpdate = VariantUpdate(
    name: string, description: string, notes: string,
    embodimentId: Option<int>, teleopModeId: Option<int>, media: seq<string>)

  /** `handleSubmit`: rejects a blank name; otherwise sends trimmed text fields,
      the selected embodiment and teleop mode, and the loaded media unchanged. */
  function Submit(
    name: string, description: string, notes: string,
    embodimentId: Option<int>, teleopModeId: Option<int>, loadedMedia: Option<seq<string>>)
    : (r: Result<VariantUpdate, string>)
    ensures r.Err? <==> Blank(name)
    ensures r.Err? ==> r.error == "Variant name is required"
    ensures r.Ok? ==>
      && r.value.name == Trim(name) && r.value.name != ""
      && r.value.description == Trim(description) && r.value.notes == Trim(notes)
      && r.value.embodimentId == embodimentId && r.value.teleopModeId == teleopModeId
      && r.value.media == loadedMedia.GetOr([])
  {
    if Blank(name) then Err("Variant name is required")
    else Ok(VariantUpdate(Trim(name), Trim(description), Trim(notes), embodimentId, teleopModeId,
                          loadedMedia.GetOr([])))
  }

  /** Submitting the fields of a sent update again sends the same update. */
  lemma SubmitStable(
    name: string, description: string, notes: string,
    embodimentId: Option<int>, teleopModeId: Option<int>, loadedMedia: Option<seq<string>>)
    requires Submit(name, description, notes, embodimentId, teleopModeId, loadedMedia).Ok?
    ensures
      var u := Submit(name, description, notes, embodimentId, teleopModeId, loadedMedia).value;
      Submit(u.name, u.description, u.notes, u.embodimentId, u.teleopModeId, Some(u.media)) == Ok(u)
  {
    TrimIdempotent(name);
    TrimIdempotent(description);
    TrimIdempotent(notes);
  }
}

=== FILE: wrappers.dfy ===
/** Failure-carrying datatypes shared by every module of the model. */
module Wrappers {

  /** A value that may be absent: JavaScript `undefined`/`null`, Python `None`. */
  datatype Option<+T> = None | Some(value: T) {
    function GetOr(default: T): T {
      match this
      case Some(v) => v
      case None => default
    }
  }

  /** The outcome of an operation that can fail with an error of type `E`. */
  datatype Result<+R, +E> = Ok(value: R) | Err(error: E)
}
